=== FILE: README.md ===
# Photo cache reconciliation of the TEW9 photo editor

This project models the core of the sktew9ee photo editor in Dafny. The editor keeps a
local SQLite cache of the pictures that a Total Extreme Wrestling 9 game database assigns
to its workers, contracts, agers and alters. The model covers the following parts:

- the four cache engines: worker, contract, ager and alter. Each one can build, check,
  initialise, reset, refresh, list, fetch a file name and update a file name;
- the captions the engines show: `Worker[UID]`, `Worker[Initials][Name][UID]`,
  `Worker[Age@T][UID]` and `Worker[UID][Desc]`. The engines read the UID back with two
  Python regular expressions: the anchored `\[(\d+)\]$` and the unanchored `\[(\d+)\]`;
- the file helpers: extension extraction, the two name formatters, directory filtering;
- the root-path resolution of the photo folder;
- the settings catalogue, with its validation and conversion rules, and the settings
  file, with its initialisation merge and get/set;
- the whitelisted column fetch of the contract table.

The SQLite cache is a `CacheStore.Store` value with one optional table per cache table.
An absent table is `None`. The game worker cache is keyed by the game's worker uid, which
SQLite uses as the rowid; its table is therefore kept in ascending uid order
(`CacheStore.GameWorkerTable`), and an insert with a uid already present is refused. Every engine operation is a pure function from a store to a
new store and a result. The outside world enters as parameters:

- the game database's answers are `Result` values;
- the photo folder's listing is an optional sequence of names;
- the clock is a calendar `DateTime` plus a microsecond count;
- the settings are strings.

A write to the game database is returned as a `GameWrite` value, not performed.

## Model

| member | source | states |
|---|---|---|
| Filer.ExtractExtension | utils/filer.py:244-258 | No extension is found exactly when the last path component ends with a dot or has no dot after its first character; a found extension starts with a dot, holds no further dot, and ends the name |
| Filer.FilepathFormatter | utils/filer.py:181-210 | The path is returned unchanged exactly when no extension or an empty one is given, or when the last component's suffix already matches the extension, case-insensitively, with or without the leading dot; otherwise it is the path, a dot and the extension |
| Filer.FilenameFormatter | utils/filer.py:212-242 | The result is the last component, possibly with the extension appended; it never contains a separator when the extension does not |
| Filer.FilenameIsFormattedName | utils/filer.py:212-242 | Formatting a file name equals formatting its last component as a path |
| Filer.FormatWithOwnExtension | utils/filer.py:197-207 | Re-appending the extension a path already has leaves that path unchanged |
| Filer.FormatterIdempotent | utils/filer.py:197-207 | Formatting twice with the same plain extension equals formatting once |
| Filer.FormatterNotIdempotentOnEmptyName | utils/filer.py:197-207 | For an empty name this fails: `""` becomes `.gif` and then `.gif.gif`, because `.gif` is a hidden file with no extension |
| Filer.LeadingDotDoubles | utils/filer.py:197-207 | An extension given with its dot is doubled: `x` with `.gif` becomes `x..gif` |
| Filer.GlobLiteral | utils/filer.py:49-78 | A pattern without `*` matches only the identical name |
| Filer.GlobStarSuffix | utils/filer.py:49-78 | The pattern `*t` matches exactly the names ending in `t` |
| Filer.Select | utils/filer.py:49-78 | The kept names are an order-preserving subsequence of the listing; every kept name passes the include, exclude, extension-include and extension-exclude filters; every listed name that passes them is kept |
| Filer.FetchFiles | utils/filer.py:24-83 | A missing folder is an error; otherwise the result keeps exactly the listed names that pass the filters, in order |
| Filer.FetchCounts | utils/filer.py:24-83 | Every name that passes the filters is fetched as many times as it is listed; every other name is not fetched at all |
| Filer.NoFiltersKeepAll | utils/filer.py:24-83 | With no filters the whole listing comes back |
| UidRegex.AnchoredUid | modules/photo_editor/photo_contract_engine.py:432 | A UID is found exactly when some `[digits]` ends the text, or ends it just before a final newline |
| UidRegex.FirstUid | modules/photo_editor/photo_alters_engine.py:390 | A UID is found exactly when some `[digits]` occurs anywhere; the leftmost occurrence is the one read |
| UidRegex.MatchUnique | modules/photo_editor/photo_contract_engine.py:432 | A match starting at a given place has only one possible end |
| UidRegex.AnchoredTag | modules/photo_editor/photo_contract_engine.py:432 | Appending `[n]` to any text makes the anchored search read `n` |
| UidRegex.FirstSkipsPrefix | modules/photo_editor/photo_alters_engine.py:390 | Text with no bracketed number in front of the tag cannot change what the unanchored search reads |
| UidRegex.FirstTag | modules/photo_editor/photo_alters_engine.py:390 | A text that starts with `[n]` is read as `n` by the unanchored search |
| Labels.WorkerName | modules/photo_editor/photo_contract_engine.py:238-261 | The name is the first looked-up name, or the unknown placeholder when the lookup fails or finds nothing |
| Labels.FedInitials | modules/photo_editor/photo_contract_engine.py:279-307 | The initials come from the primary lookup when it succeeds, from the fallback when only the primary fails, and otherwise are `UNK` |
| Labels.ContractLabel | modules/photo_editor/photo_contract_engine.py:309-312 | The contract caption starts with the worker name and the anchored search reads its UID back |
| Labels.AgeTagNoMatch | modules/photo_editor/photo_agers_engine.py:265-266 | The `[Age@T]` tag never looks like a bracketed UID |
| Labels.AgerLabel | modules/photo_editor/photo_agers_engine.py:265-266 | The ager caption starts with the worker name; the anchored search reads its UID; the unanchored search does too when the worker name has no bracketed number |
| Labels.AgerLabelWorkerCaptures | modules/photo_editor/photo_agers_engine.py:415 | For the worker `Ace[7]`, the unanchored search reads 7 instead of the ager's UID |
| Labels.SplitRecordName | modules/photo_editor/photo_alters_engine.py:265-271 | The worker part has no `\|`; when the record name has one, worker, `\|` and description rebuild it; otherwise the whole name is the worker and the description is empty |
| Labels.AlterLabel | modules/photo_editor/photo_alters_engine.py:272-274 | The alter caption starts with `worker[UID]`, ends with `[desc]` when there is a description, and the unanchored search reads the UID when the worker name has no bracketed number |
| Labels.AlterLabelAnchoredMisreads | modules/photo_editor/photo_alters_engine.py:272-274 | A numeric description is read by an anchored search instead of the UID, which explains why the alter engine uses the unanchored one |
| CacheStore.FillRows | modules/photo_editor/photo_contract_engine.py:183-206 | Rows are converted in order; conversion stops at the first record missing a column, which is reported; earlier rows stay converted |
| CacheStore.InsertRecords | modules/photo_editor/photo_worker_engine.py:147-156 | An empty batch changes nothing; a missing table takes no rows; otherwise converted rows are appended and the first failure is reported |
| CacheStore.UpdateWhere | modules/photo_editor/photo_contract_engine.py:503-512 | An UPDATE ... WHERE rewrites exactly the matching rows and keeps the others and the order |
| CacheStore.FirstWhere | modules/photo_editor/photo_contract_engine.py:419-459 | The first matching row is found, or none when no row matches |
| CacheStore.FirstAfterUpdate | modules/photo_editor/photo_contract_engine.py:503-512 | When the rewrite keeps the key, the first row with that key after the update is the rewritten form of the first one before |
| CacheStore.FirstUnaffected | modules/photo_editor/photo_contract_engine.py:503-512 | Rows under a different key read back the same after the update |
| CacheStore.NextRowid | modules/photo_editor/photo_worker_engine.py:367 | The rowid given to a row inserted without a uid is positive and above every stored uid |
| CacheStore.Place | modules/photo_editor/photo_worker_engine.py:205 | A row is stored at a position of the table, everything else keeping its order, and the table stays in ascending uid order |
| CacheStore.InsertByRowid | database/sqlite.py:161-175 | A text uid is refused; an integer uid is refused exactly when a stored row has it; a missing uid gets the next rowid and goes last; otherwise the row is placed among the others |
| CacheStore.ReadAll | modules/photo_editor/photo_contract_engine.py:208-222 | The read succeeds exactly on a present, non-empty table; a missing table and an empty one are distinct errors |
| CacheStore.CacheCheck | modules/photo_editor/photo_contract_engine.py:71-102 | The intended check: the cache is ready exactly when checking is not skipped and the table exists and has rows |
| CacheStore.CacheCheckAsWritten | modules/photo_editor/photo_contract_engine.py:71-102 | The check as written succeeds only when skipped, and then reports not ready; unskipped, it raises a missing-attribute error |
| CacheStore.CheckAsWrittenRaises | modules/photo_editor/photo_contract_engine.py:84 | On a populated table the intended check says ready, while the written one raises |
| CacheStore.LocalPhotoFiles | modules/photo_editor/photo_contract_engine.py:319-346 | The local file list comes from the cached local table when it has rows, and from a folder scan otherwise |
| WorkerEngine.WorkerFilterMeaning | modules/photo_editor/photo_worker_engine.py:251-260 | A folder entry is a worker picture exactly when the worker engine's filters keep it |
| WorkerEngine.ScanWorkerPhotos | modules/photo_editor/photo_worker_engine.py:237-266 | A missing folder is an error; otherwise exactly the worker pictures are kept, in listing order |
| WorkerEngine.FetchPhotoLists | modules/photo_editor/photo_worker_engine.py:292-319 | Both lists come back only when the scan found at least one picture; an empty scan is an empty-list error |
| WorkerEngine.Rebuild | modules/photo_editor/photo_worker_engine.py:320-378 | Only worker tables change; the log holds one `created` stamp of the current time; both caches are empty |
| WorkerEngine.LocalRows | modules/photo_editor/photo_worker_engine.py:147-156 | One new-status row per file, in the same order |
| WorkerEngine.BuildLocal | modules/photo_editor/photo_worker_engine.py:134-162 | Files are appended to the local table; with no table the build fails and nothing changes; nothing else changes |
| WorkerEngine.GameRow | modules/photo_editor/photo_worker_engine.py:176-187 | A game row is built exactly when the record has uid, Name and Picture |
| WorkerEngine.InsertWorkers | modules/photo_editor/photo_worker_engine.py:176-187 | Records are inserted one by one under their uids; each insert is committed, so a record that lacks a field or whose uid is refused stops the loop and keeps the rows stored before it; it stops with no fault exactly when every record was stored |
| WorkerEngine.InsertAscending | modules/photo_editor/photo_worker_engine.py:176-187 | Records whose integer uids ascend, all above the stored ones, are stored after them in read order |
| WorkerEngine.InsertDistinct | modules/photo_editor/photo_worker_engine.py:176-187 | Records with distinct integer uids not yet stored are all stored, each exactly once, whatever their order |
| WorkerEngine.DuplicateUidStops | modules/photo_editor/photo_worker_engine.py:176-187 | A second record with the same integer uid is refused by the primary key and ends the build with only the first stored |
| WorkerEngine.DescendingPairSwaps | modules/photo_editor/photo_worker_engine.py:176-187 | Two records read with the higher uid first are stored in uid order, the lower one first |
| WorkerEngine.BuildGame | modules/photo_editor/photo_worker_engine.py:163-193 | Only the game table changes; with no table the build fails unless there is nothing to add; otherwise it succeeds exactly when every record is inserted by uid, and a failure keeps the rows inserted before it |
| WorkerEngine.Populate | modules/photo_editor/photo_worker_engine.py:379-397 | Populating a freshly built cache puts one row per scanned file in the local table, and in the game table the records inserted by uid into an empty table |
| WorkerEngine.Reset | modules/photo_editor/photo_worker_engine.py:379-397 | After a reset the log has one `created` stamp; when the lists cannot be fetched the caches stay empty; otherwise they are populated, and an insert error is swallowed with the rows before it kept |
| WorkerEngine.Newest | modules/photo_editor/photo_worker_engine.py:417-419 | The newest log entry's timestamp belongs to the log and no entry sorts after it as text |
| WorkerEngine.Threshold | modules/photo_editor/photo_worker_engine.py:435-437 | The cut-off is the current instant minus the maximum age, in microseconds; it exists exactly when it does not fall before year 1 |
| WorkerEngine.IsFresh | modules/photo_editor/photo_worker_engine.py:409-443 | A missing or empty log, a missing or non-integer maximum age, or an unparsable stamp is never fresh |
| WorkerEngine.FreshByAge | modules/photo_editor/photo_worker_engine.py:435-443 | Freshness is exactly "the newest stamp is not older than the maximum age", with the sub-second part of the clock accounted for |
| WorkerEngine.FutureStampIsFresh | modules/photo_editor/photo_worker_engine.py:435-443 | A stamp at or after the current second is fresh |
| WorkerEngine.NewestIsLatest | modules/photo_editor/photo_worker_engine.py:417-426 | Over stamps written in the cache's format, the text-newest entry is the chronologically latest one |
| WorkerEngine.StampedNowIsFresh | modules/photo_editor/photo_worker_engine.py:409-443 | A log stamped with the current time is fresh for any maximum age of at least one hour |
| WorkerEngine.Check | modules/photo_editor/photo_worker_engine.py:479-499 | The cache is ready exactly when checking is not skipped and the log is fresh |
| WorkerEngine.Init | modules/photo_editor/photo_worker_engine.py:66-78 | A ready cache is left alone; otherwise it is reset; init always reports success |
| WorkerEngine.InitMakesReady | modules/photo_editor/photo_worker_engine.py:66-78 | After init, the check passes |
| WorkerEngine.Refresh | modules/photo_editor/photo_worker_engine.py:500-552 | Refresh fails, leaving the store untouched, unless the scan finds pictures; on success only worker tables change, the log reads `created` then `refreshed`, and the caches equal those of a reset |
| WorkerEngine.RefreshedLogIsFresh | modules/photo_editor/photo_worker_engine.py:510-546 | A log written by a refresh passes the freshness check |
| WorkerEngine.RefreshNeverPartial | modules/photo_editor/photo_worker_engine.py:510-546 | A successful refresh never logs a partial refresh, and leaves a cache that passes the check |
| WorkerEngine.FetchCacheLists | modules/photo_editor/photo_worker_engine.py:49-65 | Both cached lists come back exactly when both tables are present and non-empty; otherwise the game table's error comes first |
| WorkerEngine.RefreshTables | modules/photo_editor/photo_worker_engine.py:500-552 | After a successful refresh the game table is the worker records inserted by uid into an empty table, and the local table is the scanned files |
| WorkerEngine.RefreshThenLists | modules/photo_editor/photo_worker_engine.py:49-65 | After a successful refresh the local list is the scanned files; with convertible records of distinct integer uids the game list holds each converted record exactly once, and with ascending uids it is the converted records in read order |
| WorkerEngine.FetchFilename | modules/photo_editor/photo_worker_engine.py:33-48 | A missing table is an error; an unknown name gives an empty name; otherwise the result is the file of the first row with that name in table order, which is uid order |
| WorkerEngine.LowerUidAnswersFetch | modules/photo_editor/photo_worker_engine.py:33-48 | Of two workers with the same name, the fetch answers with the picture of the lower uid even when that record was read second |
| WorkerEngine.Update | modules/photo_editor/photo_worker_engine.py:79-133 | A missing default extension fails without writing; otherwise every row with that name gets the new name, other rows are kept, and the same name is sent to tblWorker |
| WorkerEngine.UpdateThenFetch | modules/photo_editor/photo_worker_engine.py:79-133 | After an update, fetching that worker's file gives the name that was written |
| WorkerEngine.UpdateKeepsOthers | modules/photo_editor/photo_worker_engine.py:79-133 | Updating one worker does not change what is fetched for another |
| WorkerEngine.LocalCacheReady | modules/photo_editor/photo_worker_engine.py:451-478 | The local cache is ready exactly when its table is present and has rows |
| PhotoNames.UpdateName | modules/photo_editor/photo_worker_engine.py:93-114 | A name that has an extension is kept; with append-gif `.gif` is added; otherwise the default extension is applied, and its absence is an error |
| PhotoNames.AgerUpdateName | modules/photo_editor/photo_agers_engine.py:423-437 | The ager variant never adds `.gif` itself; with append-gif and a `gif` default it keeps the bare name |
| PhotoNames.WordAppendGivesExtension | utils/filer.py:244-258 | Appending a dot-free extension word to a named path gives a name whose extension is that word |
| PhotoNames.GifAppendGivesExtension | modules/photo_editor/photo_worker_engine.py:100-102 | The `.gif` appended by an update is recognised as an extension afterwards |
| PhotoNames.FormattedHasExtension | modules/photo_editor/photo_worker_engine.py:110-113 | Applying a plain default extension produces a name that has an extension |
| PhotoNames.UpdateNameIdempotent | modules/photo_editor/photo_worker_engine.py:93-114 | Renaming an already renamed file changes nothing more |
| PhotoNames.AgerUpdateNameIdempotent | modules/photo_editor/photo_agers_engine.py:423-437 | The ager rename is idempotent too |
| PhotoNames.DottedDefaultDoubles | modules/photo_editor/photo_worker_engine.py:104-113 | A default extension stored with its dot gives a doubled dot |
| PhotoNames.AgerKeepsBareName | modules/photo_editor/photo_agers_engine.py:423-437 | With append-gif and a `gif` default, the worker engine writes `x.gif` but the ager engine writes `x` |
| ContractEngine.ContractRecords | modules/photo_editor/photo_contract_engine.py:154-170 | The five contract columns are asked for by the plain query first, then by the bracketed query, then by reading every column and projecting it down to the five; the first that succeeds gives the records, and when all three fail the last one's error is raised |
| ContractEngine.Build | modules/photo_editor/photo_contract_engine.py:104-152 | Only contract tables change; the log has one `created` stamp and the cache is empty |
| ContractEngine.ContractRowOf | modules/photo_editor/photo_contract_engine.py:183-206 | A row is built exactly when the record has every contract column |
| ContractEngine.Fill | modules/photo_editor/photo_contract_engine.py:183-206 | Converted rows are appended; the fill succeeds exactly when there is nothing to add, or when the table exists and every record converts |
| ContractEngine.FillCompleteIffWellFormed | modules/photo_editor/photo_contract_engine.py:183-206 | The fill converts every record exactly when every record has all the columns |
| ContractEngine.Populate | modules/photo_editor/photo_contract_engine.py:172-181 | A failed read leaves the cache empty and reports the read's error; otherwise the converted prefix is cached and success means every record was well formed |
| ContractEngine.Rebuild | modules/photo_editor/photo_contract_engine.py:354-363 | The rebuild is a build followed by a populate |
| ContractEngine.Reset | modules/photo_editor/photo_contract_engine.py:224-236 | The reset succeeds exactly when the read gives at least one record and all of them are well formed; no records is an empty-list error |
| ContractEngine.Init | modules/photo_editor/photo_contract_engine.py:38-69 | With the corrected readiness check: a ready cache is left alone; otherwise init rebuilds from the game read, logs `initialized` on success, and returns true only then |
| ContractEngine.InitAsWritten | modules/photo_editor/photo_contract_engine.py:38-69 | With the check as written, an unskipped init raises a missing-attribute error and changes nothing; a skipped init rebuilds exactly as the corrected init does when skipped |
| ContractEngine.InitAsWrittenRaisesOnReadyCache | modules/photo_editor/photo_contract_engine.py:71-102 | On a populated cache the corrected init changes nothing and returns true, while the init as written raises |
| ContractEngine.InitThenCheck | modules/photo_editor/photo_contract_engine.py:38-69 | After a successful init, the cache passes the check exactly when the game database had contracts |
| ContractEngine.Refresh | modules/photo_editor/photo_contract_engine.py:365-405 | A failed reset falls back to a rebuild logged as a partial refresh; a successful one is logged as a full refresh |
| ContractEngine.RefreshSameSource | modules/photo_editor/photo_contract_engine.py:365-405 | When both reads agree, the refreshed cache holds the converted records whichever path ran |
| ContractEngine.EntryOf | modules/photo_editor/photo_contract_engine.py:279-312 | A contract entry keeps the row's UID and its caption starts with the worker's name |
| ContractEngine.EntryCarriesUid | modules/photo_editor/photo_contract_engine.py:309-312 | The caption is the contract label and the anchored search reads the UID back |
| ContractEngine.Entries | modules/photo_editor/photo_contract_engine.py:263-352 | One entry per cached row, in order |
| ContractEngine.Lists | modules/photo_editor/photo_contract_engine.py:263-352 | The lists exist exactly when the cache has rows and a local file list is available |
| ContractEngine.FetchFilename | modules/photo_editor/photo_contract_engine.py:419-459 | A caption without an anchored UID, or a missing table, gives an empty name; otherwise the file of the first row with that UID |
| ContractEngine.ListThenFetch | modules/photo_editor/photo_contract_engine.py:419-459 | Fetching with a listed caption gives that row's file |
| ContractEngine.FirstIsEarliest | modules/photo_editor/photo_contract_engine.py:419-459 | The first match is the earliest matching row |
| ContractEngine.Update | modules/photo_editor/photo_contract_engine.py:461-521 | A caption without an anchored UID is an invalid value; otherwise the rows with that UID get the new name and the same name is sent to tblContract |
| ContractEngine.UpdateThenFetch | modules/photo_editor/photo_contract_engine.py:461-521 | After an update, fetching by that caption gives the written name |
| ContractEngine.UpdateKeepsOthers | modules/photo_editor/photo_contract_engine.py:461-521 | Updating one contract does not change another's fetched file |
| AgerEngine.Build | modules/photo_editor/photo_agers_engine.py:96-144 | Only ager tables change; the log has one `created` stamp and the cache is empty |
| AgerEngine.AgerRowOf | modules/photo_editor/photo_agers_engine.py:173-196 | A row is built exactly when the record has every ager column |
| AgerEngine.Fill | modules/photo_editor/photo_agers_engine.py:173-196 | Converted rows are appended; success means every record converted into an existing table |
| AgerEngine.FillCompleteIffWellFormed | modules/photo_editor/photo_agers_engine.py:178-191 | The fill converts every record exactly when every record has all the columns |
| AgerEngine.Populate | modules/photo_editor/photo_agers_engine.py:162-171 | A failed read leaves the cache empty; otherwise the converted prefix is cached |
| AgerEngine.Rebuild | modules/photo_editor/photo_agers_engine.py:309-318 | Build then populate; the log has one `created` stamp |
| AgerEngine.Reset | modules/photo_editor/photo_agers_engine.py:214-226 | The reset always ends with an empty-list error and an empty cache |
| AgerEngine.Init | modules/photo_editor/photo_agers_engine.py:37-66 | With the corrected readiness check: a ready cache is left alone; otherwise init rebuilds from the game read, logs `initialized` on success, and returns true only then |
| AgerEngine.InitAsWritten | modules/photo_editor/photo_agers_engine.py:37-66 | With the check as written, an unskipped init raises a missing-attribute error and changes nothing; a skipped init rebuilds exactly as the corrected init does when skipped |
| AgerEngine.InitAsWrittenRaisesOnReadyCache | modules/photo_editor/photo_agers_engine.py:68-94 | On a populated cache the corrected init changes nothing and returns true, while the init as written raises |
| AgerEngine.Refresh | modules/photo_editor/photo_agers_engine.py:320-360 | Refresh rebuilds and populates; success is logged as a partial refresh, because the failed reset always leads there |
| AgerEngine.RefreshNeverFull | modules/photo_editor/photo_agers_engine.py:320-342 | A successful ager refresh is never logged as a full refresh and caches one row per record |
| AgerEngine.EntryOf | modules/photo_editor/photo_agers_engine.py:253-307 | An ager entry keeps the row's UID and its caption starts with the worker name |
| AgerEngine.EntryCarriesUid | modules/photo_editor/photo_agers_engine.py:265-266 | The caption is the ager label; the anchored search reads the UID, and the unanchored one does too for plain worker names |
| AgerEngine.Entries | modules/photo_editor/photo_agers_engine.py:253-307 | One entry per cached row, in order |
| AgerEngine.Lists | modules/photo_editor/photo_agers_engine.py:253-307 | The lists exist exactly when the cache has rows and a local file list is available |
| AgerEngine.RefreshThenLists | modules/photo_editor/photo_agers_engine.py:253-360 | After a successful refresh, listing gives one entry per game record |
| AgerEngine.FetchFilename | modules/photo_editor/photo_agers_engine.py:372-408 | A caption without an anchored UID gives an empty name; a missing table is an error; otherwise the file of the first row with that UID |
| AgerEngine.ListThenFetch | modules/photo_editor/photo_agers_engine.py:372-408 | Fetching with a listed caption gives that row's file |
| AgerEngine.Write | modules/photo_editor/photo_agers_engine.py:438-447 | A missing table fails without writing; otherwise rows with the UID get the name and it is sent to tblAger |
| AgerEngine.UpdateAsWritten | modules/photo_editor/photo_agers_engine.py:410-456 | The update as written takes the UID from the first bracketed number in the caption: without one it changes nothing; a missing default extension fails without writing; otherwise it performs the cache and game write for that UID and the normalised name |
| AgerEngine.Update | modules/photo_editor/photo_agers_engine.py:410-456 | The corrected update takes the UID the fetch uses, the anchored one: without it nothing is written; a missing default extension fails without writing; otherwise it performs the cache and game write for that UID and the normalised name, so a missing ager table raises and the result is the game write's outcome |
| AgerEngine.UpdatesAgreeOnPlainNames | modules/photo_editor/photo_agers_engine.py:410-456 | For worker names without a bracketed number, the written and corrected updates agree |
| AgerEngine.UpdateAsWrittenMisdirected | modules/photo_editor/photo_agers_engine.py:415 | For the worker `Ace[7]`, the written update sends to ager 7 what was meant for ager 12 |
| AgerEngine.UpdateThenFetch | modules/photo_editor/photo_agers_engine.py:410-456 | After the corrected update, fetching by that caption gives the written name |
| AgerEngine.UpdateKeepsOthers | modules/photo_editor/photo_agers_engine.py:410-456 | Updating one ager does not change another's fetched file |
| AlterEngine.CheckAsWritten | modules/photo_editor/photo_alters_engine.py:68-96 | The check as written never reports a ready cache, skipped or not: a skipped check answers not ready and an unskipped one swallows the missing-attribute error |
| AlterEngine.CheckAsWrittenNeverReady | modules/photo_editor/photo_alters_engine.py:68-96 | The alter check as written reports a populated cache as not ready |
| AlterEngine.Build | modules/photo_editor/photo_alters_engine.py:98-144 | Only alter tables change; the log has one `created` stamp and the cache is empty |
| AlterEngine.AlterRowOf | modules/photo_editor/photo_alters_engine.py:177-194 | A row is built exactly when the record has every alter column |
| AlterEngine.Fill | modules/photo_editor/photo_alters_engine.py:173-194 | Converted rows are appended to an existing table; no table stays absent |
| AlterEngine.Filled | modules/photo_editor/photo_alters_engine.py:173-194 | The fill keeps the longest converting prefix of the records |
| AlterEngine.Populate | modules/photo_editor/photo_alters_engine.py:162-171 | Populate fails only when the read fails, and then the cache stays empty; a malformed record is not an error |
| AlterEngine.Init | modules/photo_editor/photo_alters_engine.py:37-66 | With the corrected readiness check: a ready cache is left alone; otherwise init rebuilds from the game read, logs `initialized` on success, and returns true only then |
| AlterEngine.InitAsWritten | modules/photo_editor/photo_alters_engine.py:37-96 | With the check as written, every init, skipped or not, behaves as a skipped one: both tables are rebuilt from the game read and the log starts with `created` |
| AlterEngine.InitAsWrittenRebuildsReadyCache | modules/photo_editor/photo_alters_engine.py:47-49 | On a populated cache the corrected init changes nothing, while the init as written rebuilds it and succeeds exactly when the game read succeeds |
| AlterEngine.Reset | modules/photo_editor/photo_alters_engine.py:233-248 | The reset succeeds exactly when the worker folder scan finds pictures and the game read gives records; it then caches the converted records, and otherwise leaves the cache empty |
| AlterEngine.Refresh | modules/photo_editor/photo_alters_engine.py:324-364 | Refresh always succeeds; a failed reset is logged as a partial refresh that leaves the cache empty |
| AlterEngine.EntryOf | modules/photo_editor/photo_alters_engine.py:250-312 | An entry is built exactly when the record name is text; it keeps the alter UID |
| AlterEngine.EntryCarriesUid | modules/photo_editor/photo_alters_engine.py:265-274 | The caption is the alter label of the split record name; the unanchored search reads the UID for plain worker names |
| AlterEngine.Entries | modules/photo_editor/photo_alters_engine.py:250-312 | Entries exist exactly when every record name is text; then there is one entry per row, in order |
| AlterEngine.Lists | modules/photo_editor/photo_alters_engine.py:250-312 | The lists exist exactly when the cache has rows whose names are all text, and a local file list is available |
| AlterEngine.PartialRefreshEmptiesList | modules/photo_editor/photo_alters_engine.py:324-364 | After a refresh whose reset failed, the log says partial refresh and listing reports an empty list |
| AlterEngine.FetchFilename | modules/photo_editor/photo_alters_engine.py:380-408 | A caption without a bracketed number, or a missing table, gives an empty name; otherwise the file of the first row with that UID |
| AlterEngine.ListThenFetch | modules/photo_editor/photo_alters_engine.py:380-408 | Fetching with a listed caption gives that row's file |
| AlterEngine.Update | modules/photo_editor/photo_alters_engine.py:410-470 | A caption without a bracketed number is a format error; otherwise the rows with the UID get the new name and it is sent to tblAlternate |
| AlterEngine.UpdateThenFetch | modules/photo_editor/photo_alters_engine.py:410-470 | After an update, fetching by that caption gives the written name |
| AlterEngine.UpdateKeepsOthers | modules/photo_editor/photo_alters_engine.py:410-470 | Updating one alter does not change another's fetched file |
| ContractTable.ValidateColumns | modules/tables/contract_table.py:57-72 | The kept columns are a subsequence of the request, all whitelisted, and keep every whitelisted column as often as it was asked for |
| ContractTable.WhitelistedKept | modules/tables/contract_table.py:57-69 | A fully whitelisted request is kept unchanged |
| ContractTable.Bracketed | modules/tables/contract_table.py:74-128 | Every column name is wrapped in brackets, in order |
| ContractTable.Project | modules/tables/contract_table.py:116-125 | Each projected row keeps exactly the requested columns it has, with their values |
| ContractTable.FetchAllContractsSpecificCols | modules/tables/contract_table.py:53-133 | No whitelisted column is an invalid-value error; otherwise the plain query, then the bracketed one, then a projection of all columns is tried |
| ContractTable.FallbackStaysOnWhitelist | modules/tables/contract_table.py:116-125 | When the projection fallback is used, only whitelisted columns come back |
| ContractTable.WithUid | modules/tables/contract_table.py:139-141 | The column list contains `uid`, and it is put first only when it was missing |
| ContractTable.WithUidIdempotent | modules/tables/contract_table.py:139-141 | Adding `uid` twice equals adding it once |
| ContractTable.WithUidCaseSensitive | modules/tables/contract_table.py:139-141 | The test is case-sensitive: `UID` does not count as `uid` |
| ContractTable.FetchContractSpecificCols | modules/tables/contract_table.py:135-152 | The query selects the requested columns with `uid` added when missing, filtered by that UID |
| PhotoCache.FetchPhotoRootPath | modules/photo_editor/photo_cache.py:29-67 | A missing override is a type error, and so is an empty override without core path and pack name; otherwise a non-empty normalised path is returned |
| PhotoCache.DefaultLayout | modules/photo_editor/photo_cache.py:44-64 | Without an override, the root is core path, `Pictures`, pack name and the additional path, in that order |
| PhotoCache.OverrideWins | modules/photo_editor/photo_cache.py:44-64 | A non-empty override replaces the core path and the pack name |
| PhotoCache.EmptyAdditionalIgnored | modules/photo_editor/photo_cache.py:59-62 | An empty additional path behaves like no additional path |
| PhotoCache.PhotoListCheck | modules/photo_editor/photo_cache.py:69-88 | A list passes exactly when it exists and is non-empty |
| Paths.Normalize | modules/photo_editor/photo_cache.py:63-64 | Normalising keeps absoluteness, never gives an empty path, and resolves `.` and `..` in the components |
| Paths.NormalizeIdempotent | modules/photo_editor/photo_cache.py:63-64 | Normalising twice equals normalising once |
| Paths.PathJoin | modules/photo_editor/photo_cache.py:44-62 | For paths without drive letters: joining a part that starts with a separator gives that part; otherwise the result starts with the base and ends with the added part |
| Paths.JoinComponents | modules/photo_editor/photo_cache.py:44-62 | The components of a join are the components of both parts |
| Timestamps.ParseFormat | modules/photo_editor/photo_worker_engine.py:348-353 | Parsing a written log timestamp gives back the same date and time |
| Timestamps.FormatOrder | modules/photo_editor/photo_worker_engine.py:417-419 | Written timestamps sort as text exactly as their date-times are ordered |
| Timestamps.TextOrderIsChronological | modules/photo_editor/photo_worker_engine.py:417-419 | Text order of written timestamps is the order of their instants, so `ORDER BY timestamp DESC` picks the latest |
| Timestamps.LatestInstant | modules/photo_editor/photo_worker_engine.py:435-437 | Every representable instant lies between year 1 and the end of year 9999 |
| Text.ParseIntToString | settings/settings_list.py:308-309 | Parsing a rendered integer gives that integer back |
| Text.JoinSplit | modules/photo_editor/photo_alters_engine.py:265-271 | Joining the pieces of a split with the separator gives the original text |
| Records.Field | modules/photo_editor/photo_worker_engine.py:176-187 | A field is read exactly when the key is present; otherwise it is a missing-key error |
| Records.Render | modules/photo_editor/photo_contract_engine.py:309-312 | An integer cell renders as text that parses back to it; a null cell renders as `None` |
| SettingsList.KeyLabelShape | settings/settings_list.py:32-34 | The default label has the key's length, with spaces exactly where the key has underscores or spaces |
| SettingsList.KeyLabelExample | settings/settings_list.py:32-34 | `log_dir` is labelled `Log Dir` |
| SettingsList.MakeSetting | settings/settings_list.py:19-36 | A setting keeps every given field, gets the derived label when none is given, and gets empty options when none are given |
| SettingsList.Declaration | settings/settings_list.py:44-211 | The i-th declaration carries the i-th catalogue key |
| SettingsList.DefaultSettings | settings/settings_list.py:44-211 | The catalogue lists the nineteen keys in declaration order |
| SettingsList.DefaultKeysDistinct | settings/settings_list.py:44-211 | No key is declared twice |
| SettingsList.GetSetting | settings/settings_list.py:217-226 | Lookup finds the first setting with the key, and fails with a missing key exactly when none has it |
| SettingsList.GetSettingFindsEach | settings/settings_list.py:217-226 | With distinct keys, every setting is found by its own key |
| SettingsList.DefaultsList | settings/settings_list.py:228-236 | One key and default pair per setting, in order |
| SettingsList.DictKeys | settings/settings_list.py:238-246 | The defaults dictionary has exactly the settings' keys |
| SettingsList.DictLastWins | settings/settings_list.py:238-246 | With duplicate keys, the dictionary holds the default of the last setting with that key |
| SettingsList.ListAgreesWithDict | settings/settings_list.py:228-246 | With distinct keys, the defaults list and dictionary hold the same pairs |
| SettingsList.ValidateValue | settings/settings_list.py:248-284 | Unknown keys are invalid; a missing value is valid exactly when the setting is optional |
| SettingsList.ConvertValue | settings/settings_list.py:286-323 | Converting an unknown key is a missing-key error; a missing value converts to no value for an optional setting and is an invalid value for a required one |
| SettingsList.ValidConverts | settings/settings_list.py:248-323 | A value that validates fails to convert exactly when it is the empty text for an integer setting; every other validated value converts |
| SettingsList.ConvertErrorInvalid | settings/settings_list.py:248-323 | A value that fails to convert does not validate, except an empty integer, which validates but does not convert |
| SettingsList.IntRules | settings/settings_list.py:266-267 | A non-empty integer value validates exactly when it parses to a non-zero number, and converts exactly when it parses |
| SettingsList.BoolRules | settings/settings_list.py:264-265 | A boolean validates exactly when it is true or false in any case, and converts to whether it is true |
| SettingsList.PathRules | settings/settings_list.py:268-273 | A path setting validates a non-empty path always and the empty path only when optional; the empty path converts to no value, any other to the path |
| SettingsList.TextRules | settings/settings_list.py:274-275 | A setting of any type other than boolean, integer or path validates any value and converts it unchanged |
| SettingsList.ZeroValidatesFalse | settings/settings_list.py:266-267 | A maximum age of 0 is rejected by validation but accepted by conversion; an empty one the other way round |
| SettingsList.OptionsNotEnforced | settings/settings_list.py:85-92 | A database mode outside the declared options is still accepted |
| SettingsList.EmptyOverrideAccepted | settings/settings_list.py:268-273 | An empty pictures-path override validates and converts to no value |
| SettingsList.EmptyCorePathRejected | settings/settings_list.py:268-273 | An empty or missing core path does not validate |
| SettingsFile.Hostname | settings/settings_file.py:12 | The host name is the lower-cased text before the first dot |
| SettingsFile.FirstPartIsPrefix | settings/settings_file.py:12 | The first piece of a split is a prefix of the text without the separator |
| SettingsFile.SettingsFileName | settings/settings_file.py:13-15 | The settings file is named after the host with the settings extension |
| SettingsFile.SettingsFileSuffix | settings/settings_file.py:13-15 | The extension of the settings file name is the settings extension |
| SettingsFile.MissingDefaults | settings/settings_file.py:152-171 | The missing defaults are exactly the default pairs whose key is not stored yet |
| SettingsFile.InsertAllFacts | settings/settings_file.py:152-171 | Inserting new keys adds exactly those keys with their values and keeps the stored ones |
| SettingsFile.Initialize | settings/settings_file.py:132-192 | Both tables exist afterwards; the initialisation date is recorded only when none was |
| SettingsFile.InitializeMerges | settings/settings_file.py:152-171 | Initialisation keeps every stored value and adds the default of every catalogue key that was missing |
| SettingsFile.InitializeIdempotent | settings/settings_file.py:132-192 | A second initialisation changes nothing |
| SettingsFile.GetValue | settings/settings_file.py:68-80 | A value is found exactly when the key is stored |
| SettingsFile.SetValue | settings/settings_file.py:82-92 | Setting a value adds its key to the stored keys |
| SettingsFile.GetAfterSet | settings/settings_file.py:68-92 | A set value reads back, and other keys keep their values |
| SettingsFile.InitializedKeysPresent | settings/settings_file.py:132-192 | After initialisation every catalogue key has a value |

## Left out

- The user interface, logging, engine construction and context managers are not modelled.
- The game database back ends (Access, the remote API, the local game database) are not modelled. Their answers are `Result` inputs, and `tew9db` updates are returned as `GameWrite` values.
- The clock, socket host name and folder listing are parameters. When an engine reads the folder twice, the model uses one listing for both reads. In the same way, one instant `now` stands for every `datetime.now()` call of an operation: the source reads the clock separately for the `created` stamp (modules/photo_editor/photo_worker_engine.py:350), the `refreshed` stamp (:539) and the freshness check (:437). The model stamps `created` and `refreshed` with the same `now`, and `WorkerEngine.RefreshedLogIsFresh` checks freshness at that same `now`.
- SQLite type affinity and SQL quoting are not modelled; tables are sequences of typed rows. Row ids are modelled only for the game worker cache, whose `game_worker_uid` is the rowid; the autoincrement ids of the other cache tables (such as `local_worker_uid`) are left out of their rows, so the lists read back from those tables lack that column.
- CacheStore.InsertByRowid: every text uid is refused. SQLite converts text that reads as an integer, such as `'7'`, and stores it under that rowid. The 64-bit rowid range and the error when the largest rowid is used up are not modelled either. That a scan without `ORDER BY` returns rows in rowid order is how SQLite behaves, not a documented promise.
- I/O failures of SQLite or the file system are not modelled, beyond a missing table or folder.
- `photo_cache_init` only delegates to the worker engine's init, which is modelled.
- The `fetch_*_record_lists` wrappers return the cached lists unchanged and are not modelled separately.
- The renaming of output keys in the returned dictionaries is not modelled.
- The `recursive` flag of `fetch_files_from_directory` is not modelled: only one folder level is filtered.
- `get_filesize`, `_update_table_schema`, `load_settings` and the initialisation-date accessors of the settings file are not modelled.
- The thin SQL accessors of the contract table, other than the two column fetches, are not modelled.
- Filer.GlobLiteral: only `*` wildcards are modelled. `?`, character classes and case-insensitive file systems are not.
- Text.ParseIntToString: Python `int()` also accepts surrounding whitespace, underscores between digits and non-ASCII decimal digits; the model accepts only an optional `-` or `+` followed by ASCII digits.
- Text.ParseInt: only ASCII digits are recognised; Python's `int()` also reads other Unicode decimal digits, such as Arabic-Indic ones.
- Text.Lower: only ASCII case folding is modelled, not Unicode.
- UidRegex.AnchoredUid: `\d` is read as the ASCII digits only. Python's `re` on text also matches other Unicode decimal digits, so a caption ending in `[٣]` has a UID in Python but none in the model.
- UidRegex.FirstUid: `\d` is read as the ASCII digits only, as for `AnchoredUid`.
- SettingsList.KeyLabelShape: the default label uses an ASCII `title()`. Python's `str.title()` works on all of Unicode and can change the length, for example `ß` becomes `Ss`, so the length and space positions are promised for the model's ASCII title only.
- WorkerEngine.FetchFilename: the source builds its query by pasting the worker name between single quotes (modules/photo_editor/photo_worker_engine.py:37-38). A name containing `'` therefore yields a malformed query, or one that means something else. The model looks the name up exactly. The update uses a bound parameter, so `WorkerEngine.UpdateThenFetch` holds in the model but not for such names in the source.
- ContractEngine.Init: uses the corrected readiness check `CacheStore.CacheCheck`. The init as written is `ContractEngine.InitAsWritten`; see Findings.
- AgerEngine.Init: uses the corrected readiness check `CacheStore.CacheCheck`. The init as written is `AgerEngine.InitAsWritten`; see Findings.
- AlterEngine.Init: uses the corrected readiness check `CacheStore.CacheCheck`. The init as written is `AlterEngine.InitAsWritten`; see Findings.
- Timestamps.ParseFormat: `strptime` also accepts non-padded fields; the model parses only the zero-padded form the cache writes.
- Paths.Normalize: Windows drive letters and UNC prefixes are plain components.
- Paths.PathJoin: the drive rules of Windows `os.path.join` are not modelled; a drive letter is ordinary text. Python keeps the base's drive when the added part starts with a separator (`C:\TEW9` joined with `\Pics` is `C:\Pics`; the model gives `\Pics`). Python adds no separator after a bare drive (`C:` joined with `x` is `C:x`; the model gives `C:\x`). An added part with a different drive replaces the base in Python (`D:\x`); the model appends it.
- SettingsList.ConvertValue: a path value is kept as its text; the normalisation done by `Path` is not modelled.
- The ager reset's fill step is not modelled: it comes after reading back the freshly emptied table, which always raises first.

## Findings

| source | as written | input that shows it | evidently intended | confidence | as-written member | corrected member |
|---|---|---|---|---|---|---|
| modules/photo_editor/photo_contract_engine.py:84 | The cache checks call `sqlitedb.check_table_exists`, but the SQLite wrapper only defines `_check_table_exists` (database/sqlite.py:59). An unskipped check therefore raises `AttributeError`; in the alter engine the exception is caught, so the check always reports not ready. | any populated cache with checking not skipped | the check reports ready when the table exists and has rows | not executed | CacheStore.CheckAsWrittenRaises | CacheStore.CacheCheck |
| modules/photo_editor/photo_alters_engine.py:81 | The alter check calls the same missing method and swallows the error. | any populated alter cache with checking not skipped | ready when the table has rows | not executed | AlterEngine.CheckAsWrittenNeverReady | CacheStore.CacheCheck |
| modules/photo_editor/photo_agers_engine.py:415 | The ager update reads the UID with the unanchored `\[(\d+)\]`, while the ager fetch (line 383) uses the anchored `\[(\d+)\]$`. A worker name containing a bracketed number redirects the update. | worker `Ace[7]`, trigger age 30, ager UID 12: caption `Ace[7][Age@30][12]`; the update writes ager 7 | the update writes the ager the caption ends with, UID 12 | not executed | AgerEngine.UpdateAsWrittenMisdirected | AgerEngine.UpdateThenFetch |

=== FILE: ager_engine.dfy ===
/** The ager photo engine: a cache of the game's agers (uid, record name,
    worker, trigger age and picture file), the `Worker[Age@n][uid]` picker
    labels built from it, and the picture updates addressed through them.

    The game's ager read (`SELECT UID, Recordname, Worker, Trigger, Picture
    FROM tblAger`) and the worker-name lookup are inputs. The readiness
    check is the corrected one; the check as written raises, see
    `CacheStore.CacheCheckAsWritten`. The reset reads the cache table it has
    just emptied, so it always raises and every refresh takes the fallback.
 */
module AgerEngine {
  import opened Wrappers
  import opened Text
  import opened Timestamps
  import opened Records
  import opened UidRegex
  import opened Labels
  import opened PhotoNames
  import opened CacheStore
  import opened WorkerEngine

  /** The ager columns the engine reads from the game. */
  const AgerColumns: seq<string> := ["UID", "Recordname", "Worker", "Trigger", "Picture"]

  /** Nothing outside the ager engine's two tables differs. */
  predicate OnlyAgerTablesChange(s: Store, r: Store) {
    r.(agerLog := s.agerLog, agers := s.agers) == s
  }

  /** `_build_ager_photo_record_cache`: both tables dropped and created
      again, the log with one `created` row. */
  function Build(s: Store, now: DateTime): (r: Store)
    requires Valid(now)
    ensures OnlyAgerTablesChange(s, r)
    ensures r.agerLog == Some([Stamp(now, Created)]) && r.agers == Some([])
  {
    s.(agerLog := Some([Stamp(now, Created)]), agers := Some([]))
  }

  /** One cache row from an ager record: `UID`, `Recordname`, `Worker` as
      the worker uid and `Trigger` as the trigger age, `Picture`, marked
      `new`; a record lacking one of them raises `KeyError`. */
  function AgerRowOf(record: Row): (r: Result<AgerRow>)
    ensures r.Ok? <==> forall k :: k in AgerColumns ==> k in record
    ensures r.Ok? ==> r.value == AgerRow(record["UID"], record["Recordname"], record["Worker"],
                                         record["Trigger"], record["Picture"], NewStatus)
    ensures r.Err? ==> r.fault == KeyNotFound
  {
    var uid :- Field(record, "UID");
    var name :- Field(record, "Recordname");
    var worker :- Field(record, "Worker");
    var trigger :- Field(record, "Trigger");
    var file :- Field(record, "Picture");
    Ok(AgerRow(uid, name, worker, trigger, file, NewStatus))
  }

  /** `_fill_ager_photo_record_cache`: one `new` row per record, in order,
      each committed on its own, so the rows before a record that raises
      stay. */
  function Fill(s: Store, records: seq<Row>): (r: Outcome<()>)
    ensures r.store == s.(agers := r.store.agers)
    ensures s.agers.Some? ==> r.store.agers == Some(s.agers.value + FillRows(records, AgerRowOf).0)
    ensures r.result.Ok? <==> |records| == 0 || (s.agers.Some? && FillRows(records, AgerRowOf).1.None?)
    ensures r.result.Err? && s.agers.Some? ==> r.result.fault == KeyNotFound
  {
    var (table, result) := InsertRecords(s.agers, records, AgerRowOf);
    Outcome(s.(agers := table), result)
  }

  /** The rows a fill from these records leaves in freshly built tables. */
  function Filled(records: seq<Row>): seq<AgerRow> {
    FillRows(records, AgerRowOf).0
  }

  /** Every record converts to a cache row. */
  predicate WellFormed(records: seq<Row>) {
    forall i :: 0 <= i < |records| ==> AgerRowOf(records[i]).Ok?
  }

  /** A fill stops early exactly when some record does not convert. */
  lemma {:induction false} FillCompleteIffWellFormed(records: seq<Row>)
    ensures FillRows(records, AgerRowOf).1.None? <==> WellFormed(records)
  {
    var fill := FillRows(records, AgerRowOf);
    if fill.1.Some? {
      assert AgerRowOf(records[|fill.0|]).Err?;
    }
  }

  /** `_populate_ager_photo_record_cache` on freshly built tables, given
      what the game read returned: its fault is raised, an empty read fills
      nothing, and otherwise every record up to the first malformed one is
      inserted. */
  function Populate(built: Store, read: Result<seq<Row>>): (r: Outcome<()>)
    requires built.agers == Some([])
    ensures r.store == built.(agers := r.store.agers)
    ensures r.result.Ok? <==> read.Ok? && WellFormed(read.value)
    ensures read.Err? ==> r.result == Err(read.fault) && r.store.agers == Some([])
    ensures read.Ok? ==> r.store.agers == Some(Filled(read.value))
    ensures read.Ok? && r.result.Err? ==> r.result.fault == KeyNotFound
  {
    match read
    case Err(f) => Outcome(built, Err(f))
    case Ok(records) =>
      FillCompleteIffWellFormed(records);
      assert [] + Filled(records) == Filled(records);
      Fill(built, records)
  }

  /** `_rebuild_ager_photo_record_cache`: build, then populate. */
  function Rebuild(s: Store, read: Result<seq<Row>>, now: DateTime): (r: Outcome<()>)
    requires Valid(now)
    ensures OnlyAgerTablesChange(s, r.store)
    ensures r.store.agerLog == Some([Stamp(now, Created)])
    ensures r.result.Ok? <==> read.Ok? && WellFormed(read.value)
    ensures read.Err? ==> r.result == Err(read.fault) && r.store.agers == Some([])
    ensures read.Ok? ==> r.store.agers == Some(Filled(read.value))
  {
    Populate(Build(s, now), read)
  }

  /** `_reset_ager_photo_record_cache`: build, then read back the cache
      table just recreated, which is empty, so it raises before any fill
      whatever the store held. */
  function Reset(s: Store, now: DateTime): (r: Outcome<()>)
    requires Valid(now)
    ensures r.store == Build(s, now)
    ensures r.result == Err(EmptyList)
  {
    var built := Build(s, now);
    Outcome(built, Err(ReadAll(built.agers).fault))
  }

  /** `ager_photo_cache_init`, with the corrected check: a ready cache is
      left alone; otherwise it is built and populated from the game read,
      and an `initialized` row is logged. */
  function Init(s: Store, skip: bool, read: Result<seq<Row>>, now: DateTime): (r: Outcome<bool>)
    requires Valid(now)
    ensures CacheCheck(skip, s.agers) ==> r == Outcome(s, Ok(true))
    ensures r.result.Ok? ==> r.result.value
    ensures !CacheCheck(skip, s.agers) ==>
              && OnlyAgerTablesChange(s, r.store)
              && (r.result.Ok? <==> read.Ok? && WellFormed(read.value))
              && (read.Err? ==> r.result == Err(read.fault) && r.store.agers == Some([]))
              && (read.Ok? ==> r.store.agers == Some(Filled(read.value)))
              && (r.result.Ok? ==> r.store.agerLog == Some([Stamp(now, Created), Stamp(now, Initialized)]))
              && (r.result.Err? ==> r.store.agerLog == Some([Stamp(now, Created)]))
  {
    if CacheCheck(skip, s.agers) then Outcome(s, Ok(true))
    else
      var built := Rebuild(s, read, now);
      match built.result
      case Err(f) => Outcome(built.store, Err(f))
      case Ok(_) =>
        assert [Stamp(now, Created)] + [Stamp(now, Initialized)] == [Stamp(now, Created), Stamp(now, Initialized)];
        Outcome(built.store.(agerLog := Append(built.store.agerLog, Stamp(now, Initialized))), Ok(true))
  }

  /** `ager_photo_cache_init` with the readiness check as written:
      unless the check is skipped it raises `AttributeError` before anything
      is touched, and a skipped check always rebuilds. */
  function InitAsWritten(s: Store, skip: bool, read: Result<seq<Row>>, now: DateTime): (r: Outcome<bool>)
    requires Valid(now)
    ensures !skip ==> r == Outcome(s, Err(MissingAttribute))
    ensures skip ==> r == Init(s, skip, read, now)
    ensures skip ==> r.store.agerLog.Some? && r.store.agerLog.value[0] == Stamp(now, Created)
  {
    match CacheCheckAsWritten(skip, s.agers)
    case Err(f) => Outcome(s, Err(f))
    case Ok(ready) => if ready then Outcome(s, Ok(true)) else Init(s, true, read, now)
  }

  /** On a cache that is ready, `Init` with the corrected check leaves the
      store alone and answers true, while the init as written raises. */
  lemma {:induction false} InitAsWrittenRaisesOnReadyCache(s: Store, read: Result<seq<Row>>, now: DateTime)
    requires Valid(now)
    requires s.agers.Some? && |s.agers.value| > 0
    ensures Init(s, false, read, now) == Outcome(s, Ok(true))
    ensures InitAsWritten(s, false, read, now) == Outcome(s, Err(MissingAttribute))
  {
  }

  /** `refresh_ager_photo_record_cache`: the reset raises, so the tables are
      rebuilt from the game read; if that raises the fault propagates, else
      a `partial_refresh` row is logged. The `refreshed` branch that follows
      a successful reset is never reached. */
  function Refresh(s: Store, read: Result<seq<Row>>, now: DateTime): (r: Outcome<()>)
    requires Valid(now)
    ensures OnlyAgerTablesChange(s, r.store)
    ensures r.result.Ok? <==> read.Ok? && WellFormed(read.value)
    ensures read.Err? ==> r.result == Err(read.fault) && r.store.agers == Some([])
    ensures read.Ok? ==> r.store.agers == Some(Filled(read.value))
    ensures r.result.Ok? ==> r.store.agerLog == Some([Stamp(now, Created), Stamp(now, PartialRefresh)])
    ensures r.result.Err? ==> r.store.agerLog == Some([Stamp(now, Created)])
  {
    var reset := Reset(s, now);
    assert reset.result.Err?;
    var rebuilt := Rebuild(reset.store, read, now);
    if rebuilt.result.Err? then rebuilt
    else
      assert [Stamp(now, Created)] + [Stamp(now, PartialRefresh)] == [Stamp(now, Created), Stamp(now, PartialRefresh)];
      Outcome(rebuilt.store.(agerLog := Append(rebuilt.store.agerLog, Stamp(now, PartialRefresh))), Ok(()))
  }

  /** Whatever the game returns, a refresh that succeeds ends its log with
      `partial_refresh`, never `refreshed`, and then the cache holds exactly
      the game's agers. */
  lemma {:induction false} RefreshNeverFull(s: Store, read: Result<seq<Row>>, now: DateTime)
    requires Valid(now)
    requires Refresh(s, read, now).result.Ok?
    ensures var log := Refresh(s, read, now).store.agerLog.value;
            && log[|log| - 1].status == PartialRefresh
            && forall i :: 0 <= i < |log| ==> log[i].status != Refreshed
    ensures |Refresh(s, read, now).store.agers.value| == |read.value|
  {
    FillCompleteIffWellFormed(read.value);
  }

  // ---------------------------------------------------------------------
  // Picker lists
  // ---------------------------------------------------------------------

  /** One picker entry: the ager uid and its label. */
  datatype AgerEntry = AgerEntry(uid: Cell, text: string)

  /** The label of one cached ager; the worker-name lookup cannot make it
      fail. */
  function EntryOf(row: AgerRow, workerName: Lookup): (r: AgerEntry)
    ensures r.uid == row.uid
    ensures StartsWith(r.text, WorkerName(workerName(row.workerUid)))
  {
    var worker := WorkerName(workerName(row.workerUid));
    var text := worker + "[Age@" + Render(row.triggerAge) + "]" + "[" + Render(row.uid) + "]";
    assert text[..|worker|] == worker;
    AgerEntry(row.uid, text)
  }

  /** With an integer trigger age and a non-negative integer uid the label
      is the ager caption of `Labels`: the anchored search finds the uid, and
      so does the first-match search unless the worker name holds
      `[digits]`. */
  lemma {:induction false} EntryCarriesUid(row: AgerRow, workerName: Lookup, t: int, n: nat)
    requires row.triggerAge == IntCell(t) && row.uid == IntCell(n)
    ensures EntryOf(row, workerName).text == AgerLabel(WorkerName(workerName(row.workerUid)), t, n)
    ensures AnchoredUid(EntryOf(row, workerName).text) == Some(n)
    ensures NoMatch(WorkerName(workerName(row.workerUid))) ==> FirstUid(EntryOf(row, workerName).text) == Some(n)
  {
    var worker := WorkerName(workerName(row.workerUid));
    var d := Render(row.uid);
    assert d == NatToDigits(n);
    assert UidTag(n) == "[" + d + "]";
    assert AgeTag(t) == "[Age@" + Render(row.triggerAge) + "]";
    Regroup(worker, Render(row.triggerAge), d);
  }

  /** The label text regrouped as worker, age tag and uid tag. */
  lemma {:induction false} Regroup(w: string, a: string, d: string)
    ensures w + "[Age@" + a + "]" + "[" + d + "]" == w + (("[Age@" + a + "]") + ("[" + d + "]"))
  {
  }

  function Entries(rows: seq<AgerRow>, workerName: Lookup): (r: seq<AgerEntry>)
    ensures |r| == |rows|
    ensures forall i :: 0 <= i < |rows| ==> r[i] == EntryOf(rows[i], workerName)
  {
    seq(|rows|, i requires 0 <= i < |rows| => EntryOf(rows[i], workerName))
  }

  /** `fetch_ager_photo_record_cache_lists`: one entry per cached ager (a
      missing or empty cache raises), and the local picture files from the
      worker cache, or from a folder scan when that cache is missing or
      empty. */
  function Lists(s: Store, workerName: Lookup, listing: Option<seq<string>>)
    : (r: Result<(seq<AgerEntry>, seq<string>)>)
    ensures ReadAll(s.agers).Err? ==> r == Err(ReadAll(s.agers).fault)
    ensures r.Ok? <==> ReadAll(s.agers).Ok? && LocalPhotoFiles(s.localWorkers, ScanWorkerPhotos(listing)).Ok?
    ensures r.Ok? ==> && r.value.0 == Entries(s.agers.value, workerName)
                      && r.value.1 == LocalPhotoFiles(s.localWorkers, ScanWorkerPhotos(listing)).value
  {
    var rows :- ReadAll(s.agers);
    var local :- LocalPhotoFiles(s.localWorkers, ScanWorkerPhotos(listing));
    Ok((Entries(rows, workerName), local))
  }

  /** After a refresh that succeeds, listing yields one entry per game
      ager, or raises `EmptyList` when the game had none. */
  lemma {:induction false} RefreshThenLists(s: Store, read: Result<seq<Row>>, now: DateTime, workerName: Lookup,
                                            listing: Option<seq<string>>)
    requires Valid(now)
    requires Refresh(s, read, now).result.Ok?
    ensures var l := Lists(Refresh(s, read, now).store, workerName, listing);
            && (|read.value| == 0 ==> l == Err(EmptyList))
            && (l.Ok? ==> |l.value.0| == |read.value|)
  {
    FillCompleteIffWellFormed(read.value);
  }

  // ---------------------------------------------------------------------
  // Reading and updating one ager's picture
  // ---------------------------------------------------------------------

  function UidIs(n: int): AgerRow -> bool {
    (row: AgerRow) => row.uid == IntCell(n)
  }

  function SetFile(file: string): AgerRow -> AgerRow {
    (row: AgerRow) => row.(file := TextCell(file))
  }

  /** `fetch_ager_photo_filename_from_cache`: the picture file of the first
      cached ager with the uid the anchored search finds in the caption, `""`
      when the caption has no trailing uid or no row matches; a missing table
      raises. */
  function FetchFilename(s: Store, caption: string): (r: Result<Cell>)
    ensures AnchoredUid(caption).None? ==> r == Ok(TextCell(""))
    ensures AnchoredUid(caption).Some? && s.agers.None? ==> r == Err(NoSuchTable)
    ensures AnchoredUid(caption).Some? && s.agers.Some? ==>
              match FirstWhere(s.agers.value, UidIs(AnchoredUid(caption).value))
              case None => r == Ok(TextCell(""))
              case Some(row) => r == Ok(row.file)
  {
    match AnchoredUid(caption)
    case None => Ok(TextCell(""))
    case Some(n) =>
      match s.agers
      case None => Err(NoSuchTable)
      case Some(rows) =>
        match FirstWhere(rows, UidIs(n))
        case None => Ok(TextCell(""))
        case Some(row) => Ok(row.file)
  }

  /** Fetching through a listed label reads the picture of the listed ager,
      when no earlier cached ager has the same uid. */
  lemma {:induction false} ListThenFetch(s: Store, workerName: Lookup, i: int, t: int, n: nat)
    requires s.agers.Some? && 0 <= i < |s.agers.value|
    requires s.agers.value[i].triggerAge == IntCell(t) && s.agers.value[i].uid == IntCell(n)
    requires forall j :: 0 <= j < i ==> s.agers.value[j].uid != IntCell(n)
    ensures FetchFilename(s, Entries(s.agers.value, workerName)[i].text) == Ok(s.agers.value[i].file)
  {
    var rows := s.agers.value;
    EntryCarriesUid(rows[i], workerName, t, n);
    var r := FirstWhere(rows, UidIs(n));
    var k :| 0 <= k < |rows| && rows[k] == r.value && UidIs(n)(rows[k]) && forall j :: 0 <= j < k ==> !UidIs(n)(rows[j]);
    assert k == i;
  }

  /** The cache write and game write of an update for uid `n`: every cached
      row with the uid gets the name, then the game's `tblAger` row with
      that uid is sent it; a missing table raises before the game write. */
  function Write(s: Store, n: nat, file: string, game: Result<()>): (r: UpdateOutcome)
    ensures s.agers.None? ==> r == UpdateOutcome(s, None, Err(NoSuchTable))
    ensures s.agers.Some? ==>
              && r.sent == Some(GameWrite("tblAger", IntCell(n), file))
              && r.result == game
              && r.store == s.(agers := r.store.agers)
              && r.store.agers.Some?
              && |r.store.agers.value| == |s.agers.value|
              && forall i :: 0 <= i < |s.agers.value| ==>
                   r.store.agers.value[i] == if s.agers.value[i].uid == IntCell(n)
                                             then s.agers.value[i].(file := TextCell(file))
                                             else s.agers.value[i]
  {
    match s.agers
    case None => UpdateOutcome(s, None, Err(NoSuchTable))
    case Some(rows) =>
      UpdateOutcome(s.(agers := Some(UpdateWhere(rows, UidIs(n), SetFile(file)))),
                    Some(GameWrite("tblAger", IntCell(n), file)), game)
  }

  /** `update_ager_photo_filename` as written: the uid is taken by the
      first-match search; a caption without `[digits]` anywhere is a silent
      no-op, a missing default extension raises before any write, and
      otherwise the name is written to the cache and to the game. */
  function UpdateAsWritten(s: Store, caption: string, newFilename: string, appendGif: bool,
                           default: Option<string>, game: Result<()>): (r: UpdateOutcome)
    ensures FirstUid(caption).None? ==> r == UpdateOutcome(s, None, Ok(()))
    ensures FirstUid(caption).Some? && AgerUpdateName(newFilename, appendGif, default).Err? ==>
              r == UpdateOutcome(s, None, Err(MissingDefaultExtension))
    ensures FirstUid(caption).Some? && AgerUpdateName(newFilename, appendGif, default).Ok? ==>
              r == Write(s, FirstUid(caption).value, AgerUpdateName(newFilename, appendGif, default).value, game)
    ensures r.sent.Some? ==> r.sent.value.key == IntCell(FirstUid(caption).value)
  {
    match FirstUid(caption)
    case None => UpdateOutcome(s, None, Ok(()))
    case Some(n) =>
      match AgerUpdateName(newFilename, appendGif, default)
      case Err(f) => UpdateOutcome(s, None, Err(f))
      case Ok(file) => Write(s, n, file, game)
  }

  /** The ager update with the uid taken by the anchored search, as the
      fetch takes it, so that it addresses the ager the caption ends with
      whatever the worker name holds. */
  function Update(s: Store, caption: string, newFilename: string, appendGif: bool,
                  default: Option<string>, game: Result<()>): (r: UpdateOutcome)
    ensures AnchoredUid(caption).None? ==> r == UpdateOutcome(s, None, Ok(()))
    ensures AnchoredUid(caption).Some? && AgerUpdateName(newFilename, appendGif, default).Err? ==>
              r == UpdateOutcome(s, None, Err(MissingDefaultExtension))
    ensures r.sent.Some? <==> && AnchoredUid(caption).Some? && AgerUpdateName(newFilename, appendGif, default).Ok?
                              && s.agers.Some?
    ensures r.sent.Some? ==> r.sent.value == GameWrite("tblAger", IntCell(AnchoredUid(caption).value),
                                                       AgerUpdateName(newFilename, appendGif, default).value)
    ensures r.sent.None? ==> r.store == s
    ensures AnchoredUid(caption).Some? && AgerUpdateName(newFilename, appendGif, default).Ok? ==>
              r == Write(s, AnchoredUid(caption).value, AgerUpdateName(newFilename, appendGif, default).value, game)
  {
    match AnchoredUid(caption)
    case None => UpdateOutcome(s, None, Ok(()))
    case Some(n) =>
      match AgerUpdateName(newFilename, appendGif, default)
      case Err(f) => UpdateOutcome(s, None, Err(f))
      case Ok(file) => Write(s, n, file, game)
  }

  /** On a label the list built for an ager whose worker name holds no
      `[digits]`, the update as written and the corrected one do the same. */
  lemma {:induction false} UpdatesAgreeOnPlainNames(s: Store, row: AgerRow, workerName: Lookup, t: int, n: nat,
                                                    newFilename: string, appendGif: bool, default: Option<string>,
                                                    game: Result<()>)
    requires row.triggerAge == IntCell(t) && row.uid == IntCell(n)
    requires NoMatch(WorkerName(workerName(row.workerUid)))
    ensures var caption := EntryOf(row, workerName).text;
            UpdateAsWritten(s, caption, newFilename, appendGif, default, game)
            == Update(s, caption, newFilename, appendGif, default, game)
  {
    EntryCarriesUid(row, workerName, t, n);
  }

  /** A worker named `Ace[7]` sends the update as written for ager 12 to
      ager 7, in the cache and in the game, while the corrected update
      addresses ager 12. */
  lemma {:induction false} UpdateAsWrittenMisdirected(s: Store, newFilename: string, appendGif: bool, default: Option<string>,
                                   game: Result<()>)
    requires s.agers.Some? && AgerUpdateName(newFilename, appendGif, default).Ok?
    ensures var caption := AgerLabel("Ace[7]", 30, 12);
            && UpdateAsWritten(s, caption, newFilename, appendGif, default, game).sent.Some?
            && UpdateAsWritten(s, caption, newFilename, appendGif, default, game).sent.value.key == IntCell(7)
            && Update(s, caption, newFilename, appendGif, default, game).sent.Some?
            && Update(s, caption, newFilename, appendGif, default, game).sent.value.key == IntCell(12)
  {
    var caption := AgerLabel("Ace[7]", 30, 12);
    AgerLabelWorkerCaptures();
    assert FirstUid(caption) == Some(7);
    assert AnchoredUid(caption) == Some(12);
  }

  /** Fetching through the same label after an update reads the new name,
      or `""` when no cached ager has the uid. */
  lemma {:induction false} UpdateThenFetch(s: Store, caption: string, newFilename: string, appendGif: bool,
                                           default: Option<string>, game: Result<()>)
    requires Update(s, caption, newFilename, appendGif, default, game).sent.Some?
    ensures var r := Update(s, caption, newFilename, appendGif, default, game);
            FetchFilename(r.store, caption)
            == if FirstWhere(s.agers.value, UidIs(AnchoredUid(caption).value)).None? then Ok(TextCell(""))
               else Ok(TextCell(r.sent.value.file))
  {
    var n := AnchoredUid(caption).value;
    FirstAfterUpdate(s.agers.value, UidIs(n), SetFile(AgerUpdateName(newFilename, appendGif, default).value));
  }

  /** An update through one label leaves what a label with another uid
      reads. */
  lemma {:induction false} UpdateKeepsOthers(s: Store, caption: string, other: string, newFilename: string,
                                             appendGif: bool, default: Option<string>, game: Result<()>)
    requires AnchoredUid(other) != AnchoredUid(caption)
    ensures FetchFilename(Update(s, caption, newFilename, appendGif, default, game).store, other)
            == FetchFilename(s, other)
  {
    var r := Update(s, caption, newFilename, appendGif, default, game);
    if r.sent.Some? && AnchoredUid(other).Some? {
      var n, m := AnchoredUid(caption).value, AnchoredUid(other).value;
      var file := AgerUpdateName(newFilename, appendGif, default).value;
      assert r.store.agers == Some(UpdateWhere(s.agers.value, UidIs(n), SetFile(file)));
      FirstUnaffected(s.agers.value, UidIs(n), SetFile(file), UidIs(m));
    }
  }
}

=== FILE: alter_engine.dfy ===
/** The alter photo engine: a cache of the game's alternate personas
    (alter uid, `worker|description` record name, worker and picture file),
    the `Worker[uid][description]` picker labels built from it, and the
    picture updates addressed through them.

    The game's alter read (`SELECT UID, WorkerUID, Recordname, Picture FROM
    tblAlternate`) and the worker-folder listing are inputs. Unlike the
    other record engines this one swallows fill errors, and its refresh
    fallback only recreates the empty tables.
 */
module AlterEngine {
  import opened Wrappers
  import opened Text
  import opened Timestamps
  import opened Records
  import opened UidRegex
  import opened Labels
  import opened PhotoNames
  import opened CacheStore
  import opened WorkerEngine

  /** The alter columns the engine reads from the game. */
  const AlterColumns: seq<string> := ["UID", "WorkerUID", "Recordname", "Picture"]

  /** Nothing outside the alter engine's two tables differs. */
  predicate OnlyAlterTablesChange(s: Store, r: Store) {
    r.(alterLog := s.alterLog, alters := s.alters) == s
  }

  /** The readiness check as written: a skipped check answers "not ready";
      otherwise it calls `check_table_exists`, which the SQLite wrapper does
      not have, and this engine turns the resulting `AttributeError` into
      "not ready" too, so it never reports a ready cache. */
  function CheckAsWritten(skip: bool, table: Option<seq<AlterRow>>): (r: bool)
    ensures !r
  {
    match CacheCheckAsWritten(skip, table)
    case Ok(ready) => ready
    case Err(_) => false
  }

  /** A cache that holds rows is ready by the corrected check, but not by
      the check as written, so every init rebuilds it. */
  lemma {:induction false} CheckAsWrittenNeverReady(table: Option<seq<AlterRow>>)
    requires table.Some? && |table.value| > 0
    ensures CacheCheck(false, table)
    ensures !CheckAsWritten(false, table)
  {
  }

  /** `_build_alter_photo_record_cache`: both tables dropped and created
      again, the log with one `created` row. */
  function Build(s: Store, now: DateTime): (r: Store)
    requires Valid(now)
    ensures OnlyAlterTablesChange(s, r)
    ensures r.alterLog == Some([Stamp(now, Created)]) && r.alters == Some([])
  {
    s.(alterLog := Some([Stamp(now, Created)]), alters := Some([]))
  }

  /** One cache row from an alter record: `UID` as the alter uid,
      `Recordname`, `WorkerUID`, `Picture`, marked `new`; a record lacking
      one of them raises `KeyError`. */
  function AlterRowOf(record: Row): (r: Result<AlterRow>)
    ensures r.Ok? <==> forall k :: k in AlterColumns ==> k in record
    ensures r.Ok? ==> r.value == AlterRow(record["UID"], record["Recordname"], record["WorkerUID"],
                                          record["Picture"], NewStatus)
  {
    var uid :- Field(record, "UID");
    var name :- Field(record, "Recordname");
    var worker :- Field(record, "WorkerUID");
    var file :- Field(record, "Picture");
    Ok(AlterRow(uid, name, worker, file, NewStatus))
  }

  /** `_fill_alter_photo_record_cache`: one `new` row per record, in order,
      each committed on its own; the first record that raises ends the fill
      and the error is swallowed, so the fill never fails. A missing table
      receives nothing. */
  function Fill(s: Store, records: seq<Row>): (r: Store)
    ensures r == s.(alters := r.alters)
    ensures s.alters.None? ==> r.alters == None
    ensures s.alters.Some? ==> r.alters == Some(s.alters.value + FillRows(records, AlterRowOf).0)
  {
    s.(alters := InsertRecords(s.alters, records, AlterRowOf).0)
  }

  /** The rows a fill from these records leaves in freshly built tables:
      the records before the first malformed one. */
  function Filled(records: seq<Row>): (r: seq<AlterRow>)
    ensures |r| <= |records|
    ensures forall i :: 0 <= i < |r| ==> AlterRowOf(records[i]) == Ok(r[i])
    ensures |r| < |records| ==> AlterRowOf(records[|r|]).Err?
  {
    FillRows(records, AlterRowOf).0
  }

  /** `_populate_alter_photo_record_cache` on freshly built tables, given
      what the game read returned: its fault is raised, otherwise the fill
      runs and succeeds. */
  function Populate(built: Store, read: Result<seq<Row>>): (r: Outcome<()>)
    requires built.alters == Some([])
    ensures r.store == built.(alters := r.store.alters)
    ensures r.result.Ok? <==> read.Ok?
    ensures read.Err? ==> r.result == Err(read.fault) && r.store.alters == Some([])
    ensures read.Ok? ==> r.store.alters == Some(Filled(read.value))
  {
    match read
    case Err(f) => Outcome(built, Err(f))
    case Ok(records) =>
      assert [] + Filled(records) == Filled(records);
      Outcome(Fill(built, records), Ok(()))
  }

  /** `alter_photo_cache_init`, with the corrected check: a ready cache is
      left alone; otherwise it is built and populated from the game read,
      and an `initialized` row is logged. Only a failing read raises. */
  function Init(s: Store, skip: bool, read: Result<seq<Row>>, now: DateTime): (r: Outcome<bool>)
    requires Valid(now)
    ensures CacheCheck(skip, s.alters) ==> r == Outcome(s, Ok(true))
    ensures r.result.Ok? ==> r.result.value
    ensures !CacheCheck(skip, s.alters) ==>
              && OnlyAlterTablesChange(s, r.store)
              && (r.result.Ok? <==> read.Ok?)
              && (read.Err? ==> r.result == Err(read.fault) && r.store.alters == Some([]))
              && (read.Ok? ==> r.store.alters == Some(Filled(read.value)))
              && (r.result.Ok? ==> r.store.alterLog == Some([Stamp(now, Created), Stamp(now, Initialized)]))
              && (r.result.Err? ==> r.store.alterLog == Some([Stamp(now, Created)]))
  {
    if CacheCheck(skip, s.alters) then Outcome(s, Ok(true))
    else
      var built := Populate(Build(s, now), read);
      match built.result
      case Err(f) => Outcome(built.store, Err(f))
      case Ok(_) =>
        assert [Stamp(now, Created)] + [Stamp(now, Initialized)] == [Stamp(now, Created), Stamp(now, Initialized)];
        Outcome(built.store.(alterLog := Append(built.store.alterLog, Stamp(now, Initialized))), Ok(true))
  }

  /** `alter_photo_cache_init` with the readiness check as written: the
      check never reports a ready cache, so every init, skipped or not,
      drops and rebuilds both tables from the game read. */
  function InitAsWritten(s: Store, skip: bool, read: Result<seq<Row>>, now: DateTime): (r: Outcome<bool>)
    requires Valid(now)
    ensures r == Init(s, true, read, now)
    ensures r.store.alterLog.Some? && r.store.alterLog.value[0] == Stamp(now, Created)
    ensures r.store.alters == if read.Ok? then Some(Filled(read.value)) else Some([])
  {
    if CheckAsWritten(skip, s.alters) then Outcome(s, Ok(true)) else Init(s, true, read, now)
  }

  /** On a cache that is ready, `Init` with the corrected check leaves the
      store alone, while the init as written rebuilds it and logs it anew. */
  lemma {:induction false} InitAsWrittenRebuildsReadyCache(s: Store, read: Result<seq<Row>>, now: DateTime)
    requires Valid(now)
    requires s.alters.Some? && |s.alters.value| > 0
    ensures Init(s, false, read, now) == Outcome(s, Ok(true))
    ensures InitAsWritten(s, false, read, now).store.alterLog.value[0] == Stamp(now, Created)
    ensures InitAsWritten(s, false, read, now).result.Ok? <==> read.Ok?
  {
  }

  /** `_reset_alter_photo_record_cache`: build, then scan the worker folder
      and read the game, raising when either fails or comes back empty,
      then fill. */
  function Reset(s: Store, listing: Option<seq<string>>, read: Result<seq<Row>>, now: DateTime)
    : (r: Outcome<()>)
    requires Valid(now)
    ensures OnlyAlterTablesChange(s, r.store)
    ensures r.store.alterLog == Some([Stamp(now, Created)])
    ensures r.result.Ok? <==> && ScanWorkerPhotos(listing).Ok? && |ScanWorkerPhotos(listing).value| > 0
                              && read.Ok? && |read.value| > 0
    ensures r.result.Ok? ==> r.store.alters == Some(Filled(read.value))
    ensures r.result.Err? ==> r.store.alters == Some([])
  {
    var built := Build(s, now);
    var scan := ScanWorkerPhotos(listing);
    if scan.Err? then Outcome(built, Err(scan.fault))
    else if |scan.value| == 0 then Outcome(built, Err(EmptyList))
    else if read.Err? then Outcome(built, Err(read.fault))
    else if |read.value| == 0 then Outcome(built, Err(EmptyList))
    else
      assert [] + Filled(read.value) == Filled(read.value);
      Outcome(Fill(built, read.value), Ok(()))
  }

  /** `refresh_alter_photo_record_cache`: a reset that succeeds is followed
      by a `refreshed` row; otherwise `_rebuild_alter_photo_record_cache`,
      which is the build alone, recreates the tables empty, and a
      `partial_refresh` row is logged. It never raises. */
  function Refresh(s: Store, listing: Option<seq<string>>, read: Result<seq<Row>>, now: DateTime)
    : (r: Outcome<()>)
    requires Valid(now)
    ensures r.result.Ok?
    ensures OnlyAlterTablesChange(s, r.store)
    ensures Reset(s, listing, read, now).result.Ok? ==>
              && r.store.alterLog == Some([Stamp(now, Created), Stamp(now, Refreshed)])
              && r.store.alters == Some(Filled(read.value))
    ensures Reset(s, listing, read, now).result.Err? ==>
              && r.store.alterLog == Some([Stamp(now, Created), Stamp(now, PartialRefresh)])
              && r.store.alters == Some([])
  {
    var reset := Reset(s, listing, read, now);
    if reset.result.Ok? then
      assert [Stamp(now, Created)] + [Stamp(now, Refreshed)] == [Stamp(now, Created), Stamp(now, Refreshed)];
      Outcome(reset.store.(alterLog := Append(reset.store.alterLog, Stamp(now, Refreshed))), Ok(()))
    else
      var rebuilt := Build(reset.store, now);
      assert [Stamp(now, Created)] + [Stamp(now, PartialRefresh)] == [Stamp(now, Created), Stamp(now, PartialRefresh)];
      Outcome(rebuilt.(alterLog := Append(rebuilt.alterLog, Stamp(now, PartialRefresh))), Ok(()))
  }

  // ---------------------------------------------------------------------
  // Picker lists
  // ---------------------------------------------------------------------

  /** One picker entry: the alter uid and its label. */
  datatype AlterEntry = AlterEntry(uid: Cell, text: string)

  /** The label of one cached alter: the record name split at its first
      `|` into worker and description, then the worker, the alter uid in
      brackets and, when the description is not empty, the description in
      brackets. A record name that is not text cannot be searched for `|`
      and raises `TypeError`. */
  function EntryOf(row: AlterRow): (r: Result<AlterEntry>)
    ensures r.Ok? <==> row.recordname.TextCell?
    ensures r.Err? ==> r.fault == TypeMismatch
    ensures r.Ok? ==> && r.value.uid == row.alterUid
                      && StartsWith(r.value.text, SplitRecordName(row.recordname.t).0 + "[" + Render(row.alterUid) + "]")
  {
    match row.recordname
    case TextCell(name) =>
      var (worker, desc) := SplitRecordName(name);
      var head := worker + "[" + Render(row.alterUid) + "]";
      var text := head + (if desc != "" then "[" + desc + "]" else "");
      assert text[..|head|] == head;
      Ok(AlterEntry(row.alterUid, text))
    case _ => Err(TypeMismatch)
  }

  /** With a non-negative integer alter uid the label is the alter label
      of `Labels`, so the first-match search finds that uid unless the
      worker part holds `[digits]`. */
  lemma {:induction false} EntryCarriesUid(row: AlterRow, n: nat)
    requires row.recordname.TextCell? && row.alterUid == IntCell(n)
    ensures var (worker, desc) := SplitRecordName(row.recordname.t);
            EntryOf(row).value.text == AlterLabel(worker, n, desc)
    ensures NoMatch(SplitRecordName(row.recordname.t).0) ==> FirstUid(EntryOf(row).value.text) == Some(n)
  {
    var (worker, desc) := SplitRecordName(row.recordname.t);
    var d := Render(row.alterUid);
    assert d == NatToDigits(n);
    assert UidTag(n) == "[" + d + "]";
    Regroup(worker, d);
  }

  /** The head of the label regrouped as worker and uid tag. */
  lemma {:induction false} Regroup(w: string, d: string)
    ensures w + "[" + d + "]" == w + ("[" + d + "]")
  {
  }

  /** One entry per cached alter, in order; the first record name that is
      not text raises. */
  function Entries(rows: seq<AlterRow>): (r: Result<seq<AlterEntry>>)
    ensures r.Ok? <==> forall i :: 0 <= i < |rows| ==> rows[i].recordname.TextCell?
    ensures r.Err? ==> r.fault == TypeMismatch
    ensures r.Ok? ==> |r.value| == |rows| && forall i :: 0 <= i < |rows| ==> r.value[i] == EntryOf(rows[i]).value
  {
    if forall i :: 0 <= i < |rows| ==> rows[i].recordname.TextCell? then
      Ok(seq(|rows|, i requires 0 <= i < |rows| => EntryOf(rows[i]).value))
    else Err(TypeMismatch)
  }

  /** `fetch_alter_photo_record_cache_lists`: one entry per cached alter (a
      missing or empty cache raises), and the local picture files from the
      worker cache, or from a folder scan when that cache is missing or
      empty. */
  function Lists(s: Store, listing: Option<seq<string>>): (r: Result<(seq<AlterEntry>, seq<string>)>)
    ensures ReadAll(s.alters).Err? ==> r == Err(ReadAll(s.alters).fault)
    ensures r.Ok? <==> && ReadAll(s.alters).Ok? && Entries(s.alters.value).Ok?
                       && LocalPhotoFiles(s.localWorkers, ScanWorkerPhotos(listing)).Ok?
    ensures r.Ok? ==> && r.value.0 == Entries(s.alters.value).value
                      && r.value.1 == LocalPhotoFiles(s.localWorkers, ScanWorkerPhotos(listing)).value
  {
    var rows :- ReadAll(s.alters);
    var entries :- Entries(rows);
    var local :- LocalPhotoFiles(s.localWorkers, ScanWorkerPhotos(listing));
    Ok((entries, local))
  }

  /** After a refresh whose reset failed, the alter list cannot be fetched:
      the fallback left the cache empty. */
  lemma {:induction false} PartialRefreshEmptiesList(s: Store, listing: Option<seq<string>>,
                                                     read: Result<seq<Row>>, now: DateTime,
                                                     later: Option<seq<string>>)
    requires Valid(now)
    requires Reset(s, listing, read, now).result.Err?
    ensures Refresh(s, listing, read, now).store.alterLog.value[1].status == PartialRefresh
    ensures Lists(Refresh(s, listing, read, now).store, later) == Err(EmptyList)
  {
  }

  // ---------------------------------------------------------------------
  // Reading and updating one alter's picture
  // ---------------------------------------------------------------------

  function UidIs(n: int): AlterRow -> bool {
    (row: AlterRow) => row.alterUid == IntCell(n)
  }

  function SetFile(file: string): AlterRow -> AlterRow {
    (row: AlterRow) => row.(file := TextCell(file))
  }

  /** `fetch_alter_filename_from_cache`: the picture file of the first
      cached alter with the uid the first-match search finds in the label;
      `""` when the label holds no `[digits]`, no row matches, or the table
      is missing. */
  function FetchFilename(s: Store, caption: string): (r: Cell)
    ensures FirstUid(caption).None? || s.alters.None? ==> r == TextCell("")
    ensures FirstUid(caption).Some? && s.alters.Some? ==>
              match FirstWhere(s.alters.value, UidIs(FirstUid(caption).value))
              case None => r == TextCell("")
              case Some(row) => r == row.file
  {
    match FirstUid(caption)
    case None => TextCell("")
    case Some(n) =>
      match s.alters
      case None => TextCell("")
      case Some(rows) =>
        match FirstWhere(rows, UidIs(n))
        case None => TextCell("")
        case Some(row) => row.file
  }

  /** Fetching through a listed label reads the picture of the listed
      alter, when its worker part holds no `[digits]` and no earlier cached
      alter has the same uid. */
  lemma {:induction false} ListThenFetch(s: Store, i: int, n: nat)
    requires s.alters.Some? && 0 <= i < |s.alters.value|
    requires s.alters.value[i].recordname.TextCell? && s.alters.value[i].alterUid == IntCell(n)
    requires NoMatch(SplitRecordName(s.alters.value[i].recordname.t).0)
    requires forall j :: 0 <= j < i ==> s.alters.value[j].alterUid != IntCell(n)
    ensures FetchFilename(s, EntryOf(s.alters.value[i]).value.text) == s.alters.value[i].file
  {
    var rows := s.alters.value;
    EntryCarriesUid(rows[i], n);
    var r := FirstWhere(rows, UidIs(n));
    var k :| 0 <= k < |rows| && rows[k] == r.value && UidIs(n)(rows[k]) && forall j :: 0 <= j < k ==> !UidIs(n)(rows[j]);
    assert k == i;
  }

  /** `update_alter_photo_filename`: a label without `[digits]` raises, and
      so does a missing default extension, both before any write; otherwise
      every cached row with the alter uid gets the normalised name, and then
      the game's `tblAlternate` row with that uid is sent the same name. */
  function Update(s: Store, caption: string, newFilename: string, appendGif: bool, default: Option<string>,
                  game: Result<()>): (r: UpdateOutcome)
    ensures FirstUid(caption).None? ==> r == UpdateOutcome(s, None, Err(InvalidRecordFormat))
    ensures FirstUid(caption).Some? && UpdateName(newFilename, appendGif, default).Err? ==>
              r == UpdateOutcome(s, None, Err(MissingDefaultExtension))
    ensures r.sent.Some? <==> && FirstUid(caption).Some? && UpdateName(newFilename, appendGif, default).Ok?
                              && s.alters.Some?
    ensures r.sent.None? ==> r.store == s && r.result.Err?
    ensures r.sent.Some? ==>
              && r.sent.value == GameWrite("tblAlternate", IntCell(FirstUid(caption).value),
                                           UpdateName(newFilename, appendGif, default).value)
              && r.result == game
              && r.store == s.(alters := r.store.alters)
              && r.store.alters.Some?
              && |r.store.alters.value| == |s.alters.value|
              && forall i :: 0 <= i < |s.alters.value| ==>
                   r.store.alters.value[i] == if s.alters.value[i].alterUid == IntCell(FirstUid(caption).value)
                                              then s.alters.value[i].(file := TextCell(r.sent.value.file))
                                              else s.alters.value[i]
  {
    match FirstUid(caption)
    case None => UpdateOutcome(s, None, Err(InvalidRecordFormat))
    case Some(n) =>
      match UpdateName(newFilename, appendGif, default)
      case Err(f) => UpdateOutcome(s, None, Err(f))
      case Ok(file) =>
        match s.alters
        case None => UpdateOutcome(s, None, Err(NoSuchTable))
        case Some(rows) =>
          UpdateOutcome(s.(alters := Some(UpdateWhere(rows, UidIs(n), SetFile(file)))),
                        Some(GameWrite("tblAlternate", IntCell(n), file)), game)
  }

  /** Fetching through the same label after an update reads the new name,
      or `""` when no cached alter has the uid. */
  lemma {:induction false} UpdateThenFetch(s: Store, caption: string, newFilename: string, appendGif: bool,
                                           default: Option<string>, game: Result<()>)
    requires Update(s, caption, newFilename, appendGif, default, game).sent.Some?
    ensures var r := Update(s, caption, newFilename, appendGif, default, game);
            FetchFilename(r.store, caption)
            == if FirstWhere(s.alters.value, UidIs(FirstUid(caption).value)).None? then TextCell("")
               else TextCell(r.sent.value.file)
  {
    var n := FirstUid(caption).value;
    FirstAfterUpdate(s.alters.value, UidIs(n), SetFile(UpdateName(newFilename, appendGif, default).value));
  }

  /** An update through one label leaves what a label with another uid
      reads. */
  lemma {:induction false} UpdateKeepsOthers(s: Store, caption: string, other: string, newFilename: string,
                                             appendGif: bool, default: Option<string>, game: Result<()>)
    requires FirstUid(other) != FirstUid(caption)
    ensures FetchFilename(Update(s, caption, newFilename, appendGif, default, game).store, other)
            == FetchFilename(s, other)
  {
    var r := Update(s, caption, newFilename, appendGif, default, game);
    if r.sent.Some? && FirstUid(other).Some? {
      var file := UpdateName(newFilename, appendGif, default).value;
      FirstUnaffected(s.alters.value, UidIs(FirstUid(caption).value), SetFile(file), UidIs(FirstUid(other).value));
    }
  }
}

=== FILE: cache_store.dfy ===
/** The local SQLite cache the four photo engines share.

    Every table is a field of `Store`; a table that does not exist is
    `None`. Rows keep the cells exactly as they were inserted. The statements
    of the engines commit one at a time, so an operation that raises part
    way keeps the writes made before the raise: every lifecycle operation
    therefore returns an `Outcome`, the store after the operation together
    with its value or the fault it raised.
 */
module CacheStore {
  import opened Wrappers
  import opened Records
  import opened Timestamps

  /** The `status` text of a cache-log row. */
  datatype Status = Created | Initialized | Refreshed | PartialRefresh

  /** One row of a `*_photo_cache_log` table; the timestamp is TEXT. */
  datatype LogRow = LogRow(timestamp: string, status: Status)

  /** The photo status every freshly inserted cache row gets. */
  const NewStatus: string := "new"

  /** `local_worker_photo_cache`: one picture file found on disk. */
  datatype LocalWorkerRow = LocalWorkerRow(file: string, status: string)

  /** `game_worker_photo_cache`. */
  datatype GameWorkerRow = GameWorkerRow(uid: Cell, name: Cell, file: Cell, status: string)

  /** The game worker cache declares `game_worker_uid` an `INTEGER PRIMARY
      KEY`, so the game's worker uid is the SQLite rowid: every stored uid
      is an integer, no two rows share one, and a scan without `ORDER BY`
      returns the rows in ascending uid order. */
  predicate RowidOrdered(rows: seq<GameWorkerRow>) {
    && (forall i :: 0 <= i < |rows| ==> rows[i].uid.IntCell?)
    && (forall i, j :: 0 <= i < j < |rows| ==> rows[i].uid.n < rows[j].uid.n)
  }

  /** The contents of `game_worker_photo_cache` in scan order. */
  type GameWorkerTable = rows: seq<GameWorkerRow> | RowidOrdered(rows) witness []

  /** `game_contract_photo_cache`. */
  datatype ContractRow = ContractRow(uid: Cell, fedid: Cell, recordname: Cell, workerUid: Cell,
                                     file: Cell, status: string)

  /** `game_ager_photo_cache`. */
  datatype AgerRow = AgerRow(uid: Cell, recordname: Cell, workerUid: Cell, triggerAge: Cell,
                             file: Cell, status: string)

  /** `game_alter_photo_cache`; `alterUid` is the game's alter uid. */
  datatype AlterRow = AlterRow(alterUid: Cell, recordname: Cell, workerUid: Cell, file: Cell, status: string)

  /** The whole cache database. */
  datatype Store = Store(
    workerLog: Option<seq<LogRow>>,
    localWorkers: Option<seq<LocalWorkerRow>>,
    gameWorkers: Option<GameWorkerTable>,
    contractLog: Option<seq<LogRow>>,
    contracts: Option<seq<ContractRow>>,
    agerLog: Option<seq<LogRow>>,
    agers: Option<seq<AgerRow>>,
    alterLog: Option<seq<LogRow>>,
    alters: Option<seq<AlterRow>>)

  /** The store after an operation, and what the operation returned or
      raised. */
  datatype Outcome<T> = Outcome(store: Store, result: Result<T>)

  /** The write an update hands to the game database: which table, the key
      it selects the record by, and the new picture file. */
  datatype GameWrite = GameWrite(table: string, key: Cell, file: string)

  /** An update's outcome, with the game-database write it issued, if it
      got that far. */
  datatype UpdateOutcome = UpdateOutcome(store: Store, sent: Option<GameWrite>, result: Result<()>)

  /** A lookup in the game database by a cell value, returning the first
      column of each matching row. */
  type Lookup = Cell -> Result<seq<string>>

  /** The log row an engine writes at `now`. */
  function Stamp(now: DateTime, status: Status): LogRow
    requires Valid(now)
  {
    LogRow(Format(now), status)
  }

  /** `INSERT` of one row into a table the caller has just created. */
  function Append<T>(table: Option<seq<T>>, row: T): Option<seq<T>>
    requires table.Some?
  {
    Some(table.value + [row])
  }

  /** The rows converted from the records in order, up to the first record
      whose conversion raises, and that fault. */
  function FillRows<T>(records: seq<Row>, convert: Row -> Result<T>): (r: (seq<T>, Option<Fault>))
    ensures |r.0| <= |records|
    ensures forall i :: 0 <= i < |r.0| ==> convert(records[i]) == Ok(r.0[i])
    ensures r.1.None? <==> |r.0| == |records|
    ensures r.1.Some? ==> convert(records[|r.0|]) == Err(r.1.value)
    decreases |records|
  {
    if |records| == 0 then ([], None)
    else
      match convert(records[0])
      case Err(f) => ([], Some(f))
      case Ok(row) =>
        var rest := FillRows(records[1..], convert);
        assert forall i :: 1 <= i <= |rest.0| ==> records[1..][i - 1] == records[i];
        ([row] + rest.0, rest.1)
  }

  /** Converting and inserting each record in turn. A missing table makes
      the first insert raise; otherwise the rows before a failing record
      stay inserted. */
  function InsertRecords<T>(table: Option<seq<T>>, records: seq<Row>, convert: Row -> Result<T>)
    : (r: (Option<seq<T>>, Result<()>))
    ensures |records| == 0 ==> r == (table, Ok(()))
    ensures table.None? ==> r.0 == None && (r.1.Ok? <==> |records| == 0)
    ensures table.Some? ==> var (added, fault) := FillRows(records, convert);
              && r.0 == Some(table.value + added)
              && (fault.None? ==> r.1 == Ok(()))
              && (fault.Some? ==> r.1 == Err(fault.value))
  {
    if |records| == 0 then
      assert table.Some? ==> table.value + [] == table.value;
      (table, Ok(()))
    else
      match table
      case None => (None, Err(match convert(records[0]) case Err(f) => f case Ok(_) => NoSuchTable))
      case Some(rows) =>
        var (added, fault) := FillRows(records, convert);
        (Some(rows + added), if fault.None? then Ok(()) else Err(fault.value))
  }

  /** The rowid `AUTOINCREMENT` gives a row inserted without a uid: one
      more than the largest uid so far, and at least 1. Nothing is ever
      deleted from the table between its creation and a later drop, so the
      largest uid ever used is the largest one present. */
  function NextRowid(rows: GameWorkerTable): (r: int)
    ensures r >= 1
    ensures forall i :: 0 <= i < |rows| ==> rows[i].uid.n < r
  {
    if |rows| == 0 then 1
    else
      var last := rows[|rows| - 1].uid.n;
      if last < 0 then 1 else last + 1
  }

  /** The position of a uid among an ordered table's: the number of rows
      whose uid is smaller. */
  function Slot(rows: GameWorkerTable, key: int): (r: nat)
    ensures r <= |rows|
    ensures forall i :: 0 <= i < r ==> rows[i].uid.n <= key
    ensures forall i :: r <= i < |rows| ==> key < rows[i].uid.n
    ensures r < |rows| ==> key < rows[r].uid.n
    decreases |rows|
  {
    if |rows| == 0 || key < rows[0].uid.n then 0
    else
      var tail: GameWorkerTable := rows[1..];
      assert forall k :: 0 <= k < |tail| ==> tail[k] == rows[k + 1];
      1 + Slot(tail, key)
  }

  /** The row placed among the others by its integer uid. */
  function Place(rows: GameWorkerTable, row: GameWorkerRow): (r: GameWorkerTable)
    requires row.uid.IntCell?
    requires forall i :: 0 <= i < |rows| ==> rows[i].uid != row.uid
    ensures exists p :: 0 <= p <= |rows| && r == rows[..p] + [row] + rows[p..]
  {
    var p := Slot(rows, row.uid.n);
    SpliceOrdered(rows, row, p);
    rows[..p] + [row] + rows[p..]
  }

  /** A row spliced in where its uid falls keeps the table ordered. */
  lemma {:induction false} SpliceOrdered(rows: GameWorkerTable, row: GameWorkerRow, p: nat)
    requires row.uid.IntCell? && p <= |rows|
    requires forall i :: 0 <= i < p ==> rows[i].uid.n < row.uid.n
    requires forall i :: p <= i < |rows| ==> row.uid.n < rows[i].uid.n
    ensures RowidOrdered(rows[..p] + [row] + rows[p..])
  {
    var r := rows[..p] + [row] + rows[p..];
    Splice(rows, row, p);
    forall i, j | 0 <= i < j < |r| ensures r[i].uid.n < r[j].uid.n {
      if j == p {
        assert r[i] == rows[i];
      } else if i == p {
        assert r[j] == rows[j - 1];
      } else if j < p {
        assert r[i] == rows[i] && r[j] == rows[j];
      } else if i < p {
        assert r[i] == rows[i] && r[j] == rows[j - 1];
      } else {
        assert r[i] == rows[i - 1] && r[j] == rows[j - 1];
      }
    }
  }

  /** A row inserted at position `p`: one more of it in the multiset, and
      every position holds the row, or the row that was there or just
      before it. */
  lemma {:induction false} Splice<T>(rows: seq<T>, x: T, p: nat)
    requires p <= |rows|
    ensures multiset(rows[..p] + [x] + rows[p..]) == multiset(rows) + multiset{x}
    ensures forall j :: 0 <= j <= |rows| ==>
              (rows[..p] + [x] + rows[p..])[j] == if j < p then rows[j] else if j == p then x else rows[j - 1]
  {
    assert rows == rows[..p] + rows[p..];
  }

  /** `INSERT` into the game worker cache. A text uid is refused (it is not
      an integer key), an integer uid already present is refused, and an
      absent uid (`NULL`) gets the next rowid; the row is then found at its
      place in uid order. */
  function InsertByRowid(rows: GameWorkerTable, row: GameWorkerRow): (r: Result<GameWorkerTable>)
    ensures row.uid.TextCell? ==> r == Err(ConstraintFailed)
    ensures row.uid.IntCell? ==> (r.Err? <==> exists i :: 0 <= i < |rows| && rows[i].uid == row.uid)
    ensures r.Err? ==> r.fault == ConstraintFailed
    ensures row.uid.NullCell? ==> r == Ok(rows + [row.(uid := IntCell(NextRowid(rows)))])
    ensures row.uid.IntCell? && r.Ok? ==>
              exists p :: 0 <= p <= |rows| && r.value == rows[..p] + [row] + rows[p..]
  {
    match row.uid
    case TextCell(_) => Err(ConstraintFailed)
    case NullCell =>
      var r := rows + [row.(uid := IntCell(NextRowid(rows)))];
      assert RowidOrdered(r) by {
        forall i, j | 0 <= i < j < |r| ensures r[i].uid.n < r[j].uid.n {
          if j < |rows| {
            assert r[i] == rows[i] && r[j] == rows[j];
          } else {
            assert r[i] == rows[i];
          }
        }
      }
      Ok(r)
    case IntCell(_) =>
      if exists i :: 0 <= i < |rows| && rows[i].uid == row.uid then Err(ConstraintFailed)
      else Ok(Place(rows, row))
  }

  /** `UPDATE ... WHERE`: the rows the condition selects are rewritten, the
      others kept, in place. */
  function UpdateWhere<T>(rows: seq<T>, hit: T -> bool, rewrite: T -> T): (r: seq<T>)
    ensures |r| == |rows|
    ensures forall i :: 0 <= i < |rows| ==> r[i] == if hit(rows[i]) then rewrite(rows[i]) else rows[i]
  {
    seq(|rows|, i requires 0 <= i < |rows| => if hit(rows[i]) then rewrite(rows[i]) else rows[i])
  }

  /** `result[0]` of a `SELECT ... WHERE`: the first row the condition
      selects, if any. */
  function FirstWhere<T>(rows: seq<T>, hit: T -> bool): (r: Option<T>)
    ensures r.None? <==> forall i :: 0 <= i < |rows| ==> !hit(rows[i])
    ensures r.Some? ==> exists i :: 0 <= i < |rows| && rows[i] == r.value && hit(rows[i])
                                    && forall j :: 0 <= j < i ==> !hit(rows[j])
    decreases |rows|
  {
    if |rows| == 0 then None
    else if hit(rows[0]) then Some(rows[0])
    else
      var r := FirstWhere(rows[1..], hit);
      assert forall i :: 1 <= i < |rows| ==> rows[1..][i - 1] == rows[i];
      r
  }

  /** Reading back after an `UPDATE` that keeps its rows selected finds
      the first selected row, rewritten. */
  lemma {:induction false} FirstAfterUpdate<T>(rows: seq<T>, hit: T -> bool, rewrite: T -> T)
    requires forall x :: hit(x) ==> hit(rewrite(x))
    ensures FirstWhere(UpdateWhere(rows, hit, rewrite), hit)
            == match FirstWhere(rows, hit) case None => None case Some(x) => Some(rewrite(x))
    decreases |rows|
  {
    if |rows| > 0 {
      assert UpdateWhere(rows, hit, rewrite)[1..] == UpdateWhere(rows[1..], hit, rewrite);
      FirstAfterUpdate(rows[1..], hit, rewrite);
    }
  }

  /** A read that selects none of the rows an `UPDATE` touches, before or
      after, sees what it saw before. */
  lemma {:induction false} FirstUnaffected<T>(rows: seq<T>, hit: T -> bool, rewrite: T -> T, look: T -> bool)
    requires forall x :: hit(x) ==> !look(x) && !look(rewrite(x))
    ensures FirstWhere(UpdateWhere(rows, hit, rewrite), look) == FirstWhere(rows, look)
    decreases |rows|
  {
    if |rows| > 0 {
      assert UpdateWhere(rows, hit, rewrite)[1..] == UpdateWhere(rows[1..], hit, rewrite);
      FirstUnaffected(rows[1..], hit, rewrite, look);
    }
  }

  /** `SELECT *` followed by the engines' "list is empty" test: a missing
      table raises, and so does an empty one. */
  function ReadAll<T>(table: Option<seq<T>>): (r: Result<seq<T>>)
    ensures r.Ok? <==> table.Some? && |table.value| > 0
    ensures r.Ok? ==> r.value == table.value
    ensures table.None? ==> r == Err(NoSuchTable)
    ensures table == Some([]) ==> r == Err(EmptyList)
  {
    match table
    case None => Err(NoSuchTable)
    case Some(rows) => if |rows| == 0 then Err(EmptyList) else Ok(rows)
  }

  /** The record caches' readiness check: the table exists and holds at
      least one row, unless the check is skipped. */
  function CacheCheck<T>(skip: bool, table: Option<seq<T>>): (r: bool)
    ensures r ==> table.Some?
    ensures r <==> !skip && ReadAll(table).Ok?
  {
    if skip then false
    else match table
      case None => false
      case Some(rows) => |rows| != 0
  }

  /** The readiness check of the contract and ager engines as written: it
      calls `check_table_exists`, a method the SQLite wrapper does not have
      (it has `_check_table_exists`), so unless the check is skipped it
      raises `AttributeError`, which those engines re-raise. */
  function CacheCheckAsWritten<T>(skip: bool, table: Option<seq<T>>): (r: Result<bool>)
    ensures r.Ok? <==> skip
    ensures r.Ok? ==> !r.value
  {
    if skip then Ok(false) else Err(MissingAttribute)
  }

  /** A cache that holds rows is ready by the corrected check, but the check
      as written raises on it instead of answering. */
  lemma {:induction false} CheckAsWrittenRaises<T>(table: Option<seq<T>>)
    requires table.Some? && |table.value| > 0
    ensures CacheCheck(false, table)
    ensures CacheCheckAsWritten(false, table) == Err(MissingAttribute)
  {
  }

  /** The files of the local worker cache as the record engines list them;
      a missing or empty table falls back to scanning the worker folder. */
  function LocalPhotoFiles(local: Option<seq<LocalWorkerRow>>, scan: Result<seq<string>>): (r: Result<seq<string>>)
    ensures ReadAll(local).Err? ==> r == scan
    ensures ReadAll(local).Ok? ==> r.Ok? && |r.value| == |local.value|
    ensures ReadAll(local).Ok? ==> forall i :: 0 <= i < |local.value| ==> r.value[i] == local.value[i].file
  {
    match ReadAll(local)
    case Err(_) => scan
    case Ok(rows) => Ok(seq(|rows|, i requires 0 <= i < |rows| => rows[i].file))
  }
}

=== FILE: contract_engine.dfy ===
/** The contract photo engine: a cache of the game's contracts (uid,
    federation, record name, worker and picture file), the picker labels
    built from it, and the picture updates addressed through those labels.

    The game database is reached through the column-restricted contract
    read of `ContractTable` and through lookups of worker names and
    federation initials; all of them are inputs. The readiness check is the
    corrected one (table present and non-empty); the check as written raises,
    see `CacheStore.CacheCheckAsWritten`.
 */
module ContractEngine {
  import opened Wrappers
  import opened Text
  import opened Timestamps
  import opened Records
  import opened UidRegex
  import opened Labels
  import opened ContractTable
  import opened PhotoNames
  import opened CacheStore
  import opened WorkerEngine

  /** The contract columns the engine reads from the game. */
  const ContractColumns: seq<string> := ["UID", "FedUID", "WorkerUID", "Name", "Picture"]

  /** `_fetch_contract_photo_records_from_db`: every column is on the
      whitelist, so the queries ask for exactly these five — plainly, then
      bracketed, and last through every column projected down to them. */
  function ContractRecords(select: Select): (r: Result<seq<Row>>)
    ensures select(ColumnQuery(ContractColumns), []).Ok? ==> r == select(ColumnQuery(ContractColumns), [])
    ensures select(ColumnQuery(ContractColumns), []).Err? && select(ColumnQuery(Bracketed(ContractColumns)), []).Ok? ==>
              r == select(ColumnQuery(Bracketed(ContractColumns)), [])
    ensures select(ColumnQuery(ContractColumns), []).Err? && select(ColumnQuery(Bracketed(ContractColumns)), []).Err? ==>
              match select(AllColumnsQuery, [])
              case Ok(rows) => r == Ok(Project(rows, ContractColumns))
              case Err(f) => r == Err(f)
  {
    assert ValidateColumns(ContractColumns) == ContractColumns by {
      assert forall c :: c in ContractColumns ==> c in Whitelist;
      WhitelistedKept(ContractColumns);
    }
    FetchAllContractsSpecificCols(ContractColumns, select)
  }

  /** Nothing outside the contract engine's two tables differs. */
  predicate OnlyContractTablesChange(s: Store, r: Store) {
    r.(contractLog := s.contractLog, contracts := s.contracts) == s
  }

  /** `_build_contract_photo_record_cache`: both tables dropped and created
      again, the log with one `created` row. */
  function Build(s: Store, now: DateTime): (r: Store)
    requires Valid(now)
    ensures OnlyContractTablesChange(s, r)
    ensures r.contractLog == Some([Stamp(now, Created)]) && r.contracts == Some([])
  {
    s.(contractLog := Some([Stamp(now, Created)]), contracts := Some([]))
  }

  /** One cache row from a contract record: `UID`, `FedUID`, `Name`,
      `WorkerUID` and `Picture`, marked `new`; a record lacking one of them
      raises `KeyError`. */
  function ContractRowOf(record: Row): (r: Result<ContractRow>)
    ensures r.Ok? <==> forall k :: k in ContractColumns ==> k in record
    ensures r.Ok? ==> r.value == ContractRow(record["UID"], record["FedUID"], record["Name"],
                                             record["WorkerUID"], record["Picture"], NewStatus)
    ensures r.Err? ==> r.fault == KeyNotFound
  {
    var uid :- Field(record, "UID");
    var fedid :- Field(record, "FedUID");
    var name :- Field(record, "Name");
    var worker :- Field(record, "WorkerUID");
    var file :- Field(record, "Picture");
    Ok(ContractRow(uid, fedid, name, worker, file, NewStatus))
  }

  /** `_fill_contract_photo_record_cache`: one `new` row per record, in
      order, each committed on its own, so the rows before a record that
      raises stay. */
  function Fill(s: Store, records: seq<Row>): (r: Outcome<()>)
    ensures r.store == s.(contracts := r.store.contracts)
    ensures s.contracts.Some? ==> r.store.contracts == Some(s.contracts.value + FillRows(records, ContractRowOf).0)
    ensures r.result.Ok? <==> |records| == 0 || (s.contracts.Some? && FillRows(records, ContractRowOf).1.None?)
    ensures r.result.Err? && s.contracts.Some? ==> r.result.fault == KeyNotFound
  {
    var (table, result) := InsertRecords(s.contracts, records, ContractRowOf);
    Outcome(s.(contracts := table), result)
  }

  /** The rows a fill from these records leaves in freshly built tables. */
  function Filled(records: seq<Row>): seq<ContractRow> {
    FillRows(records, ContractRowOf).0
  }

  /** Every record converts to a cache row. */
  predicate WellFormed(records: seq<Row>) {
    forall i :: 0 <= i < |records| ==> ContractRowOf(records[i]).Ok?
  }

  /** A fill stops early exactly when some record does not convert. */
  lemma {:induction false} FillCompleteIffWellFormed(records: seq<Row>)
    ensures FillRows(records, ContractRowOf).1.None? <==> WellFormed(records)
  {
    var fill := FillRows(records, ContractRowOf);
    if fill.1.Some? {
      assert ContractRowOf(records[|fill.0|]).Err?;
    }
  }

  /** `_populate_contract_photo_record_cache` on freshly built tables, given
      what the game read (`ContractRecords`) returned: its fault is raised,
      an empty read fills nothing and does not raise, and otherwise every
      record up to the first malformed one is inserted. */
  function Populate(built: Store, read: Result<seq<Row>>): (r: Outcome<()>)
    requires built.contracts == Some([])
    ensures r.store == built.(contracts := r.store.contracts)
    ensures r.result.Ok? <==> read.Ok? && WellFormed(read.value)
    ensures read.Err? ==> r.result == Err(read.fault) && r.store.contracts == Some([])
    ensures read.Ok? ==> r.store.contracts == Some(Filled(read.value))
    ensures read.Ok? && r.result.Err? ==> r.result.fault == KeyNotFound
  {
    match read
    case Err(f) => Outcome(built, Err(f))
    case Ok(records) =>
      FillCompleteIffWellFormed(records);
      assert [] + Filled(records) == Filled(records);
      Fill(built, records)
  }

  /** `_rebuild_contract_photo_record_cache`: build, then populate. */
  function Rebuild(s: Store, read: Result<seq<Row>>, now: DateTime): (r: Outcome<()>)
    requires Valid(now)
    ensures OnlyContractTablesChange(s, r.store)
    ensures r.store.contractLog == Some([Stamp(now, Created)])
    ensures r.result.Ok? <==> read.Ok? && WellFormed(read.value)
    ensures read.Err? ==> r.result == Err(read.fault) && r.store.contracts == Some([])
    ensures read.Ok? ==> r.store.contracts == Some(Filled(read.value))
  {
    Populate(Build(s, now), read)
  }

  /** `_reset_contract_photo_record_cache`: build, read, and fill; unlike
      populate it raises on an empty read, leaving the tables just built. */
  function Reset(s: Store, read: Result<seq<Row>>, now: DateTime): (r: Outcome<()>)
    requires Valid(now)
    ensures OnlyContractTablesChange(s, r.store)
    ensures r.store.contractLog == Some([Stamp(now, Created)])
    ensures r.result.Ok? <==> read.Ok? && |read.value| > 0 && WellFormed(read.value)
    ensures read == Ok([]) ==> r.result == Err(EmptyList) && r.store.contracts == Some([])
    ensures read.Err? ==> r.result == Err(read.fault) && r.store.contracts == Some([])
    ensures read.Ok? ==> r.store.contracts == Some(Filled(read.value))
  {
    var built := Build(s, now);
    if read.Ok? && |read.value| == 0 then Outcome(built, Err(EmptyList))
    else Populate(built, read)
  }

  /** `contract_photo_cache_init`, with the corrected check: a ready cache
      is left alone; otherwise it is built and populated from the game
      read, and an `initialized` row is logged. A failing read or a
      malformed record raises after the build. */
  function Init(s: Store, skip: bool, read: Result<seq<Row>>, now: DateTime): (r: Outcome<bool>)
    requires Valid(now)
    ensures CacheCheck(skip, s.contracts) ==> r == Outcome(s, Ok(true))
    ensures r.result.Ok? ==> r.result.value
    ensures !CacheCheck(skip, s.contracts) ==>
              && OnlyContractTablesChange(s, r.store)
              && (r.result.Ok? <==> read.Ok? && WellFormed(read.value))
              && (read.Err? ==> r.result == Err(read.fault) && r.store.contracts == Some([]))
              && (read.Ok? ==> r.store.contracts == Some(Filled(read.value)))
              && (r.result.Ok? ==> r.store.contractLog == Some([Stamp(now, Created), Stamp(now, Initialized)]))
              && (r.result.Err? ==> r.store.contractLog == Some([Stamp(now, Created)]))
  {
    if CacheCheck(skip, s.contracts) then Outcome(s, Ok(true))
    else
      var built := Rebuild(s, read, now);
      match built.result
      case Err(f) => Outcome(built.store, Err(f))
      case Ok(_) =>
        assert [Stamp(now, Created)] + [Stamp(now, Initialized)] == [Stamp(now, Created), Stamp(now, Initialized)];
        Outcome(built.store.(contractLog := Append(built.store.contractLog, Stamp(now, Initialized))), Ok(true))
  }

  /** `contract_photo_cache_init` with the readiness check as written:
      unless the check is skipped it raises `AttributeError` before anything
      is touched, and a skipped check always rebuilds. */
  function InitAsWritten(s: Store, skip: bool, read: Result<seq<Row>>, now: DateTime): (r: Outcome<bool>)
    requires Valid(now)
    ensures !skip ==> r == Outcome(s, Err(MissingAttribute))
    ensures skip ==> r == Init(s, skip, read, now)
    ensures skip ==> r.store.contractLog.Some? && r.store.contractLog.value[0] == Stamp(now, Created)
  {
    match CacheCheckAsWritten(skip, s.contracts)
    case Err(f) => Outcome(s, Err(f))
    case Ok(ready) => if ready then Outcome(s, Ok(true)) else Init(s, true, read, now)
  }

  /** On a cache that is ready, `Init` with the corrected check leaves the
      store alone and answers true, while the init as written raises. */
  lemma {:induction false} InitAsWrittenRaisesOnReadyCache(s: Store, read: Result<seq<Row>>, now: DateTime)
    requires Valid(now)
    requires s.contracts.Some? && |s.contracts.value| > 0
    ensures Init(s, false, read, now) == Outcome(s, Ok(true))
    ensures InitAsWritten(s, false, read, now) == Outcome(s, Err(MissingAttribute))
  {
  }

  /** A cache that `Init` had to build is ready for the next unskipped
      check exactly when the game read held contracts. */
  lemma {:induction false} InitThenCheck(s: Store, skip: bool, read: Result<seq<Row>>, now: DateTime)
    requires Valid(now)
    requires !CacheCheck(skip, s.contracts)
    requires Init(s, skip, read, now).result.Ok?
    ensures CacheCheck(false, Init(s, skip, read, now).store.contracts) <==> |read.value| > 0
  {
    FillCompleteIffWellFormed(read.value);
  }

  /** `refresh_contract_photo_record_cache`, given the game's answer to the
      reset's read and to the read the fallback makes again. A reset that
      succeeds is followed by a `refreshed` row. Otherwise the tables are
      rebuilt from the second read; if that raises, the fault propagates,
      else a `partial_refresh` row is logged. */
  function Refresh(s: Store, read: Result<seq<Row>>, reread: Result<seq<Row>>, now: DateTime): (r: Outcome<()>)
    requires Valid(now)
    ensures OnlyContractTablesChange(s, r.store)
    ensures Reset(s, read, now).result.Ok? ==>
              && r.result.Ok?
              && r.store.contractLog == Some([Stamp(now, Created), Stamp(now, Refreshed)])
              && r.store.contracts == Some(Filled(read.value))
    ensures Reset(s, read, now).result.Err? ==>
              && (r.result.Ok? <==> reread.Ok? && WellFormed(reread.value))
              && (reread.Err? ==> r.result == Err(reread.fault) && r.store.contracts == Some([]))
              && (reread.Ok? ==> r.store.contracts == Some(Filled(reread.value)))
              && (r.result.Ok? ==> r.store.contractLog == Some([Stamp(now, Created), Stamp(now, PartialRefresh)]))
              && (r.result.Err? ==> r.store.contractLog == Some([Stamp(now, Created)]))
  {
    var reset := Reset(s, read, now);
    if reset.result.Ok? then
      assert [Stamp(now, Created)] + [Stamp(now, Refreshed)] == [Stamp(now, Created), Stamp(now, Refreshed)];
      Outcome(reset.store.(contractLog := Append(reset.store.contractLog, Stamp(now, Refreshed))), Ok(()))
    else
      var rebuilt := Rebuild(reset.store, reread, now);
      if rebuilt.result.Err? then rebuilt
      else
        assert [Stamp(now, Created)] + [Stamp(now, PartialRefresh)] == [Stamp(now, Created), Stamp(now, PartialRefresh)];
        Outcome(rebuilt.store.(contractLog := Append(rebuilt.store.contractLog, Stamp(now, PartialRefresh))), Ok(()))
  }

  /** With a game that answers the same both times, refresh succeeds
      exactly when the read succeeds with well-formed records; it logs
      `refreshed` when that read held contracts and `partial_refresh`
      when it was empty, and the cache then holds those contracts. */
  lemma {:induction false} RefreshSameSource(s: Store, read: Result<seq<Row>>, now: DateTime)
    requires Valid(now)
    ensures var r := Refresh(s, read, read, now);
            && (r.result.Ok? <==> read.Ok? && WellFormed(read.value))
            && (r.result.Ok? ==> r.store.contracts == Some(Filled(read.value)))
            && (r.result.Ok? && |read.value| > 0 ==> r.store.contractLog.value[1].status == Refreshed)
            && (read == Ok([]) ==>
                  r.store.contractLog == Some([Stamp(now, Created), Stamp(now, PartialRefresh)])
                  && r.store.contracts == Some([]))
  {
  }

  // ---------------------------------------------------------------------
  // Picker lists
  // ---------------------------------------------------------------------

  /** One picker entry: the contract uid and its label. */
  datatype ContractEntry = ContractEntry(uid: Cell, text: string)

  /** The label of one cached contract, its worker name and federation
      initials looked up in the game; neither lookup can make it fail. */
  function EntryOf(row: ContractRow, workerName: Lookup, fedPrimary: Lookup, fedFallback: Lookup): (r: ContractEntry)
    ensures r.uid == row.uid
    ensures StartsWith(r.text, WorkerName(workerName(row.workerUid)))
  {
    var worker := WorkerName(workerName(row.workerUid));
    var initials := FedInitials(fedPrimary(row.fedid), fedFallback(row.fedid));
    var caption := worker + "[" + initials + "][" + Render(row.recordname) + "]" + "[" + Render(row.uid) + "]";
    assert caption[..|worker|] == worker;
    ContractEntry(row.uid, caption)
  }

  /** The label of a contract with a non-negative integer uid is the
      contract caption of `Labels`, so the anchored search finds that uid. */
  lemma {:induction false} EntryCarriesUid(row: ContractRow, workerName: Lookup, fedPrimary: Lookup,
                                           fedFallback: Lookup, n: nat)
    requires row.uid == IntCell(n)
    ensures var worker := WorkerName(workerName(row.workerUid));
            var initials := FedInitials(fedPrimary(row.fedid), fedFallback(row.fedid));
            EntryOf(row, workerName, fedPrimary, fedFallback).text
            == ContractLabel(worker, initials, Render(row.recordname), n)
    ensures AnchoredUid(EntryOf(row, workerName, fedPrimary, fedFallback).text) == Some(n)
  {
    var worker := WorkerName(workerName(row.workerUid));
    var initials := FedInitials(fedPrimary(row.fedid), fedFallback(row.fedid));
    var front := worker + "[" + initials + "][" + Render(row.recordname) + "]";
    var d := Render(row.uid);
    assert d == NatToDigits(n);
    assert UidTag(n) == "[" + d + "]";
    assert front + "[" + d + "]" == front + ("[" + d + "]");
  }

  function Entries(rows: seq<ContractRow>, workerName: Lookup, fedPrimary: Lookup, fedFallback: Lookup)
    : (r: seq<ContractEntry>)
    ensures |r| == |rows|
    ensures forall i :: 0 <= i < |rows| ==> r[i] == EntryOf(rows[i], workerName, fedPrimary, fedFallback)
  {
    seq(|rows|, i requires 0 <= i < |rows| => EntryOf(rows[i], workerName, fedPrimary, fedFallback))
  }

  /** `fetch_contract_photo_record_cache_lists`: one entry per cached
      contract (a missing or empty cache raises), and the local picture
      files from the worker cache, or from a folder scan when that cache is
      missing or empty. */
  function Lists(s: Store, workerName: Lookup, fedPrimary: Lookup, fedFallback: Lookup,
                 listing: Option<seq<string>>): (r: Result<(seq<ContractEntry>, seq<string>)>)
    ensures ReadAll(s.contracts).Err? ==> r == Err(ReadAll(s.contracts).fault)
    ensures r.Ok? <==> ReadAll(s.contracts).Ok? && LocalPhotoFiles(s.localWorkers, ScanWorkerPhotos(listing)).Ok?
    ensures r.Ok? ==> && r.value.0 == Entries(s.contracts.value, workerName, fedPrimary, fedFallback)
                      && r.value.1 == LocalPhotoFiles(s.localWorkers, ScanWorkerPhotos(listing)).value
  {
    var rows :- ReadAll(s.contracts);
    var local :- LocalPhotoFiles(s.localWorkers, ScanWorkerPhotos(listing));
    Ok((Entries(rows, workerName, fedPrimary, fedFallback), local))
  }

  // ---------------------------------------------------------------------
  // Reading and updating one contract's picture
  // ---------------------------------------------------------------------

  function UidIs(n: int): ContractRow -> bool {
    (row: ContractRow) => row.uid == IntCell(n)
  }

  function SetFile(file: string): ContractRow -> ContractRow {
    (row: ContractRow) => row.(file := TextCell(file))
  }

  /** `fetch_contract_photo_filename_from_cache`: the picture file of the
      first cached contract with the uid the anchored search finds in the
      caption; `""` when the caption has no trailing uid, no row matches, or
      the table is missing. */
  function FetchFilename(s: Store, caption: string): (r: Cell)
    ensures AnchoredUid(caption).None? || s.contracts.None? ==> r == TextCell("")
    ensures AnchoredUid(caption).Some? && s.contracts.Some? ==>
              match FirstWhere(s.contracts.value, UidIs(AnchoredUid(caption).value))
              case None => r == TextCell("")
              case Some(row) => r == row.file
  {
    match AnchoredUid(caption)
    case None => TextCell("")
    case Some(n) =>
      match s.contracts
      case None => TextCell("")
      case Some(rows) =>
        match FirstWhere(rows, UidIs(n))
        case None => TextCell("")
        case Some(row) => row.file
  }

  /** Fetching through a listed label reads the picture of the listed
      contract, when no earlier cached contract has the same uid. */
  lemma {:induction false} ListThenFetch(s: Store, workerName: Lookup, fedPrimary: Lookup, fedFallback: Lookup,
                                         i: int, n: nat)
    requires s.contracts.Some? && 0 <= i < |s.contracts.value|
    requires s.contracts.value[i].uid == IntCell(n)
    requires forall j :: 0 <= j < i ==> s.contracts.value[j].uid != IntCell(n)
    ensures FetchFilename(s, Entries(s.contracts.value, workerName, fedPrimary, fedFallback)[i].text)
            == s.contracts.value[i].file
  {
    var rows := s.contracts.value;
    EntryCarriesUid(rows[i], workerName, fedPrimary, fedFallback, n);
    FirstIsEarliest(rows, UidIs(n), i);
  }

  /** The first selected row of a sequence is the one at an index that is
      selected with no selected row before it. */
  lemma {:induction false} FirstIsEarliest<T>(rows: seq<T>, hit: T -> bool, i: int)
    requires 0 <= i < |rows| && hit(rows[i])
    requires forall j :: 0 <= j < i ==> !hit(rows[j])
    ensures FirstWhere(rows, hit) == Some(rows[i])
  {
    var r := FirstWhere(rows, hit);
    var k :| 0 <= k < |rows| && rows[k] == r.value && hit(rows[k]) && forall j :: 0 <= j < k ==> !hit(rows[j]);
    assert k == i;
  }

  /** `update_contract_photo_filename`: a label without a trailing uid
      raises `ValueError` and a missing default extension raises, both
      before any write; otherwise every cached row with the uid gets the
      normalised name, and then the game's `tblContract` row with that uid
      is sent the same name. */
  function Update(s: Store, caption: string, newFilename: string, appendGif: bool, default: Option<string>,
                  game: Result<()>): (r: UpdateOutcome)
    ensures AnchoredUid(caption).None? ==> r == UpdateOutcome(s, None, Err(InvalidValue))
    ensures AnchoredUid(caption).Some? && UpdateName(newFilename, appendGif, default).Err? ==>
              r == UpdateOutcome(s, None, Err(UpdateName(newFilename, appendGif, default).fault))
    ensures r.sent.Some? <==> && AnchoredUid(caption).Some? && UpdateName(newFilename, appendGif, default).Ok?
                              && s.contracts.Some?
    ensures r.sent.None? ==> r.store == s && r.result.Err?
    ensures r.sent.Some? ==>
              && r.sent.value == GameWrite("tblContract", IntCell(AnchoredUid(caption).value),
                                           UpdateName(newFilename, appendGif, default).value)
              && r.result == game
              && r.store == s.(contracts := r.store.contracts)
              && r.store.contracts.Some?
              && |r.store.contracts.value| == |s.contracts.value|
              && forall i :: 0 <= i < |s.contracts.value| ==>
                   r.store.contracts.value[i] == if s.contracts.value[i].uid == IntCell(AnchoredUid(caption).value)
                                                 then s.contracts.value[i].(file := TextCell(r.sent.value.file))
                                                 else s.contracts.value[i]
  {
    match AnchoredUid(caption)
    case None => UpdateOutcome(s, None, Err(InvalidValue))
    case Some(n) =>
      match UpdateName(newFilename, appendGif, default)
      case Err(f) => UpdateOutcome(s, None, Err(f))
      case Ok(file) =>
        match s.contracts
        case None => UpdateOutcome(s, None, Err(NoSuchTable))
        case Some(rows) =>
          UpdateOutcome(s.(contracts := Some(UpdateWhere(rows, UidIs(n), SetFile(file)))),
                        Some(GameWrite("tblContract", IntCell(n), file)), game)
  }

  /** Fetching through the same label after an update reads the new name,
      or `""` when no cached contract has the uid. */
  lemma {:induction false} UpdateThenFetch(s: Store, caption: string, newFilename: string, appendGif: bool,
                                           default: Option<string>, game: Result<()>)
    requires Update(s, caption, newFilename, appendGif, default, game).sent.Some?
    ensures var r := Update(s, caption, newFilename, appendGif, default, game);
            FetchFilename(r.store, caption)
            == if FirstWhere(s.contracts.value, UidIs(AnchoredUid(caption).value)).None? then TextCell("")
               else TextCell(r.sent.value.file)
  {
    var n := AnchoredUid(caption).value;
    FirstAfterUpdate(s.contracts.value, UidIs(n), SetFile(UpdateName(newFilename, appendGif, default).value));
  }

  /** An update through one label leaves what a label with another uid
      reads. */
  lemma {:induction false} UpdateKeepsOthers(s: Store, caption: string, other: string, newFilename: string,
                                             appendGif: bool, default: Option<string>, game: Result<()>)
    requires AnchoredUid(other) != AnchoredUid(caption)
    ensures FetchFilename(Update(s, caption, newFilename, appendGif, default, game).store, other)
            == FetchFilename(s, other)
  {
    var r := Update(s, caption, newFilename, appendGif, default, game);
    if r.sent.Some? && AnchoredUid(other).Some? {
      var file := UpdateName(newFilename, appendGif, default).value;
      FirstUnaffected(s.contracts.value, UidIs(AnchoredUid(caption).value), SetFile(file),
                      UidIs(AnchoredUid(other).value));
    }
  }
}

=== FILE: contract_table.dfy ===
/** The column-restricted reads of the game's contract table.

    The game database is not part of the model: it is a `Select` oracle
    from query text and bound parameters to rows or a fault.
 */
module ContractTable {
  import opened Wrappers
  import opened Text
  import opened Sequences
  import opened Records

  /** The game database's `select`. */
  type Select = (string, seq<Cell>) -> Result<seq<Row>>

  /** The columns a caller may ask for by name. */
  const Whitelist: seq<string> := ["UID", "FedUID", "WorkerUID", "Name", "Picture", "Nickname", "Shortname"]

  /** The requested columns that are on the whitelist, in request order
      and with repeats kept. */
  function ValidateColumns(columns: seq<string>): (r: seq<string>)
    ensures IsSubsequence(r, columns)
    ensures forall c :: c in r ==> c in Whitelist
    ensures forall c :: multiset(r)[c] == if c in Whitelist then multiset(columns)[c] else 0
    decreases |columns|
  {
    if |columns| == 0 then []
    else
      var rest := ValidateColumns(columns[1..]);
      assert columns == [columns[0]] + columns[1..];
      if columns[0] in Whitelist then
        var r := [columns[0]] + rest;
        assert r[1..] == rest;
        r
      else rest
  }

  /** Requesting only whitelisted columns keeps the request as it is. */
  lemma {:induction false} WhitelistedKept(columns: seq<string>)
    requires forall c :: c in columns ==> c in Whitelist
    ensures ValidateColumns(columns) == columns
    decreases |columns|
  {
    if |columns| > 0 {
      assert columns[0] in columns && columns == [columns[0]] + columns[1..];
      assert forall c :: c in columns[1..] ==> c in columns;
      WhitelistedKept(columns[1..]);
      assert ValidateColumns(columns) == [columns[0]] + ValidateColumns(columns[1..]);
    }
  }

  /** `SELECT <cols joined by ", "> FROM tblContract`. */
  function ColumnQuery(cols: seq<string>): string {
    "SELECT " + Join(cols, ", ") + " FROM tblContract"
  }

  /** Each column name wrapped in square brackets. */
  function Bracketed(cols: seq<string>): (r: seq<string>)
    ensures |r| == |cols|
    ensures forall i :: 0 <= i < |cols| ==> r[i] == "[" + cols[i] + "]"
  {
    seq(|cols|, i requires 0 <= i < |cols| => "[" + cols[i] + "]")
  }

  const AllColumnsQuery: string := "SELECT * FROM tblContract"

  /** Each row cut down to the wanted columns it has. */
  function Project(rows: seq<Row>, cols: seq<string>): (r: seq<Row>)
    ensures |r| == |rows|
    ensures forall i :: 0 <= i < |rows| ==> r[i].Keys == (set c | c in cols && c in rows[i])
    ensures forall i, c :: 0 <= i < |rows| && c in r[i] ==> c in rows[i] && r[i][c] == rows[i][c]
  {
    seq(|rows|, i requires 0 <= i < |rows| => map c | c in cols && c in rows[i] :: rows[i][c])
  }

  /** `fetch_all_contracts_specific_cols`: the whitelisted columns by plain
      name, then in brackets, then every column projected down; the first
      strategy that succeeds answers, and the last one's fault is raised
      when all three fail. No query runs when no column survives the
      whitelist. */
  function FetchAllContractsSpecificCols(columns: seq<string>, select: Select): (r: Result<seq<Row>>)
    ensures ValidateColumns(columns) == [] <==> r == Err(InvalidValue) && forall c :: c in columns ==> c !in Whitelist
    ensures var cols := ValidateColumns(columns);
            && (cols != [] && select(ColumnQuery(cols), []).Ok? ==> r == select(ColumnQuery(cols), []))
            && (cols != [] && select(ColumnQuery(cols), []).Err? && select(ColumnQuery(Bracketed(cols)), []).Ok? ==>
                  r == select(ColumnQuery(Bracketed(cols)), []))
            && (cols != [] && select(ColumnQuery(cols), []).Err? && select(ColumnQuery(Bracketed(cols)), []).Err? ==>
                  match select(AllColumnsQuery, [])
                  case Ok(rows) => r == Ok(Project(rows, cols))
                  case Err(f) => r == Err(f))
  {
    var cols := ValidateColumns(columns);
    if cols == [] then
      assert forall c :: c in columns ==> c !in Whitelist by {
        forall c | c in columns ensures c !in Whitelist {
          assert multiset(columns)[c] > 0;
        }
      }
      Err(InvalidValue)
    else
      assert cols[0] in cols;
      match select(ColumnQuery(cols), [])
      case Ok(rows) => Ok(rows)
      case Err(_) =>
        match select(ColumnQuery(Bracketed(cols)), [])
        case Ok(rows) => Ok(rows)
        case Err(_) =>
          match select(AllColumnsQuery, [])
          case Ok(rows) => Ok(Project(rows, cols))
          case Err(f) => Err(f)
  }

  /** The fallback's rows carry no column outside the whitelist, whatever
      the table holds. */
  lemma {:induction false} FallbackStaysOnWhitelist(columns: seq<string>, select: Select)
    requires FetchAllContractsSpecificCols(columns, select).Ok?
    requires select(ColumnQuery(ValidateColumns(columns)), []).Err?
    requires select(ColumnQuery(Bracketed(ValidateColumns(columns))), []).Err?
    ensures forall row, c :: row in FetchAllContractsSpecificCols(columns, select).value && c in row ==>
              c in Whitelist && c in columns
  {
    var cols := ValidateColumns(columns);
    var rows := FetchAllContractsSpecificCols(columns, select).value;
    forall row, c | row in rows && c in row ensures c in Whitelist && c in columns {
      var i :| 0 <= i < |rows| && rows[i] == row;
      assert c in cols;
      assert multiset(cols)[c] > 0;
    }
  }

  /** The columns with `uid` put first unless the exact text `uid` is
      already requested. */
  function WithUid(columns: seq<string>): (r: seq<string>)
    ensures "uid" in r
    ensures "uid" in columns ==> r == columns
    ensures "uid" !in columns ==> r[0] == "uid" && r[1..] == columns
  {
    if "uid" in columns then columns else ["uid"] + columns
  }

  /** Adding `uid` twice adds it once. */
  lemma {:induction false} WithUidIdempotent(columns: seq<string>)
    ensures WithUid(WithUid(columns)) == WithUid(columns)
  {
  }

  /** The test is case-sensitive: a request for `UID` still gets `uid`
      prepended. */
  lemma {:induction false} WithUidCaseSensitive()
    ensures WithUid(["UID"]) == ["uid", "UID"]
  {
    assert "uid" != "UID";
  }

  /** `fetch_contract_specific_cols`: the requested columns (with `uid`
      prepended when missing) of the contract with this uid. */
  function FetchContractSpecificCols(uid: int, columns: seq<string>, select: Select): (r: Result<seq<Row>>)
    ensures "uid" in columns ==> r == select(ColumnQuery(columns) + " WHERE uid = ?", [IntCell(uid)])
    ensures "uid" !in columns ==> r == select(ColumnQuery(["uid"] + columns) + " WHERE uid = ?", [IntCell(uid)])
  {
    select(ColumnQuery(WithUid(columns)) + " WHERE uid = ?", [IntCell(uid)])
  }
}

=== FILE: filer.dfy ===
/** The file helpers of `utils/filer.py` that the photo engines rely on:
    extension extraction, the two extension formatters, and the filtering
    pipeline of `fetch_files_from_directory`, with the directory listing
    supplied as an input (`None` when the folder does not exist).
 */
module Filer {
  import opened Wrappers
  import opened Text
  import opened Paths
  import opened Sequences

  /** `extract_extension`: the suffix of the final component, dot
      included, or `None` when there is none. */
  function ExtractExtension(filename: string): (r: Option<string>)
    ensures r.Some? ==> |r.value| >= 2 && r.value[0] == '.' && EndsWith(Name(filename), r.value)
    ensures r.Some? ==> forall k :: 0 < k < |r.value| ==> r.value[k] != '.'
    ensures r.None? <==> var n := Name(filename);
      (|n| > 0 && n[|n| - 1] == '.') || forall k :: 0 < k < |n| - 1 ==> n[k] != '.'
  {
    var suffix := Suffix(Name(filename));
    if suffix == "" then None else Some(suffix)
  }

  /** The suffix already carries the extension, compared case-insensitively
      and with or without its dot. */
  predicate SuffixMatches(suffix: string, ext: string) {
    Lower(suffix) == "." + Lower(ext) || Lower(suffix) == Lower(ext)
  }

  /** `filepath_formatter`: the path unchanged when no extension is asked
      for or its suffix already matches, otherwise the path with `.` and the
      extension appended verbatim. */
  function FilepathFormatter(filepath: string, ext: Option<string>): (r: string)
    ensures r == filepath || (ext.Some? && r == filepath + "." + ext.value)
    ensures r == filepath <==> ext.None? || ext.value == ""
                               || SuffixMatches(Suffix(Name(filepath)), ext.value)
  {
    match ext
    case None => filepath
    case Some(e) =>
      if e == "" then filepath
      else if SuffixMatches(Suffix(Name(filepath)), e) then filepath
      else filepath + "." + e
  }

  /** `filename_formatter`: the same rule applied to the final component,
      so no directory part survives. */
  function FilenameFormatter(filename: string, ext: Option<string>): (r: string)
    ensures r == Name(filename) || (ext.Some? && r == Name(filename) + "." + ext.value)
    ensures ext.None? || NoSep(ext.value) ==> NoSep(r)
  {
    var name := Name(filename);
    var r := match ext
      case None => name
      case Some(e) =>
        if e == "" then name
        else if SuffixMatches(Suffix(name), e) then name
        else name + "." + e;
    assert ext.Some? && NoSep(ext.value) && r != name ==> NoSep(r) by {
      if ext.Some? && NoSep(ext.value) && r != name {
        assert forall k :: 0 <= k < |r| ==> r[k] == (name + "." + ext.value)[k];
      }
    }
    r
  }

  /** `filename_formatter` is `filepath_formatter` on the final component. */
  lemma {:induction false} FilenameIsFormattedName(filename: string, ext: Option<string>)
    ensures FilenameFormatter(filename, ext) == FilepathFormatter(Name(filename), ext)
  {
    NameOfName(filename);
  }

  /** A name with an extension is left alone by formatting with that
      extension. */
  lemma {:induction false} FormatWithOwnExtension(filename: string)
    requires ExtractExtension(filename).Some?
    ensures FilepathFormatter(filename, ExtractExtension(filename)) == filename
  {
  }

  /** A default extension written with its dot is appended after another
      dot: `"x"` with `".gif"` becomes `"x..gif"`. */
  lemma {:induction false} LeadingDotDoubles()
    ensures FilepathFormatter("x", Some(".gif")) == "x..gif"
  {
    assert FirstSep("x").None?;
    assert Segments("x") == ["x"];
    assert Proper(["x"]) == ["x"] + Proper([]);
    assert Suffix("x") == "";
  }

  lemma {:induction false} LowerConcat(a: string, b: string)
    ensures Lower(a + b) == Lower(a) + Lower(b)
  {
  }

  /** The final component after appending `.` and the extension. */
  lemma {:induction false} NameAfterAppend(p: string, e: string)
    requires NoSep(e) && e != ""
    ensures Name(p + "." + e) == LastSegment(p) + "." + e
  {
    var segs := Segments(p);
    var tail := LastSegment(p) + "." + e;
    SegmentsAfterAppend(p, e);
    ProperConcat(segs[..|segs| - 1], [tail]);
    ProperSingle(tail);
    var c := Components(p + "." + e);
    assert c == Proper(segs[..|segs| - 1]) + [tail];
    assert c[|c| - 1] == tail;
  }

  lemma {:induction false} ProperSingle(t: string)
    requires |t| >= 2
    ensures Proper([t]) == [t]
  {
    assert [t][1..] == [];
  }

  lemma {:induction false} SegmentsAfterAppend(p: string, e: string)
    requires NoSep(e) && e != ""
    ensures Segments(p + "." + e) == Segments(p)[..|Segments(p)| - 1] + [LastSegment(p) + "." + e]
  {
    var d := "." + e;
    assert NoSep(d) by {
      assert forall k :: 1 <= k < |d| ==> d[k] == e[k - 1];
    }
    assert p + "." + e == p + d;
    SegmentsAppend(p, d);
    assert LastSegment(p) + d == LastSegment(p) + "." + e;
  }

  lemma {:induction false} SuffixOfWord(l: string, e: string)
    requires l != "" && e != "" && '.' !in e
    ensures Suffix(l + "." + e) == "." + e
  {
    var n := l + "." + e;
    assert forall k :: |l| < k < |n| ==> n[k] == e[k - |l| - 1];
    LastDotAt(n, |l|);
    assert n[|l|..] == "." + e;
  }

  lemma {:induction false} SuffixOfDotted(l: string, e: string)
    requires |e| >= 2 && e[0] == '.' && '.' !in e[1..]
    ensures Suffix(l + "." + e) == e
  {
    var n := l + "." + e;
    assert forall k :: |l| + 1 < k < |n| ==> n[k] == e[1..][k - |l| - 2];
    LastDotAt(n, |l| + 1);
    assert n[|l| + 1..] == e;
  }

  /** Formatting twice is formatting once, for an extension without
      separators that is either a plain word appended to a non-empty final
      segment, or a dot followed by a plain word. */
  lemma {:induction false} FormatterIdempotent(p: string, e: string)
    requires NoSep(e)
    requires || (e != "" && '.' !in e && LastSegment(p) != "")
             || (|e| >= 2 && e[0] == '.' && '.' !in e[1..])
    ensures FilepathFormatter(FilepathFormatter(p, Some(e)), Some(e)) == FilepathFormatter(p, Some(e))
  {
    var q := FilepathFormatter(p, Some(e));
    if q != p {
      AppendedMatches(p, e);
    }
  }

  /** After one append, the final component's suffix matches the extension. */
  lemma {:induction false} AppendedMatches(p: string, e: string)
    requires NoSep(e)
    requires || (e != "" && '.' !in e && LastSegment(p) != "")
             || (|e| >= 2 && e[0] == '.' && '.' !in e[1..])
    ensures SuffixMatches(Suffix(Name(p + "." + e)), e)
  {
    NameAfterAppend(p, e);
    if '.' !in e {
      SuffixOfWord(LastSegment(p), e);
      LowerConcat(".", e);
    } else {
      SuffixOfDotted(LastSegment(p), e);
    }
  }

  /** Without the non-empty segment the rule fails: an empty name gains a
      second extension on every call. */
  lemma {:induction false} FormatterNotIdempotentOnEmptyName()
    ensures FilepathFormatter("", Some("gif")) == ".gif"
    ensures FilepathFormatter(".gif", Some("gif")) == ".gif.gif"
  {
    assert Segments("") == [""];
    NameOfPlain(".gif");
    assert Suffix(".gif") == "";
  }

  /** A name without separators is its own final component. */
  lemma {:induction false} NameOfPlain(t: string)
    requires NoSep(t) && |t| >= 2
    ensures Name(t) == t
  {
    assert FirstSep(t).None?;
    assert Segments(t) == [t];
    ProperSingle(t);
  }

  /** `fnmatch` restricted to `*` wildcards: `*` matches any run of
      characters, every other pattern character matches itself. */
  predicate GlobMatch(pattern: string, s: string)
    decreases |pattern| + |s|
  {
    if |pattern| == 0 then |s| == 0
    else if pattern[0] == '*' then GlobMatch(pattern[1..], s) || (|s| > 0 && GlobMatch(pattern, s[1..]))
    else |s| > 0 && pattern[0] == s[0] && GlobMatch(pattern[1..], s[1..])
  }

  lemma {:induction false} GlobLiteral(t: string, s: string)
    requires '*' !in t
    ensures GlobMatch(t, s) <==> s == t
    decreases |t|
  {
    if |t| > 0 && |s| > 0 {
      GlobLiteral(t[1..], s[1..]);
      if s[1..] == t[1..] && s[0] == t[0] {
        assert s == [s[0]] + s[1..] && t == [t[0]] + t[1..];
      }
    }
  }

  /** `*` followed by literal text matches exactly the strings ending with
      that text. */
  lemma {:induction false} GlobStarSuffix(t: string, s: string)
    requires '*' !in t
    ensures GlobMatch("*" + t, s) <==> EndsWith(s, t)
    decreases |s|
  {
    var pat := "*" + t;
    assert pat[1..] == t;
    GlobLiteral(t, s);
    if |s| > 0 {
      GlobStarSuffix(t, s[1..]);
      if |t| <= |s[1..]| {
        assert s[1..][|s[1..]| - |t|..] == s[|s| - |t|..];
      }
    }
  }

  /** The filters of `fetch_files_from_directory`; an empty list stands for
      an absent filter as well. */
  datatype FileFilters = FileFilters(
    includePatterns: seq<string>,
    excludePatterns: seq<string>,
    includeExtensions: seq<string>,
    excludeExtensions: seq<string>)

  /** `f.suffix.lower()[1:]`: the lowercased suffix without its dot, `""`
      when there is no suffix. */
  function ExtensionWord(name: string): (r: string)
    ensures '.' !in r
  {
    var s := Lower(Suffix(name));
    if |s| == 0 then "" else s[1..]
  }

  predicate IncludedByPattern(name: string, patterns: seq<string>) {
    |patterns| == 0 || exists i :: 0 <= i < |patterns| && GlobMatch(Lower(patterns[i]), Lower(name))
  }

  predicate ExcludedByPattern(name: string, patterns: seq<string>) {
    exists i :: 0 <= i < |patterns| && Contains(Lower(name), Lower(patterns[i]))
  }

  predicate LowerIn(w: string, list: seq<string>) {
    exists i :: 0 <= i < |list| && Lower(list[i]) == w
  }

  /** The file survives every stage of the pipeline. */
  predicate Survives(name: string, f: FileFilters) {
    && IncludedByPattern(name, f.includePatterns)
    && !ExcludedByPattern(name, f.excludePatterns)
    && (|f.includeExtensions| == 0 || LowerIn(ExtensionWord(name), f.includeExtensions))
    && !LowerIn(ExtensionWord(name), f.excludeExtensions)
  }

  /** The names of `listing` that survive the filters, in listing order. */
  function Select(listing: seq<string>, f: FileFilters): (r: seq<string>)
    ensures IsSubsequence(r, listing)
    ensures forall k :: 0 <= k < |r| ==> Survives(r[k], f)
    ensures forall k :: 0 <= k < |listing| && Survives(listing[k], f) ==> listing[k] in r
  {
    Filter(listing, name => Survives(name, f))
  }

  /** `fetch_files_from_directory` over the entries of a folder (`None`
      when the folder does not exist, which raises before any filtering). */
  function FetchFiles(listing: Option<seq<string>>, f: FileFilters): (r: Result<seq<string>>)
    ensures listing.None? <==> r == Err(FolderMissing)
    ensures r.Ok? ==> IsSubsequence(r.value, listing.value)
    ensures r.Ok? ==> forall k :: 0 <= k < |listing.value| ==>
                        (listing.value[k] in r.value <==> Survives(listing.value[k], f))
  {
    match listing
    case None => Err(FolderMissing)
    case Some(names) =>
      var r := Select(names, f);
      assert forall x :: x in r ==> Survives(x, f);
      Ok(r)
  }

  /** A listed name is fetched as often as it is listed when it survives
      the filters, and not at all otherwise. */
  lemma {:induction false} FetchCounts(listing: seq<string>, f: FileFilters)
    ensures FetchFiles(Some(listing), f).Ok?
    ensures forall name :: multiset(FetchFiles(Some(listing), f).value)[name] ==
                           if Survives(name, f) then multiset(listing)[name] else 0
  {
    FilterCounts(listing, name => Survives(name, f));
  }

  /** The filters with no stage enabled keep the whole listing. */
  lemma {:induction false} NoFiltersKeepAll(listing: seq<string>)
    ensures FetchFiles(Some(listing), FileFilters([], [], [], [])) == Ok(listing)
  {
    var f := FileFilters([], [], [], []);
    forall name ensures Survives(name, f) {
      assert !ExcludedByPattern(name, []);
      assert !LowerIn(ExtensionWord(name), []);
    }
    FilterAll(listing, name => Survives(name, f));
  }
}

=== FILE: labels.dfy ===
/** The display labels the three record engines show in their pickers, and
    the fallbacks used while assembling them:

      contract  `<worker>[<fed initials>][<recordname>][<uid>]`
      ager      `<worker>[Age@<trigger age>][<uid>]`
      alter     `<worker>[<alter uid>]` followed by `[<desc>]` when the
                record name carries a `|`-separated description

    Each label is later handed back to an update or fetch operation, which
    recovers the uid with one of the searches of `UidRegex`. The contracts
    here state which search recovers the uid from which label, and under
    which condition on the free-text parts.
 */
module Labels {
  import opened Wrappers
  import opened Text
  import opened UidRegex

  /** The worker name used when the worker lookup finds nothing or fails. */
  const UnknownWorker: string := "Unknown"

  /** The federation initials used when neither initials query yields a row. */
  const UnknownInitials: string := "UNK"

  /** `_fetch_worker_name_by_uid`: the first row's name, or `"Unknown"` when
      the lookup returns no rows or raises. It never fails. */
  function WorkerName(lookup: Result<seq<string>>): (r: string)
    ensures r == UnknownWorker <==> lookup.Err? || |lookup.value| == 0 || lookup.value[0] == UnknownWorker
    ensures lookup.Ok? && |lookup.value| > 0 ==> r == lookup.value[0]
  {
    match lookup
    case Ok(rows) => if |rows| > 0 then rows[0] else UnknownWorker
    case Err(_) => UnknownWorker
  }

  /** The federation initials for a contract: the bound-parameter query,
      the inlined query only if that one raised, and `"UNK"` when the query
      that ran yields no rows or both raised. It never fails. */
  function FedInitials(primary: Result<seq<string>>, fallback: Result<seq<string>>): (r: string)
    ensures primary.Ok? && |primary.value| > 0 ==> r == primary.value[0]
    ensures primary.Ok? && |primary.value| == 0 ==> r == UnknownInitials
    ensures primary.Err? && fallback.Ok? && |fallback.value| > 0 ==> r == fallback.value[0]
    ensures primary.Err? && (fallback.Err? || |fallback.value| == 0) ==> r == UnknownInitials
  {
    var rows := match primary
      case Ok(p) => p
      case Err(_) => (match fallback case Ok(f) => f case Err(_) => [UnknownInitials]);
    if |rows| == 0 then UnknownInitials else rows[0]
  }

  /** The contract picker label. Whatever the worker name, initials and
      record name contain, the anchored search used by the contract update
      and fetch recovers exactly the contract uid. */
  function ContractLabel(worker: string, initials: string, recordname: string, uid: nat): (r: string)
    ensures StartsWith(r, worker)
    ensures AnchoredUid(r) == Some(uid)
  {
    var r := worker + "[" + initials + "][" + recordname + "]" + UidTag(uid);
    AnchoredTag(worker + "[" + initials + "][" + recordname + "]", uid);
    assert r[..|worker|] == worker;
    r
  }

  /** The `[Age@n]` part of an ager label. */
  function AgeTag(trigger: int): (r: string)
    ensures |r| > 0 && r[0] == '['
  {
    "[Age@" + IntToString(trigger) + "]"
  }

  /** The `[Age@n]` part never matches `\[(\d+)\]`: its only `[` is followed
      by a letter. */
  lemma {:induction false} AgeTagNoMatch(trigger: int)
    ensures NoMatch(AgeTag(trigger))
  {
    var x := AgeTag(trigger);
    var t := IntToString(trigger);
    forall p, q | IsMatch(x, p, q)
      ensures false
    {
      if p == 0 {
        DigitsBefore(x, 1, q - 1, 1);
      }
    }
  }

  /** The ager picker label. The anchored search used by fetch recovers the
      ager uid from every label; the unanchored first-match search used by
      update recovers it whenever the worker name holds no `[digits]`. */
  function AgerLabel(worker: string, trigger: int, uid: nat): (r: string)
    ensures StartsWith(r, worker)
    ensures AnchoredUid(r) == Some(uid)
    ensures NoMatch(worker) ==> FirstUid(r) == Some(uid)
  {
    var r := worker + (AgeTag(trigger) + UidTag(uid));
    AgerLabelFacts(worker, trigger, uid);
    r
  }

  lemma {:induction false} AgerLabelFacts(worker: string, trigger: int, uid: nat)
    ensures StartsWith(worker + (AgeTag(trigger) + UidTag(uid)), worker)
    ensures AnchoredUid(worker + (AgeTag(trigger) + UidTag(uid))) == Some(uid)
    ensures NoMatch(worker) ==> FirstUid(worker + (AgeTag(trigger) + UidTag(uid))) == Some(uid)
  {
    var tail := AgeTag(trigger) + UidTag(uid);
    var r := worker + tail;
    AnchoredTag(worker + AgeTag(trigger), uid);
    assert r == worker + AgeTag(trigger) + UidTag(uid);
    AgeTagNoMatch(trigger);
    FirstSkipsPrefix(AgeTag(trigger), UidTag(uid));
    FirstTag(uid, "");
    assert UidTag(uid) + "" == UidTag(uid);
    if NoMatch(worker) {
      FirstSkipsPrefix(worker, tail);
    }
    assert r[..|worker|] == worker;
  }

  /** A worker name that itself holds `[digits]` captures the first-match
      search, so the ager update would address the wrong row. */
  lemma {:induction false} AgerLabelWorkerCaptures()
    ensures FirstUid(AgerLabel("Ace[7]", 30, 12)) == Some(7)
  {
    var rest := AgeTag(30) + UidTag(12);
    SevenTag();
    assert "Ace[7]" == "Ace" + UidTag(7);
    LabelSplit("Ace", UidTag(7), 30, 12);
    PlainAce();
    FirstSkipsPrefix("Ace", UidTag(7) + rest);
    FirstTag(7, rest);
  }

  /** An ager label whose worker name is cut in two. */
  lemma {:induction false} LabelSplit(a: string, b: string, trigger: int, uid: nat)
    ensures AgerLabel(a + b, trigger, uid) == a + (b + (AgeTag(trigger) + UidTag(uid)))
  {
    var rest := AgeTag(trigger) + UidTag(uid);
    assert AgerLabel(a + b, trigger, uid) == (a + b) + rest;
    Reassoc(a, b, rest);
  }

  lemma {:induction false} Reassoc(a: string, b: string, c: string)
    ensures (a + b) + c == a + (b + c)
  {
  }

  lemma {:induction false} SevenTag()
    ensures UidTag(7) == "[7]"
  {
    assert NatToDigits(7) == "7";
  }

  lemma {:induction false} PlainAce()
    ensures NoMatch("Ace")
  {
    assert forall p, q :: !IsMatch("Ace", p, q);
  }

  /** `recordname.split("|")[0]` and the rest rejoined with `"|"`, or the
      whole name and `""` when there is no `|`. */
  function SplitRecordName(name: string): (r: (string, string))
    ensures '|' !in r.0
    ensures '|' in name ==> r.0 + "|" + r.1 == name
    ensures '|' !in name ==> r.0 == name && r.1 == ""
  {
    var parts := Split(name, '|');
    if '|' in name then
      var rest := Join(parts[1..], "|");
      assert |parts| > 1 by {
        var i := IndexOf(name, '|');
        assert i.Some?;
      }
      JoinSplit(name, '|');
      assert Join(parts, "|") == parts[0] + "|" + rest;
      (parts[0], rest)
    else
      (name, "")
  }

  /** The alter picker label: the alter uid in brackets after the worker
      name, then `[desc]` only when the description is non-empty. The
      first-match search used by update and fetch recovers the alter uid
      whenever the worker part holds no `[digits]`; the anchored search
      would recover it only when there is no description. */
  function AlterLabel(worker: string, uid: nat, desc: string): (r: string)
    ensures StartsWith(r, worker + UidTag(uid))
    ensures desc == "" ==> r == worker + UidTag(uid) && AnchoredUid(r) == Some(uid)
    ensures desc != "" ==> EndsWith(r, "[" + desc + "]")
    ensures NoMatch(worker) ==> FirstUid(r) == Some(uid)
  {
    var rest := if desc != "" then "[" + desc + "]" else "";
    AlterLabelFacts(worker, uid, rest);
    worker + UidTag(uid) + rest
  }

  lemma {:induction false} AlterLabelFacts(worker: string, uid: nat, rest: string)
    ensures StartsWith(worker + UidTag(uid) + rest, worker + UidTag(uid))
    ensures EndsWith(worker + UidTag(uid) + rest, rest)
    ensures rest == "" ==> AnchoredUid(worker + UidTag(uid) + rest) == Some(uid)
    ensures NoMatch(worker) ==> FirstUid(worker + UidTag(uid) + rest) == Some(uid)
  {
    var r := worker + UidTag(uid) + rest;
    FirstTag(uid, rest);
    if NoMatch(worker) {
      FirstSkipsPrefix(worker, UidTag(uid) + rest);
      Reassoc(worker, UidTag(uid), rest);
    }
    if rest == "" {
      AnchoredTag(worker, uid);
      assert r == worker + UidTag(uid);
    }
    assert r[..|worker + UidTag(uid)|] == worker + UidTag(uid);
    assert r[|r| - |rest|..] == rest;
  }

  /** A description that is itself a number is what the anchored search
      would see, which is why the alter engine uses the first-match search. */
  lemma {:induction false} AlterLabelAnchoredMisreads()
    ensures AnchoredUid(AlterLabel("Ace", 5, "2")) == Some(2)
  {
    var s := AlterLabel("Ace", 5, "2");
    assert UidTag(2) == "[2]" by {
      assert NatToDigits(2) == "2";
    }
    assert s == "Ace" + UidTag(5) + "[2]";
    assert s == ("Ace" + UidTag(5)) + UidTag(2);
    AnchoredTag("Ace" + UidTag(5), 2);
  }
}

=== FILE: paths.dfy ===
/** File-system path text as the Windows build of the program sees it:
    both `/` and `\` separate components.

      * `Name` and `Suffix` follow `pathlib`'s `name` and `suffix`;
      * `PathJoin` and `Normalize` follow `os.path.join` and `os.path.normpath`,
        with `Normalize` rendering with `\`.

    A drive prefix such as `C:` is treated as an ordinary first component.
 */
module Paths {
  import opened Wrappers
  import opened Text

  const Backslash: char := '\\'

  predicate IsSep(c: char) {
    c == '/' || c == '\\'
  }

  predicate NoSep(s: string) {
    forall i :: 0 <= i < |s| ==> !IsSep(s[i])
  }

  predicate IsAbsolute(s: string) {
    |s| > 0 && IsSep(s[0])
  }

  /** The index of the first separator in `s`, if any. */
  function FirstSep(s: string): (r: Option<nat>)
    ensures r.Some? ==> r.value < |s| && IsSep(s[r.value]) && NoSep(s[..r.value])
    ensures r.None? ==> NoSep(s)
  {
    if |s| == 0 then None
    else if IsSep(s[0]) then Some(0)
    else match FirstSep(s[1..])
      case None => None
      case Some(k) => Some(k + 1)
  }

  /** The text between separators, empty pieces included. */
  function Segments(s: string): (r: seq<string>)
    ensures |r| > 0
    ensures forall k :: 0 <= k < |r| ==> NoSep(r[k])
    decreases |s|
  {
    match FirstSep(s)
    case None => [s]
    case Some(i) => [s[..i]] + Segments(s[i + 1..])
  }

  /** Splitting at a separator splits the segments there. */
  lemma {:induction false} SegmentsConcat(x: string, c: char, y: string)
    requires IsSep(c)
    ensures Segments(x + [c] + y) == Segments(x) + Segments(y)
    decreases |x|
  {
    var s := x + [c] + y;
    match FirstSep(x)
    case None =>
      assert s[..|x|] == x;
      assert s[|x| + 1..] == y;
      assert FirstSep(s) == Some(|x|) by {
        FirstSepAt(s, |x|);
      }
    case Some(i) =>
      assert s[..i] == x[..i];
      assert s[i + 1..] == x[i + 1..] + [c] + y;
      FirstSepAt(s, i);
      SegmentsConcat(x[i + 1..], c, y);
  }

  lemma {:induction false} FirstSepAt(s: string, i: nat)
    requires i < |s| && IsSep(s[i]) && NoSep(s[..i])
    ensures FirstSep(s) == Some(i)
  {
  }

  /** Separator-joined components, rendered with `\`. */
  function JoinParts(parts: seq<string>): string {
    Join(parts, [Backslash])
  }

  /** Joining separator-free parts and splitting again restores them. */
  lemma {:induction false} SegmentsJoin(parts: seq<string>)
    requires |parts| > 0
    requires forall k :: 0 <= k < |parts| ==> NoSep(parts[k])
    ensures Segments(JoinParts(parts)) == parts
    decreases |parts|
  {
    if |parts| == 1 {
      assert FirstSep(parts[0]).None?;
    } else {
      SegmentsJoin(parts[1..]);
      assert JoinParts(parts) == parts[0] + [Backslash] + JoinParts(parts[1..]);
      SegmentsConcat(parts[0], Backslash, JoinParts(parts[1..]));
      assert FirstSep(parts[0]).None?;
      assert parts == [parts[0]] + parts[1..];
    }
  }

  /** A component that names something: not empty and not `.`. */
  predicate Meaningful(p: string) {
    p != "" && p != "."
  }

  /** The segments with empty and `.` pieces dropped. */
  function Proper(segs: seq<string>): (r: seq<string>)
    ensures forall k :: 0 <= k < |r| ==> Meaningful(r[k])
    ensures forall k :: 0 <= k < |r| ==> r[k] in segs
  {
    if |segs| == 0 then []
    else if Meaningful(segs[0]) then [segs[0]] + Proper(segs[1..])
    else Proper(segs[1..])
  }

  lemma {:induction false} ProperConcat(a: seq<string>, b: seq<string>)
    ensures Proper(a + b) == Proper(a) + Proper(b)
    decreases |a|
  {
    if |a| > 0 {
      assert (a + b)[1..] == a[1..] + b;
      ProperConcat(a[1..], b);
    } else {
      assert a + b == b;
    }
  }

  lemma {:induction false} ProperKeeps(a: seq<string>)
    requires forall k :: 0 <= k < |a| ==> Meaningful(a[k])
    ensures Proper(a) == a
    decreases |a|
  {
    if |a| > 0 {
      ProperKeeps(a[1..]);
      assert a == [a[0]] + a[1..];
    }
  }

  /** The components of a path: its meaningful, separator-free pieces. */
  function Components(s: string): (r: seq<string>)
    ensures forall k :: 0 <= k < |r| ==> Meaningful(r[k]) && NoSep(r[k])
  {
    var r := Proper(Segments(s));
    assert forall k :: 0 <= k < |r| ==> r[k] in Segments(s);
    r
  }

  /** `PurePath(s).name`: the last component, or `""` for a bare root or an
      empty path. */
  function Name(s: string): (r: string)
    ensures NoSep(r)
    ensures r == "" <==> |Components(s)| == 0
  {
    var c := Components(s);
    if |c| == 0 then "" else c[|c| - 1]
  }

  /** The index of the last `.` in `s`, if any (`str.rfind`). */
  function LastDot(s: string): (r: Option<nat>)
    ensures r.Some? ==> r.value < |s| && s[r.value] == '.'
                        && forall k :: r.value < k < |s| ==> s[k] != '.'
    ensures r.None? ==> forall k :: 0 <= k < |s| ==> s[k] != '.'
  {
    if |s| == 0 then None
    else if s[|s| - 1] == '.' then Some(|s| - 1)
    else LastDot(s[..|s| - 1])
  }

  /** `PurePath.suffix` of a name: from the last dot on, provided that dot
      is neither the first nor the last character; otherwise `""`. */
  function Suffix(name: string): (r: string)
    ensures r == "" || (|r| >= 2 && r[0] == '.' && EndsWith(name, r) && |r| < |name|)
    ensures r != "" ==> forall k :: 0 < k < |r| ==> r[k] != '.'
    ensures r == "" <==> (|name| > 0 && name[|name| - 1] == '.')
                         || forall k :: 0 < k < |name| - 1 ==> name[k] != '.'
  {
    match LastDot(name)
    case Some(i) =>
      if 0 < i < |name| - 1 then name[i..] else ""
    case None => ""
  }

  lemma {:induction false} LastDotAt(s: string, i: nat)
    requires i < |s| && s[i] == '.' && forall k :: i < k < |s| ==> s[k] != '.'
    ensures LastDot(s) == Some(i)
  {
  }

  /** The text after the last separator (the whole text when there is
      none). */
  function LastSegment(s: string): (r: string)
    ensures NoSep(r) && EndsWith(s, r)
    decreases |s|
  {
    match FirstSep(s)
    case None => s
    case Some(i) =>
      var r := LastSegment(s[i + 1..]);
      assert s[|s| - |r|..] == s[i + 1..][|s[i + 1..]| - |r|..];
      r
  }

  /** Text without separators extends the last segment. */
  lemma {:induction false} SegmentsAppend(x: string, y: string)
    requires NoSep(y)
    ensures Segments(x + y) == Segments(x)[..|Segments(x)| - 1] + [LastSegment(x) + y]
    decreases |x|
  {
    var s := x + y;
    match FirstSep(x)
    case None =>
      assert NoSep(s);
      assert FirstSep(s).None?;
    case Some(i) =>
      assert s[..i] == x[..i];
      assert s[i + 1..] == x[i + 1..] + y;
      FirstSepAt(s, i);
      SegmentsAppend(x[i + 1..], y);
  }

  /** A name is its own name. */
  lemma {:induction false} NameOfName(s: string)
    ensures Name(Name(s)) == Name(s)
  {
    var n := Name(s);
    assert FirstSep(n).None?;
    if n == "" {
      assert Segments(n) == [""];
    } else {
      assert Segments(n) == [n];
      assert Meaningful(n);
      assert Proper([n]) == [n] + Proper([]);
    }
  }

  /** `os.path.join(a, b)`: a rooted `b` replaces `a`; otherwise a
      separator is inserted unless `a` is empty or already ends in one. */
  function PathJoin(a: string, b: string): (r: string)
    ensures IsAbsolute(b) ==> r == b
    ensures !IsAbsolute(b) ==> EndsWith(r, b) && (a == "" || StartsWith(r, a))
  {
    var r := if IsAbsolute(b) || a == "" then b
      else if IsSep(a[|a| - 1]) then a + b
      else a + [Backslash] + b;
    assert !IsAbsolute(b) && a != "" ==> r[..|a|] == a && r[|r| - |b|..] == b;
    r
  }

  /** Joining a relative path appends its components. */
  lemma {:induction false} JoinComponents(a: string, b: string)
    requires !IsAbsolute(b)
    ensures Components(PathJoin(a, b)) == Components(a) + Components(b)
    ensures IsAbsolute(PathJoin(a, b)) == IsAbsolute(a)
  {
    if a == "" {
      assert Segments(a) == [""];
    } else if IsSep(a[|a| - 1]) {
      JoinAfterSep(a, b);
    } else {
      assert PathJoin(a, b) == a + [Backslash] + b;
      SegmentsConcat(a, Backslash, b);
      ProperConcat(Segments(a), Segments(b));
    }
  }

  lemma {:induction false} JoinAfterSep(a: string, b: string)
    requires a != "" && IsSep(a[|a| - 1]) && !IsAbsolute(b)
    ensures Components(a + b) == Components(a) + Components(b)
  {
    var a0 := a[..|a| - 1];
    var c := a[|a| - 1];
    var p0 := Proper(Segments(a0));
    assert a == a0 + [c] + "";
    assert a + b == a0 + [c] + b;
    SegmentsConcat(a0, c, "");
    SegmentsConcat(a0, c, b);
    assert Segments("") == [""];
    assert Proper([""]) == [];
    ProperConcat(Segments(a0), [""]);
    ProperConcat(Segments(a0), Segments(b));
    assert Components(a) == p0 + [] == p0;
    assert Components(a + b) == p0 + Proper(Segments(b));
  }

  /** One step of `normpath`'s `..` handling on the components so far. */
  function Push(absolute: bool, stack: seq<string>, p: string): seq<string> {
    if p == ".." then
      if |stack| > 0 && stack[|stack| - 1] != ".." then stack[..|stack| - 1]
      else if absolute then stack
      else stack + [".."]
    else stack + [p]
  }

  /** `normpath`'s resolution of `..` against the preceding components; a
      `..` at the root of an absolute path is dropped. */
  function Resolve(absolute: bool, parts: seq<string>): seq<string>
    decreases |parts|
  {
    if |parts| == 0 then [] else Push(absolute, Resolve(absolute, parts[..|parts| - 1]), parts[|parts| - 1])
  }

  /** What `normpath` leaves: meaningful separator-free components, with
      any `..` only at the front of a relative path. */
  predicate NormalParts(absolute: bool, parts: seq<string>) {
    && (forall k :: 0 <= k < |parts| ==> Meaningful(parts[k]) && NoSep(parts[k]))
    && (forall i, j :: 0 <= i < j < |parts| && parts[j] == ".." ==> parts[i] == "..")
    && (absolute ==> forall k :: 0 <= k < |parts| ==> parts[k] != "..")
  }

  lemma {:induction false} ResolveNormal(absolute: bool, parts: seq<string>)
    requires forall k :: 0 <= k < |parts| ==> Meaningful(parts[k]) && NoSep(parts[k])
    ensures NormalParts(absolute, Resolve(absolute, parts))
    decreases |parts|
  {
    if |parts| > 0 {
      ResolveNormal(absolute, parts[..|parts| - 1]);
    }
  }

  /** A prefix of normalised components is normalised. */
  lemma {:induction false} NormalPrefix(absolute: bool, parts: seq<string>, n: nat)
    requires NormalParts(absolute, parts) && n <= |parts|
    ensures NormalParts(absolute, parts[..n])
  {
    var init := parts[..n];
    forall k | 0 <= k < |init| ensures init[k] == parts[k] {
    }
    forall i, j | 0 <= i < j < |init| ensures init[i] == parts[i] && init[j] == parts[j] {
    }
  }

  lemma {:induction false} ResolveNormalIdentity(absolute: bool, parts: seq<string>)
    requires NormalParts(absolute, parts)
    ensures Resolve(absolute, parts) == parts
    decreases |parts|
  {
    if |parts| > 0 {
      var init := parts[..|parts| - 1];
      var last := parts[|parts| - 1];
      NormalPrefix(absolute, parts, |parts| - 1);
      ResolveNormalIdentity(absolute, init);
      assert Resolve(absolute, parts) == Push(absolute, init, last);
      PushNormalLast(absolute, parts);
    }
  }

  /** The last of normalised components is kept when pushed onto the
      others. */
  lemma {:induction false} PushNormalLast(absolute: bool, parts: seq<string>)
    requires NormalParts(absolute, parts) && |parts| > 0
    ensures Push(absolute, parts[..|parts| - 1], parts[|parts| - 1]) == parts
  {
    var init := parts[..|parts| - 1];
    var last := parts[|parts| - 1];
    if last == ".." {
      assert !absolute;
      if |init| > 0 {
        assert init[|init| - 1] == parts[|parts| - 2] == "..";
      }
    }
    assert parts == init + [last];
  }

  /** The text of a normalised path. */
  function Render(absolute: bool, parts: seq<string>): string {
    if absolute then [Backslash] + JoinParts(parts)
    else if |parts| == 0 then "."
    else JoinParts(parts)
  }

  /** `os.path.normpath` (Windows flavour). */
  function Normalize(s: string): (r: string)
    ensures r != ""
    ensures IsAbsolute(r) == IsAbsolute(s)
    ensures Components(r) == Resolve(IsAbsolute(s), Components(s))
  {
    var abs := IsAbsolute(s);
    var parts := Resolve(abs, Components(s));
    ResolveNormal(abs, Components(s));
    RenderComponents(abs, parts);
    Render(abs, parts)
  }

  lemma {:induction false} RenderComponents(absolute: bool, parts: seq<string>)
    requires NormalParts(absolute, parts)
    ensures Render(absolute, parts) != ""
    ensures IsAbsolute(Render(absolute, parts)) == absolute
    ensures Components(Render(absolute, parts)) == parts
  {
    if absolute {
      RenderRooted(parts);
    } else {
      RenderRelative(parts);
    }
  }

  /** A rooted rendering splits back into its components. */
  lemma {:induction false} RenderRooted(parts: seq<string>)
    requires forall k :: 0 <= k < |parts| ==> Meaningful(parts[k]) && NoSep(parts[k])
    ensures IsAbsolute(Render(true, parts))
    ensures Components(Render(true, parts)) == parts
  {
    var r := Render(true, parts);
    assert Segments("") == [""];
    if |parts| == 0 {
      assert r == "" + [Backslash] + "";
      SegmentsConcat("", Backslash, "");
    } else {
      SegmentsJoin(parts);
      ProperKeeps(parts);
      assert r == "" + [Backslash] + JoinParts(parts);
      SegmentsConcat("", Backslash, JoinParts(parts));
      ProperConcat([""], parts);
    }
  }

  /** A relative rendering splits back into its components; no
      components render as `.`. */
  lemma {:induction false} RenderRelative(parts: seq<string>)
    requires NormalParts(false, parts)
    ensures Render(false, parts) != ""
    ensures !IsAbsolute(Render(false, parts))
    ensures Components(Render(false, parts)) == parts
  {
    if |parts| == 0 {
      assert Segments(".") == ["."];
    } else {
      SegmentsJoin(parts);
      ProperKeeps(parts);
      assert Segments(JoinParts(parts))[0] == parts[0];
      JoinPartsStart(parts);
    }
  }


  lemma {:induction false} JoinPartsStart(parts: seq<string>)
    requires |parts| > 0 && Meaningful(parts[0]) && NoSep(parts[0])
    ensures |JoinParts(parts)| > 0 && JoinParts(parts)[0] == parts[0][0]
  {
    if |parts| > 1 {
      assert JoinParts(parts) == parts[0] + ([Backslash] + JoinParts(parts[1..]));
    }
  }

  /** A normalised path is its own normal form. */
  lemma {:induction false} NormalizeIdempotent(s: string)
    ensures Normalize(Normalize(s)) == Normalize(s)
  {
    var abs := IsAbsolute(s);
    var parts := Resolve(abs, Components(s));
    ResolveNormal(abs, Components(s));
    RenderComponents(abs, parts);
    ResolveNormalIdentity(abs, parts);
  }
}

=== FILE: photo_cache.dfy ===
/** Where the game's pictures live, and the emptiness test every engine
    applies to a fetched list.

    The picture root is the full-path override when one is set, and
    otherwise `<core path>\Pictures\<picture pack>`; an optional extra path
    is joined on and the result is normalised. Each setting is read from the
    settings store, where a missing row reads as `None`.
 */
module PhotoCache {
  import opened Wrappers
  import opened Paths

  /** Python truthiness of an optional text: present and non-empty. */
  predicate Truthy(s: Option<string>) {
    s.Some? && s.value != ""
  }

  /** The directory under the game installation that holds the pictures. */
  const PicturesDir: string := "Pictures"

  /** `fetch_photo_root_path`. Joining or normalising `None` raises
      `TypeError`: a missing override fails whatever else is set, and a
      missing core path or pack name fails only when the override is empty
      and they are needed. */
  function FetchPhotoRootPath(core: Option<string>, pack: Option<string>, override: Option<string>,
                              additional: Option<string>): (r: Result<string>)
    ensures override.None? ==> r == Err(TypeMismatch)
    ensures override == Some("") && (core.None? || pack.None?) ==> r == Err(TypeMismatch)
    ensures override.Some? && (override.value != "" || (core.Some? && pack.Some?)) ==> r.Ok?
    ensures r.Ok? ==> r.value != "" && Normalize(r.value) == r.value
  {
    match override
    case None => Err(TypeMismatch)
    case Some(o) =>
      if o == "" && (core.None? || pack.None?) then Err(TypeMismatch)
      else
        var base := if o == "" then PathJoin(PathJoin(core.value, PicturesDir), pack.value) else o;
        var full := if Truthy(additional) then PathJoin(base, additional.value) else base;
        NormalizeIdempotent(full);
        Ok(Normalize(full))
  }

  lemma {:induction false} PicturesComponents()
    ensures Components(PicturesDir) == [PicturesDir]
    ensures !IsAbsolute(PicturesDir)
  {
    assert NoSep(PicturesDir);
    assert Segments(PicturesDir) == [PicturesDir];
  }

  /** Without an override the root is the core path's components, then
      `Pictures`, the pack's components and the extra path's components,
      with `..` resolved; it is rooted exactly when the core path is. */
  lemma {:induction false} DefaultLayout(core: string, pack: string, additional: Option<string>)
    requires !IsAbsolute(pack)
    requires Truthy(additional) ==> !IsAbsolute(additional.value)
    ensures var r := FetchPhotoRootPath(Some(core), Some(pack), Some(""), additional).value;
            var extra := if Truthy(additional) then Components(additional.value) else [];
            && Components(r) == Resolve(IsAbsolute(core), Components(core) + [PicturesDir] + Components(pack) + extra)
            && IsAbsolute(r) == IsAbsolute(core)
  {
    var base := PathJoin(PathJoin(core, PicturesDir), pack);
    var full := if Truthy(additional) then PathJoin(base, additional.value) else base;
    DefaultJoin(core, pack, additional);
    assert FetchPhotoRootPath(Some(core), Some(pack), Some(""), additional) == Ok(Normalize(full));
  }

  /** The joined default path, before normalising, has the components of
      its parts in order and is rooted exactly when the core path is. */
  lemma {:induction false} DefaultJoin(core: string, pack: string, additional: Option<string>)
    requires !IsAbsolute(pack)
    requires Truthy(additional) ==> !IsAbsolute(additional.value)
    ensures var base := PathJoin(PathJoin(core, PicturesDir), pack);
            var full := if Truthy(additional) then PathJoin(base, additional.value) else base;
            var extra := if Truthy(additional) then Components(additional.value) else [];
            && Components(full) == Components(core) + [PicturesDir] + Components(pack) + extra
            && IsAbsolute(full) == IsAbsolute(core)
  {
    PicturesComponents();
    var a := PathJoin(core, PicturesDir);
    JoinComponents(core, PicturesDir);
    var base := PathJoin(a, pack);
    JoinComponents(a, pack);
    if Truthy(additional) {
      JoinComponents(base, additional.value);
    } else {
      assert Components(core) + [PicturesDir] + Components(pack) + [] == Components(base);
    }
  }


  /** Any non-empty override, even one of blanks, is the base as given: the
      core path and pack name are not consulted. */
  lemma {:induction false} OverrideWins(o: string, core: Option<string>, pack: Option<string>, additional: Option<string>)
    requires o != ""
    requires Truthy(additional) ==> !IsAbsolute(additional.value)
    ensures var r := FetchPhotoRootPath(core, pack, Some(o), additional);
            var extra := if Truthy(additional) then Components(additional.value) else [];
            && r == FetchPhotoRootPath(None, None, Some(o), additional)
            && Components(r.value) == Resolve(IsAbsolute(o), Components(o) + extra)
  {
    if Truthy(additional) {
      JoinComponents(o, additional.value);
    } else {
      assert Components(o) + [] == Components(o);
    }
  }

  /** An empty extra path is the same as none. */
  lemma {:induction false} EmptyAdditionalIgnored(core: Option<string>, pack: Option<string>, override: Option<string>)
    ensures FetchPhotoRootPath(core, pack, override, Some("")) == FetchPhotoRootPath(core, pack, override, None)
  {
  }

  /** `photo_list_check`: true exactly for a non-empty list; `len(None)`
      raises `TypeError`, which reads as false. */
  function PhotoListCheck<T>(list: Option<seq<T>>): (r: bool)
    ensures r <==> list.Some? && |list.value| > 0
  {
    match list
    case None => false
    case Some(l) => |l| != 0
  }
}

=== FILE: photo_names.dfy ===
/** The picture-file name an update stores.

    The contract, alter and worker updates share one rule: a name that
    already has an extension is kept; otherwise `append_gif` appends
    `.gif`, and without it the configured default extension is applied by
    `filepath_formatter` (a missing default raises). The ager update never
    appends `.gif` itself: an extension-less name always takes the default,
    and formatting is skipped when `append_gif` is set and that default is
    the bare word `gif`.
 */
module PhotoNames {
  import opened Wrappers
  import opened Text
  import opened Paths
  import opened Filer

  /** The extension `append_gif` stands for, without its dot. */
  const Gif: string := "gif"

  /** The name stored by the contract, alter and worker updates. A name
      with an extension is formatted with that extension, which keeps it;
      the skip for `append_gif` with the word `gif` cannot apply to it,
      because an extracted extension starts with its dot. */
  function UpdateName(name: string, appendGif: bool, default: Option<string>): (r: Result<string>)
    ensures ExtractExtension(name).Some? ==> r == Ok(name)
    ensures ExtractExtension(name).None? && appendGif ==> r == Ok(name + "." + Gif)
    ensures ExtractExtension(name).None? && !appendGif && default.None? ==> r == Err(MissingDefaultExtension)
    ensures ExtractExtension(name).None? && !appendGif && default.Some? ==>
              r == Ok(FilepathFormatter(name, default))
  {
    match ExtractExtension(name)
    case Some(ext) => Ok(FilepathFormatter(name, Some(ext)))
    case None =>
      if appendGif then Ok(name + "." + Gif)
      else match default
        case None => Err(MissingDefaultExtension)
        case Some(d) => Ok(FilepathFormatter(name, Some(d)))
  }

  /** The name stored by the ager update. */
  function AgerUpdateName(name: string, appendGif: bool, default: Option<string>): (r: Result<string>)
    ensures ExtractExtension(name).Some? ==> r == Ok(name)
    ensures ExtractExtension(name).None? && default.None? ==> r == Err(MissingDefaultExtension)
    ensures ExtractExtension(name).None? && default.Some? && appendGif && default.value == Gif ==> r == Ok(name)
    ensures ExtractExtension(name).None? && default.Some? && !(appendGif && default.value == Gif) ==>
              r == Ok(FilepathFormatter(name, default))
  {
    match ExtractExtension(name)
    case Some(ext) => Ok(FilepathFormatter(name, Some(ext)))
    case None =>
      match default
      case None => Err(MissingDefaultExtension)
      case Some(d) => if appendGif && d == Gif then Ok(name) else Ok(FilepathFormatter(name, Some(d)))
  }

  /** The shapes of default extension that formatting keeps stable: none,
      a plain word, or a dot followed by a plain word. */
  predicate StableDefault(default: Option<string>) {
    default.None? ||
    var d := default.value;
    NoSep(d) && (d == "" || '.' !in d || (|d| >= 2 && d[0] == '.' && '.' !in d[1..]))
  }

  /** Appending a dot and a plain word to a name whose final segment is
      not empty gives it that word as its extension. */
  lemma {:induction false} WordAppendGivesExtension(name: string, e: string)
    requires LastSegment(name) != "" && e != "" && '.' !in e && NoSep(e)
    ensures ExtractExtension(name + "." + e) == Some("." + e)
  {
    NameAfterAppend(name, e);
    SuffixOfWord(LastSegment(name), e);
  }

  /** In particular `append_gif` gives such a name the extension `.gif`. */
  lemma {:induction false} GifAppendGivesExtension(name: string)
    requires LastSegment(name) != ""
    ensures ExtractExtension(name + "." + Gif) == Some("." + Gif)
  {
    assert forall k :: 0 <= k < |Gif| ==> Gif[k] != '.' && !IsSep(Gif[k]);
    WordAppendGivesExtension(name, Gif);
  }

  /** Formatting an extension-less name with a non-empty stable default
      gives it an extension. */
  lemma {:induction false} FormattedHasExtension(name: string, d: string)
    requires LastSegment(name) != "" && d != "" && StableDefault(Some(d))
    requires ExtractExtension(name).None?
    ensures ExtractExtension(FilepathFormatter(name, Some(d))).Some?
  {
    var r := FilepathFormatter(name, Some(d));
    assert Suffix(Name(name)) == "";
    assert !SuffixMatches("", d);
    assert r == name + "." + d;
    NameAfterAppend(name, d);
    if '.' !in d {
      SuffixOfWord(LastSegment(name), d);
    } else {
      SuffixOfDotted(LastSegment(name), d);
    }
  }

  /** Storing a stored name again changes nothing, as long as the final
      segment of the name is not empty and the default is stable. */
  lemma {:induction false} UpdateNameIdempotent(name: string, appendGif: bool, default: Option<string>)
    requires LastSegment(name) != "" && StableDefault(default)
    requires UpdateName(name, appendGif, default).Ok?
    ensures UpdateName(UpdateName(name, appendGif, default).value, appendGif, default)
            == UpdateName(name, appendGif, default)
  {
    if ExtractExtension(name).None? {
      if appendGif {
        GifAppendGivesExtension(name);
      } else if default.value != "" {
        FormattedHasExtension(name, default.value);
      }
    }
  }

  /** The same for the ager rule. */
  lemma {:induction false} AgerUpdateNameIdempotent(name: string, appendGif: bool, default: Option<string>)
    requires LastSegment(name) != "" && StableDefault(default)
    requires AgerUpdateName(name, appendGif, default).Ok?
    ensures AgerUpdateName(AgerUpdateName(name, appendGif, default).value, appendGif, default)
            == AgerUpdateName(name, appendGif, default)
  {
    if ExtractExtension(name).None? && !(appendGif && default.value == Gif) && default.value != "" {
      FormattedHasExtension(name, default.value);
    }
  }

  /** A default written with its dot gets a second dot: `"x"` is stored as
      `"x..gif"`. */
  lemma {:induction false} DottedDefaultDoubles()
    ensures UpdateName("x", false, Some(".gif")) == Ok("x..gif")
    ensures AgerUpdateName("x", false, Some(".gif")) == Ok("x..gif")
  {
    LeadingDotDoubles();
    assert Suffix("x") == "";
    assert FirstSep("x").None?;
    assert Segments("x") == ["x"];
    assert Proper(["x"]) == ["x"] + Proper([]);
  }

  /** With `append_gif` set the two rules part ways on an extension-less
      name: the shared rule appends `.gif`, the ager rule stores the bare
      name when the default is `gif`. */
  lemma {:induction false} AgerKeepsBareName()
    ensures UpdateName("x", true, Some("gif")) == Ok("x.gif")
    ensures AgerUpdateName("x", true, Some("gif")) == Ok("x")
  {
    assert "x" + "." + Gif == "x.gif";
    assert Suffix("x") == "";
    assert FirstSep("x").None?;
    assert Segments("x") == ["x"];
    assert Proper(["x"]) == ["x"] + Proper([]);
  }
}

=== FILE: records.dfy ===
/** The values the engines move between the game database and the local
    cache. A database row is a map from column name to cell; looking up a
    column it lacks is Python's `KeyError`.
 */
module Records {
  import opened Wrappers
  import opened Text

  /** One column value: an integer, a text, or SQL `NULL` (`None`). */
  datatype Cell = IntCell(n: int) | TextCell(t: string) | NullCell

  /** One database row, keyed by column name. */
  type Row = map<string, Cell>

  /** `row[key]`: the cell, or `KeyError` when the row has no such column. */
  function Field(row: Row, key: string): (r: Result<Cell>)
    ensures r.Ok? <==> key in row
    ensures r.Ok? ==> r.value == row[key]
    ensures r.Err? ==> r.fault == KeyNotFound
  {
    if key in row then Ok(row[key]) else Err(KeyNotFound)
  }

  /** How an f-string renders a cell: an integer in decimal, a text as
      itself, `NULL` as `None`. */
  function Render(c: Cell): (r: string)
    ensures c.IntCell? ==> ParseInt(r) == Some(c.n)
    ensures c.IntCell? && c.n >= 0 ==> r == NatToDigits(c.n)
    ensures c.NullCell? ==> r == "None"
  {
    match c
    case IntCell(n) => ParseIntToString(n); IntToString(n)
    case TextCell(t) => t
    case NullCell => "None"
  }
}

=== FILE: sequences.dfy ===
/** Generic facts about sequences shared by the filtering operations. */
module Sequences {

  /** `a` is `b` with some elements left out, order kept. */
  predicate IsSubsequence<T(==)>(a: seq<T>, b: seq<T>)
    decreases |b|
  {
    |a| == 0 || (|b| > 0 && (if a[0] == b[0] then IsSubsequence(a[1..], b[1..]) else IsSubsequence(a, b[1..])))
  }

  /** The elements of `xs` that `keep` accepts, in order. */
  function Filter<T(==)>(xs: seq<T>, keep: T -> bool): (r: seq<T>)
    ensures IsSubsequence(r, xs)
    ensures forall k :: 0 <= k < |r| ==> keep(r[k])
    ensures forall k :: 0 <= k < |xs| && keep(xs[k]) ==> xs[k] in r
    decreases |xs|
  {
    if |xs| == 0 then []
    else
      var rest := Filter(xs[1..], keep);
      assert forall k :: 1 <= k < |xs| && keep(xs[k]) ==> xs[k] in rest by {
        forall k | 1 <= k < |xs| && keep(xs[k]) ensures xs[k] in rest {
          assert xs[1..][k - 1] == xs[k];
        }
      }
      if keep(xs[0]) then
        var r := [xs[0]] + rest;
        assert r[1..] == rest;
        r
      else rest
  }

  /** The filter keeps every accepted element as often as it occurs and
      drops every other one. */
  lemma {:induction false} FilterCounts<T(!new)>(xs: seq<T>, keep: T -> bool)
    ensures forall x :: multiset(Filter(xs, keep))[x] == if keep(x) then multiset(xs)[x] else 0
    decreases |xs|
  {
    if |xs| > 0 {
      FilterCounts(xs[1..], keep);
      assert xs == [xs[0]] + xs[1..];
    }
  }

  /** A filter that accepts everything keeps the whole sequence. */
  lemma {:induction false} FilterAll<T>(xs: seq<T>, keep: T -> bool)
    requires forall x :: keep(x)
    ensures Filter(xs, keep) == xs
    decreases |xs|
  {
    if |xs| > 0 {
      FilterAll(xs[1..], keep);
      assert xs == [xs[0]] + xs[1..];
    }
  }
}

=== FILE: settings_file.dfy ===
/** The per-machine settings store: the file name derived from the host
    name, the `settings` key/value table and the `settings_initialization`
    table, and the start-up merge that adds every missing default without
    touching values already stored.

    A table that does not exist yet is `None`; the `settings` table is a
    map, because its key is the primary key. The time text written into a
    new initialization record is a parameter.
 */
module SettingsFile {
  import opened Wrappers
  import opened Text
  import opened Paths
  import opened SettingsList

  /** `socket.gethostname().split(".")[0].lower()`. */
  function Hostname(raw: string): (r: string)
    ensures '.' !in r
    ensures |r| <= |raw| && forall i :: 0 <= i < |r| ==> r[i] == LowerChar(raw[i])
    ensures '.' !in raw ==> r == Lower(raw)
    ensures |r| < |raw| ==> raw[|r|] == '.'
  {
    var first := Split(raw, '.')[0];
    FirstPartIsPrefix(raw, '.');
    var r := Lower(first);
    assert '.' !in r by {
      forall i | 0 <= i < |r| ensures r[i] != '.' {
        assert first[i] != '.';
      }
    }
    r
  }

  /** The first part of a split is the text up to the first separator. */
  lemma {:induction false} FirstPartIsPrefix(s: string, sep: char)
    ensures var first := Split(s, sep)[0];
            |first| <= |s| && first == s[..|first|] && (|first| < |s| ==> s[|first|] == sep)
  {
    match IndexOf(s, sep)
    case None =>
    case Some(i) => assert Split(s, sep)[0] == s[..i];
  }

  /** `<hostname>.sktew9ee`. */
  function SettingsFileName(hostname: string): (r: string)
    ensures StartsWith(r, hostname) && EndsWith(r, "." + SettingsFileExt)
    ensures |r| == |hostname| + 1 + |SettingsFileExt|
  {
    var r := hostname + "." + SettingsFileExt;
    assert r[..|hostname|] == hostname;
    assert r[|hostname|..] == "." + SettingsFileExt;
    r
  }

  /** The settings file of a named host has the settings extension as its
      path suffix. A host name is dot-free, so the only dot that can end up
      last is the one before the extension. */
  lemma {:induction false} SettingsFileSuffix(raw: string)
    requires Hostname(raw) != ""
    ensures Suffix(SettingsFileName(Hostname(raw))) == "." + SettingsFileExt
  {
    var h := Hostname(raw);
    var name := SettingsFileName(h);
    assert name == h + ".sktew9ee";
    assert name[|h|] == '.';
    forall k | |h| < k < |name|
      ensures name[k] != '.'
    {
      assert name[k] == ".sktew9ee"[k - |h|];
    }
    LastDotAt(name, |h|);
    assert name[|h|..] == ".sktew9ee";
  }

  /** The two tables of the settings file. */
  datatype SettingsDb = SettingsDb(settings: Option<map<string, string>>, initRecords: Option<seq<string>>)

  /** The defaults whose key is not stored yet, in catalogue order. */
  function MissingDefaults(defaults: seq<(string, string)>, current: map<string, string>): (r: seq<(string, string)>)
    ensures forall p :: p in r <==> p in defaults && p.0 !in current
    ensures |r| <= |defaults|
    ensures UniqueKeys(defaults) ==> UniqueKeys(r)
    ensures (forall p :: p in defaults ==> p.0 in current) ==> r == []
  {
    if |defaults| == 0 then []
    else
      var rest := MissingDefaults(defaults[1..], current);
      assert forall p :: p in defaults <==> p == defaults[0] || p in defaults[1..];
      if defaults[0].0 in current then
        assert UniqueKeys(defaults) ==> UniqueKeys(defaults[1..]) by {
          if UniqueKeys(defaults) { UniqueTail(defaults); }
        }
        rest
      else
        assert UniqueKeys(defaults) ==> UniqueKeys([defaults[0]] + rest) by {
          if UniqueKeys(defaults) {
            UniqueTail(defaults);
            UniqueCons(defaults[0], rest);
          }
        }
        [defaults[0]] + rest
  }

  /** No key occurs twice among the pairs. */
  predicate UniqueKeys(pairs: seq<(string, string)>) {
    forall i, j :: 0 <= i < j < |pairs| ==> pairs[i].0 != pairs[j].0
  }

  /** Dropping the first pair keeps the keys unique, and no later pair
      shares the first one's key. */
  lemma {:induction false} UniqueTail(pairs: seq<(string, string)>)
    requires UniqueKeys(pairs) && |pairs| > 0
    ensures UniqueKeys(pairs[1..])
    ensures forall q :: q in pairs[1..] ==> q.0 != pairs[0].0
  {
    var tail := pairs[1..];
    forall i, j | 0 <= i < j < |tail| ensures tail[i].0 != tail[j].0 {
      assert tail[i] == pairs[i + 1] && tail[j] == pairs[j + 1];
    }
    forall q | q in tail ensures q.0 != pairs[0].0 {
      var k :| 0 <= k < |tail| && tail[k] == q;
      assert pairs[k + 1] == q;
    }
  }

  /** A pair in front of uniquely keyed pairs that do not use its key. */
  lemma {:induction false} UniqueCons(x: (string, string), rest: seq<(string, string)>)
    requires UniqueKeys(rest)
    requires forall q :: q in rest ==> q.0 != x.0
    ensures UniqueKeys([x] + rest)
  {
    var r := [x] + rest;
    forall i, j | 0 <= i < j < |r| ensures r[i].0 != r[j].0 {
      assert r[j] == rest[j - 1];
      if i > 0 {
        assert r[i] == rest[i - 1];
      } else {
        assert r[j] in rest;
      }
    }
  }

  /** `INSERT` of each pair in turn. */
  function InsertAll(m: map<string, string>, pairs: seq<(string, string)>): map<string, string>
    decreases |pairs|
  {
    if |pairs| == 0 then m else InsertAll(m[pairs[0].0 := pairs[0].1], pairs[1..])
  }

  /** Inserting pairs under fresh keys adds exactly those keys with their
      values and keeps every other entry. */
  lemma {:induction false} InsertAllFacts(m: map<string, string>, pairs: seq<(string, string)>)
    requires forall p :: p in pairs ==> p.0 !in m
    requires UniqueKeys(pairs)
    ensures InsertAll(m, pairs).Keys == m.Keys + set p | p in pairs :: p.0
    ensures forall k :: k in m ==> InsertAll(m, pairs)[k] == m[k]
    ensures forall p :: p in pairs ==> InsertAll(m, pairs)[p.0] == p.1
    decreases |pairs|
  {
    if |pairs| > 0 {
      var x := pairs[0];
      var m' := m[x.0 := x.1];
      var tail := pairs[1..];
      assert forall p :: p in pairs <==> p == x || p in tail;
      UniqueTail(pairs);
      InsertAllFacts(m', tail);
      assert InsertAll(m, pairs) == InsertAll(m', tail);
      assert (set p | p in pairs :: p.0) == {x.0} + set p | p in tail :: p.0;
      assert x.0 !in set q | q in tail :: q.0;
    }
  }

  /** The stored settings, or none when the table does not exist yet. */
  function Stored(db: SettingsDb): map<string, string> {
    db.settings.GetOr(map[])
  }

  /** `initialize_settings`: create the tables that are missing, insert
      every catalogue default whose key is not stored, and add one
      initialization record stamped `now` when there is none. */
  function Initialize(db: SettingsDb, hostname: string, now: string): (r: SettingsDb)
    ensures r.settings.Some? && r.initRecords.Some?
    ensures |db.initRecords.GetOr([])| == 0 ==> r.initRecords == Some([now])
    ensures |db.initRecords.GetOr([])| > 0 ==> r.initRecords == db.initRecords
  {
    var current := Stored(db);
    var missing := MissingDefaults(DefaultsList(DefaultSettings(hostname)), current);
    var records := db.initRecords.GetOr([]);
    SettingsDb(Some(InsertAll(current, missing)), Some(if |records| == 0 then [now] else records))
  }

  /** The merge keeps every stored value, adds each missing catalogue
      default with its default value, and adds nothing else. */
  lemma {:induction false} InitializeMerges(db: SettingsDb, hostname: string, now: string)
    ensures var m := Initialize(db, hostname, now).settings.value;
            && m.Keys == Stored(db).Keys + (set i | 0 <= i < |CatalogueKeys| :: CatalogueKeys[i])
            && (forall k :: k in Stored(db) ==> m[k] == Stored(db)[k])
            && (forall s :: s in DefaultSettings(hostname) && s.key !in Stored(db) ==> m[s.key] == s.default)
  {
    var current := Stored(db);
    var settings := DefaultSettings(hostname);
    var defaults := DefaultsList(settings);
    var missing := MissingDefaults(defaults, current);
    DefaultKeysDistinct(hostname);
    assert UniqueKeys(defaults);
    InsertAllFacts(current, missing);
    var m := InsertAll(current, missing);
    assert m.Keys == current.Keys + (set i | 0 <= i < |CatalogueKeys| :: CatalogueKeys[i]) by {
      forall k | k in (set i | 0 <= i < |CatalogueKeys| :: CatalogueKeys[i]) && k !in current
        ensures k in m
      {
        var i :| 0 <= i < |CatalogueKeys| && CatalogueKeys[i] == k;
        assert defaults[i] in defaults && defaults[i].0 == k;
        assert defaults[i] in missing;
      }
      forall p | p in missing ensures p.0 in (set i | 0 <= i < |CatalogueKeys| :: CatalogueKeys[i]) {
        var i :| 0 <= i < |defaults| && defaults[i] == p;
        assert CatalogueKeys[i] == p.0;
      }
    }
    forall s | s in settings && s.key !in current
      ensures m[s.key] == s.default
    {
      var i :| 0 <= i < |settings| && settings[i] == s;
      assert defaults[i] == (s.key, s.default) && defaults[i] in defaults;
      assert defaults[i] in missing;
    }
  }

  /** Initializing an initialized store changes nothing. */
  lemma {:induction false} InitializeIdempotent(db: SettingsDb, hostname: string, now: string, later: string)
    ensures Initialize(Initialize(db, hostname, now), hostname, later) == Initialize(db, hostname, now)
  {
    var once := Initialize(db, hostname, now);
    InitializeMerges(db, hostname, now);
    var defaults := DefaultsList(DefaultSettings(hostname));
    var missing := MissingDefaults(defaults, Stored(once));
    forall p | p in defaults ensures p.0 in Stored(once) {
      var i :| 0 <= i < |defaults| && defaults[i] == p;
      assert p.0 == CatalogueKeys[i];
    }

  }

  /** `get_value`: the stored text of the key, or `None` without a row. */
  function GetValue(settings: map<string, string>, key: string): (r: Option<string>)
    ensures r.Some? <==> key in settings
    ensures r.Some? ==> r.value == settings[key]
  {
    if key in settings then Some(settings[key]) else None
  }

  /** `set_value`: insert the key or overwrite its value. */
  function SetValue(settings: map<string, string>, key: string, value: string): (r: map<string, string>)
    ensures r.Keys == settings.Keys + {key}
  {
    settings[key := value]
  }

  /** Reading a key back after writing it returns the written value, and
      every other key reads as before. */
  lemma {:induction false} GetAfterSet(settings: map<string, string>, key: string, value: string, other: string)
    ensures GetValue(SetValue(settings, key, value), key) == Some(value)
    ensures other != key ==> GetValue(SetValue(settings, key, value), other) == GetValue(settings, other)
  {
  }

  /** After initialization every catalogue key reads as some value. */
  lemma {:induction false} InitializedKeysPresent(db: SettingsDb, hostname: string, now: string, i: int)
    requires 0 <= i < |CatalogueKeys|
    ensures GetValue(Initialize(db, hostname, now).settings.value, CatalogueKeys[i]).Some?
  {
    InitializeMerges(db, hostname, now);
  }
}

=== FILE: settings_list.dfy ===
/** The application's setting catalogue: one record per setting with its
    default text, value type and widget, the lookups over the catalogue, and
    the rules that validate and convert the text a user enters for a
    setting. Every default value is text, so `str(default)` is the default
    itself.
 */
module SettingsList {
  import opened Wrappers
  import opened Text

  const AppVersion: string := "0.0.1"

  /** The settings file name suffix, without its dot. */
  const SettingsFileExt: string := "sktew9ee"

  datatype Widget = TextWidget | CheckboxWidget | RadioWidget | PathWidget | NumberWidget

  /** A setting after construction; `valueType` is the free-text type name
      (`"str"`, `"bool"`, `"int"`, `"path"`; any other name behaves like
      `"str"`). */
  datatype Setting = Setting(
    key: string,
    default: string,
    description: string,
    valueType: string,
    required: bool,
    title: string,
    widget: Widget,
    options: seq<string>,
    visible: bool)

  /** The key with underscores turned into spaces and title-cased, the label
      a setting gets when it is constructed without one. */
  function KeyLabel(key: string): string {
    Title(ReplaceChar(key, '_', ' '))
  }

  /** The generated label has the key's length, and its spaces are exactly
      where the key has an underscore or a space. */
  lemma {:induction false} KeyLabelShape(key: string)
    ensures |KeyLabel(key)| == |key|
    ensures forall i :: 0 <= i < |key| ==> (KeyLabel(key)[i] == ' ' <==> key[i] == '_' || key[i] == ' ')
  {
    var spaced := ReplaceChar(key, '_', ' ');
    var r := Title(spaced);
    forall i | 0 <= i < |key|
      ensures r[i] == ' ' <==> key[i] == '_' || key[i] == ' '
    {
      CaseKeepsSpace(spaced[i]);
      assert r[i] == LowerChar(spaced[i]) || r[i] == UpperChar(spaced[i]);
    }
  }

  /** An unlabelled `log_dir` would be shown as `Log Dir`. */
  lemma {:induction false} KeyLabelExample()
    ensures KeyLabel("log_dir") == "Log Dir"
  {
    var spaced := ReplaceChar("log_dir", '_', ' ');
    assert spaced == "log dir";
    var r := Title(spaced);
    assert r[0] == 'L' && r[1] == 'o' && r[2] == 'g' && r[3] == ' ';
    assert r[4] == 'D' && r[5] == 'i' && r[6] == 'r';
  }

  lemma {:induction false} CaseKeepsSpace(c: char)
    ensures LowerChar(c) == ' ' <==> c == ' '
    ensures UpperChar(c) == ' ' <==> c == ' '
  {
  }

  /** Constructing a setting: an empty label is replaced by the key's
      label, a missing option list by the empty list, and every other field
      is kept. */
  function MakeSetting(key: string, default: string, description: string, valueType: string,
                       required: bool, title: string, widget: Widget,
                       options: Option<seq<string>>, visible: bool): (r: Setting)
    ensures r.key == key && r.default == default && r.description == description
    ensures r.valueType == valueType && r.required == required
    ensures r.widget == widget && r.visible == visible
    ensures title != "" ==> r.title == title
    ensures options.Some? ==> r.options == options.value
    ensures options.None? ==> r.options == []
  {
    Setting(key, default, description, valueType, required,
            if title == "" then KeyLabel(key) else title,
            widget, options.GetOr([]), visible)
  }

  /** A setting constructed without a label is labelled by its key: the
      label is as long as the key, non-empty when the key is, and has its
      spaces where the key has underscores or spaces. */
  lemma {:induction false} UnlabelledTitle(key: string, default: string, description: string, valueType: string,
                        required: bool, widget: Widget, options: Option<seq<string>>, visible: bool)
    ensures var t := MakeSetting(key, default, description, valueType, required, "", widget, options, visible).title;
            |t| == |key| && (key != "" ==> t != "") &&
            forall i :: 0 <= i < |key| ==> (t[i] == ' ' <==> key[i] == '_' || key[i] == ' ')
  {
    KeyLabelShape(key);
  }

  /** The catalogue's keys, in declaration order. */
  const CatalogueKeys: seq<string> :=
    ["debug_mode", "hostname", "app_version", "settings_file_ext", "database_mode",
     "log_cli", "log_file", "log_dir", "skydb_api_ssl", "skydb_api_server",
     "skydb_api_port", "tew9_core_path", "tew9_game_database_name",
     "tew9_pictures_pack_name", "tew9_full_db_path_override",
     "tew9_full_pictures_path_override", "default_image_extension",
     "title_screen_image_path", "photo_cache_max_age"]

  /** The `i`-th declaration of the catalogue, whose key is the `i`-th
      catalogue key. Arguments a declaration
      leaves out take the record defaults: no description, type `"str"`,
      required, no label, a text widget, no options, visible. */
  function Declaration(hostname: string, i: nat): (r: Setting)
    requires i < |CatalogueKeys|
    ensures r.key == CatalogueKeys[i]
  {
    match i
    // debug_mode
    case 0 => MakeSetting(CatalogueKeys[0], "false", "Enable debug mode", "bool", true, "Debug Mode", CheckboxWidget, None, true)
    // hostname
    case 1 => MakeSetting(CatalogueKeys[1], hostname, "Host machine name", "str", true, "Computer Name", TextWidget, None, false)
    // app_version
    case 2 => MakeSetting(CatalogueKeys[2], AppVersion, "Application version", "str", true, "Application Version", TextWidget, None, false)
    // settings_file_ext
    case 3 => MakeSetting(CatalogueKeys[3], ".sktew9ee", "Settings file extension", "str", true, "Settings File Extension", TextWidget, None, false)
    // database_mode
    case 4 => MakeSetting(CatalogueKeys[4], "skydbapi", "Database connection mode", "str", true, "Select Database Mode", RadioWidget, Some(["skydbapi", "direct"]), true)
    // log_cli
    case 5 => MakeSetting(CatalogueKeys[5], "true", "Enable console logging", "bool", true, "Console Logging", CheckboxWidget, None, true)
    // log_file
    case 6 => MakeSetting(CatalogueKeys[6], "true", "Enable file logging", "bool", true, "File Logging", CheckboxWidget, None, true)
    // log_dir
    case 7 => MakeSetting(CatalogueKeys[7], "./.logs/", "Directory for log files", "path", true, "Log Directory", PathWidget, None, true)
    // skydb_api_ssl
    case 8 => MakeSetting(CatalogueKeys[8], "false", "Use SSL for API connection", "bool", true, "Use SSL for SKyDBAPI connection", CheckboxWidget, None, true)
    // skydb_api_server
    case 9 => MakeSetting(CatalogueKeys[9], "localhost", "SkyDB API server address", "str", true, "SKyDB API Server Address", TextWidget, None, true)
    // skydb_api_port
    case 10 => MakeSetting(CatalogueKeys[10], "9020", "SkyDB API server port", "int", true, "SKyDB API Server Port", NumberWidget, None, true)
    // tew9_core_path
    case 11 => MakeSetting(CatalogueKeys[11], "C:\\TEW9\\", "Path to TEW9 installation", "path", true, "TEW9 Core Installation Path", PathWidget, None, true)
    // tew9_game_database_name
    case 12 => MakeSetting(CatalogueKeys[12], "Default", "TEW9 Active Database Name", "str", true, "TEW9 Active Database Name", TextWidget, None, true)
    // tew9_pictures_pack_name
    case 13 => MakeSetting(CatalogueKeys[13], "Default", "TEW9 Pictures Pack Name", "str", true, "TEW9 Picture Pack Name", TextWidget, None, true)
    // tew9_full_db_path_override
    case 14 => MakeSetting(CatalogueKeys[14], "", "Override TEW9 full database path", "path", false, "TEW9 Full Database Path Override", PathWidget, None, true)
    // tew9_full_pictures_path_override
    case 15 => MakeSetting(CatalogueKeys[15], "", "Override TEW9 full pictures path", "path", false, "TEW9 Full Pictures Path Override", PathWidget, None, true)
    // default_image_extension
    case 16 => MakeSetting(CatalogueKeys[16], ".gif", "Default image extension", "str", true, "Default Image Extension", TextWidget, None, true)
    // title_screen_image_path
    case 17 => MakeSetting(CatalogueKeys[17], "./bin/title.png", "Path to title screen image", "path", true, "Title Screen Image", PathWidget, None, true)
    // photo_cache_max_age
    case _ => MakeSetting(CatalogueKeys[18], "720", "Maximum age of photo cache in hours", "int", true, "Photo Cache Maximum Age", NumberWidget, None, true)
  }

  /** The catalogue, in declaration order. */
  function DefaultSettings(hostname: string): (r: seq<Setting>)
    ensures |r| == |CatalogueKeys|
    ensures forall i :: 0 <= i < |r| ==> r[i].key == CatalogueKeys[i]
  {
    seq(|CatalogueKeys|, i requires 0 <= i < |CatalogueKeys| => Declaration(hostname, i))
  }

  predicate DistinctKeys(settings: seq<Setting>) {
    forall i, j :: 0 <= i < j < |settings| ==> settings[i].key != settings[j].key
  }

  /** No two settings of the catalogue share a key. */
  lemma {:induction false} DefaultKeysDistinct(hostname: string)
    ensures DistinctKeys(DefaultSettings(hostname))
  {
    assert forall i, j :: 0 <= i < j < |CatalogueKeys| ==> CatalogueKeys[i] != CatalogueKeys[j];
  }

  /** `get_setting`: the first setting with the key, or `KeyError`. */
  function GetSetting(settings: seq<Setting>, key: string): (r: Result<Setting>)
    ensures r.Ok? ==> exists i :: 0 <= i < |settings| && settings[i] == r.value
                         && r.value.key == key
                         && forall j :: 0 <= j < i ==> settings[j].key != key
    ensures r.Err? <==> forall i :: 0 <= i < |settings| ==> settings[i].key != key
    ensures r.Err? ==> r.fault == KeyNotFound
  {
    if |settings| == 0 then Err(KeyNotFound)
    else if settings[0].key == key then Ok(settings[0])
    else
      var rest := GetSetting(settings[1..], key);
      if rest.Ok? then
        var i :| 0 <= i < |settings[1..]| && settings[1..][i] == rest.value && rest.value.key == key
                 && forall j :: 0 <= j < i ==> settings[1..][j].key != key;
        assert settings[i + 1] == rest.value;
        rest
      else rest
  }

  /** With distinct keys, the lookup finds every setting of the catalogue
      by its own key. */
  lemma {:induction false} GetSettingFindsEach(settings: seq<Setting>, i: int)
    requires DistinctKeys(settings) && 0 <= i < |settings|
    ensures GetSetting(settings, settings[i].key) == Ok(settings[i])
  {
    var r := GetSetting(settings, settings[i].key);
    var j :| 0 <= j < |settings| && settings[j] == r.value && r.value.key == settings[i].key
             && forall k :: 0 <= k < j ==> settings[k].key != settings[i].key;
    assert j == i;
  }

  /** `get_defaults_list`: the `(key, default)` pairs in catalogue order. */
  function DefaultsList(settings: seq<Setting>): (r: seq<(string, string)>)
    ensures |r| == |settings|
    ensures forall i :: 0 <= i < |settings| ==> r[i] == (settings[i].key, settings[i].default)
  {
    seq(|settings|, i requires 0 <= i < |settings| => (settings[i].key, settings[i].default))
  }

  /** `get_defaults_dict`: the same pairs as a dictionary; like a Python
      dict comprehension, a later key overwrites an earlier one. */
  function DefaultsDict(settings: seq<Setting>): map<string, string>
  {
    if |settings| == 0 then map[]
    else DefaultsDict(settings[..|settings| - 1])[settings[|settings| - 1].key := settings[|settings| - 1].default]
  }

  /** The dictionary holds exactly the keys of the catalogue. */
  lemma {:induction false} DictKeys(settings: seq<Setting>)
    ensures DefaultsDict(settings).Keys == set i | 0 <= i < |settings| :: settings[i].key
  {
    if |settings| > 0 {
      var n := |settings| - 1;
      var init := settings[..n];
      DictKeys(init);
      var keysInit := set i | 0 <= i < |init| :: init[i].key;
      var keysAll := set i | 0 <= i < |settings| :: settings[i].key;
      assert DefaultsDict(settings).Keys == keysInit + {settings[n].key};
      forall k | k in keysAll ensures k in keysInit + {settings[n].key} {
        var i :| 0 <= i < |settings| && settings[i].key == k;
        if i < n { assert init[i].key == k; }
      }
      forall k | k in keysInit ensures k in keysAll {
        var i :| 0 <= i < |init| && init[i].key == k;
        assert settings[i].key == k;
      }
    }
  }

  /** Each key of the catalogue maps to the default of the LAST setting with
      that key. */
  lemma {:induction false} DictLastWins(settings: seq<Setting>)
    ensures forall i :: 0 <= i < |settings| &&
                        (forall j :: i < j < |settings| ==> settings[j].key != settings[i].key) ==>
                        settings[i].key in DefaultsDict(settings) &&
                        DefaultsDict(settings)[settings[i].key] == settings[i].default
  {
    if |settings| > 0 {
      var n := |settings| - 1;
      var init := settings[..n];
      DictLastWins(init);
      forall i | 0 <= i < |settings| &&
                 (forall j :: i < j < |settings| ==> settings[j].key != settings[i].key)
        ensures settings[i].key in DefaultsDict(settings) &&
                DefaultsDict(settings)[settings[i].key] == settings[i].default
      {
        if i < n {
          assert init[i] == settings[i];
          assert forall j :: i < j < |init| ==> init[j] == settings[j];
          assert settings[n].key != settings[i].key;
        }
      }
    }
  }

  /** The list and the dictionary agree: with distinct keys every pair of
      the list is an entry of the dictionary and the dictionary has no
      other keys. */
  lemma {:induction false} ListAgreesWithDict(settings: seq<Setting>)
    requires DistinctKeys(settings)
    ensures forall p :: p in DefaultsList(settings) ==> p.0 in DefaultsDict(settings) && DefaultsDict(settings)[p.0] == p.1
    ensures forall k :: k in DefaultsDict(settings) ==> exists p :: p in DefaultsList(settings) && p.0 == k
  {
    DictKeys(settings);
    DictLastWins(settings);
    var l := DefaultsList(settings);
    forall p | p in l
      ensures p.0 in DefaultsDict(settings) && DefaultsDict(settings)[p.0] == p.1
    {
      var i :| 0 <= i < |l| && l[i] == p;
    }
    forall k | k in DefaultsDict(settings)
      ensures exists p :: p in l && p.0 == k
    {
      var i :| 0 <= i < |settings| && settings[i].key == k;
      assert l[i] in l;
    }
  }

  /** `validate_value`. `None` stands for Python's `None`. An unknown key,
      like any exception inside, gives `false`. */
  function ValidateValue(settings: seq<Setting>, key: string, value: Option<string>): (r: bool)
    ensures GetSetting(settings, key).Err? ==> !r
    ensures GetSetting(settings, key).Ok? && value.None? ==> (r <==> !GetSetting(settings, key).value.required)
  {
    match GetSetting(settings, key)
    case Err(_) => false
    case Ok(s) =>
      match value
      case None => !s.required
      case Some(v) =>
        if s.valueType == "bool" then Lower(v) == "true" || Lower(v) == "false"
        else if s.valueType == "int" then
          if v == "" then true
          else (match ParseInt(v) case None => false case Some(n) => n != 0)
        else if s.valueType == "path" then
          if v == "" then !s.required else true
        else true
  }

  /** The typed value `convert_value` returns. */
  datatype Converted = NoValue | BoolValue(b: bool) | IntValue(i: int) | PathValue(p: string) | TextValue(s: string)

  /** `convert_value`: `KeyError` for an unknown key, `ValueError` for a
      missing required value and for text that is not an integer. */
  function ConvertValue(settings: seq<Setting>, key: string, value: Option<string>): (r: Result<Converted>)
    ensures GetSetting(settings, key).Err? ==> r == Err(KeyNotFound)
    ensures GetSetting(settings, key).Ok? && value.None? ==>
              (if GetSetting(settings, key).value.required then r == Err(InvalidValue) else r == Ok(NoValue))
  {
    match GetSetting(settings, key)
    case Err(f) => Err(f)
    case Ok(s) =>
      match value
      case None => if s.required then Err(InvalidValue) else Ok(NoValue)
      case Some(v) =>
        if s.valueType == "bool" then Ok(BoolValue(Lower(v) == "true"))
        else if s.valueType == "int" then
          (match ParseInt(v) case None => Err(InvalidValue) case Some(n) => Ok(IntValue(n)))
        else if s.valueType == "path" then
          Ok(if v == "" then NoValue else PathValue(v))
        else Ok(TextValue(v))
  }

  /** What validation accepts, conversion turns into a value — except the
      empty integer text, which validates but does not convert. */
  lemma {:induction false} ValidConverts(settings: seq<Setting>, key: string, value: Option<string>)
    requires ValidateValue(settings, key, value)
    ensures var s := GetSetting(settings, key).value;
            (s.valueType == "int" && value == Some("")) <==> ConvertValue(settings, key, value).Err?
  {
  }

  /** What conversion rejects, validation rejects too, apart from that one
      case; conversion accepts more than validation does (see
      `ZeroValidatesFalse`). */
  lemma {:induction false} ConvertErrorInvalid(settings: seq<Setting>, key: string, value: Option<string>)
    requires ConvertValue(settings, key, value).Err?
    requires value != Some("") || GetSetting(settings, key).Err? || GetSetting(settings, key).value.valueType != "int"
    ensures !ValidateValue(settings, key, value)
  {
  }

  /** An integer setting validates exactly the non-zero integers (and the
      empty text), and converts to the parsed number. */
  lemma {:induction false} IntRules(settings: seq<Setting>, key: string, v: string)
    requires GetSetting(settings, key).Ok? && GetSetting(settings, key).value.valueType == "int"
    requires v != ""
    ensures ValidateValue(settings, key, Some(v)) <==> ParseInt(v).Some? && ParseInt(v).value != 0
    ensures ParseInt(v).Some? ==> ConvertValue(settings, key, Some(v)) == Ok(IntValue(ParseInt(v).value))
    ensures ParseInt(v).None? ==> ConvertValue(settings, key, Some(v)) == Err(InvalidValue)
  {
  }

  /** A boolean setting validates `true` and `false` in any letter case and
      converts exactly the case-insensitive `true` to true. */
  lemma {:induction false} BoolRules(settings: seq<Setting>, key: string, v: string)
    requires GetSetting(settings, key).Ok? && GetSetting(settings, key).value.valueType == "bool"
    ensures ValidateValue(settings, key, Some(v)) <==> Lower(v) in {"true", "false"}
    ensures ConvertValue(settings, key, Some(v)) == Ok(BoolValue(Lower(v) == "true"))
  {
  }

  /** The catalogue's maximum cache age rejects `"0"` although `int("0")`
      converts, and accepts the empty text that does not convert. */
  lemma {:induction false} ZeroValidatesFalse(hostname: string)
    ensures !ValidateValue(DefaultSettings(hostname), "photo_cache_max_age", Some("0"))
    ensures ConvertValue(DefaultSettings(hostname), "photo_cache_max_age", Some("0")) == Ok(IntValue(0))
    ensures ValidateValue(DefaultSettings(hostname), "photo_cache_max_age", Some(""))
    ensures ConvertValue(DefaultSettings(hostname), "photo_cache_max_age", Some("")) == Err(InvalidValue)
  {
    var s := DefaultSettings(hostname);
    DefaultKeysDistinct(hostname);
    GetSettingFindsEach(s, 18);
    var d := Declaration(hostname, 18);
    assert s[18] == d;
    assert d.valueType == "int";
    assert ParseInt("0") == Some(0) by {
      assert AllDigits("0");
      assert DigitsValue("0") == 0;
    }
  }

  /** A text setting accepts any value, even one outside its option list:
      the database mode validates and converts `"msaccess"`. */
  lemma {:induction false} OptionsNotEnforced(hostname: string)
    ensures ValidateValue(DefaultSettings(hostname), "database_mode", Some("msaccess"))
    ensures ConvertValue(DefaultSettings(hostname), "database_mode", Some("msaccess")) == Ok(TextValue("msaccess"))
    ensures "msaccess" !in DefaultSettings(hostname)[4].options
  {
    var s := DefaultSettings(hostname);
    DefaultKeysDistinct(hostname);
    GetSettingFindsEach(s, 4);
    var d := Declaration(hostname, 4);
    assert s[4] == d;
    assert d.valueType == "str" && d.options == ["skydbapi", "direct"];
    TextRules(s, "database_mode", "msaccess");
  }

  /** A path setting validates every non-empty path, and the empty path
      only when the setting is optional; the empty path converts to no
      value and any other to the path itself. */
  lemma {:induction false} PathRules(settings: seq<Setting>, key: string, v: string)
    requires GetSetting(settings, key).Ok? && GetSetting(settings, key).value.valueType == "path"
    ensures ValidateValue(settings, key, Some(v)) <==> v != "" || !GetSetting(settings, key).value.required
    ensures ConvertValue(settings, key, Some(v)) == Ok(if v == "" then NoValue else PathValue(v))
  {
  }

  /** A setting of any type other than boolean, integer or path (`str`
      among them) validates and converts any value as it is. */
  lemma {:induction false} TextRules(settings: seq<Setting>, key: string, v: string)
    requires GetSetting(settings, key).Ok? && GetSetting(settings, key).value.valueType !in {"bool", "int", "path"}
    ensures ValidateValue(settings, key, Some(v))
    ensures ConvertValue(settings, key, Some(v)) == Ok(TextValue(v))
  {
  }

  /** The optional pictures override accepts the empty path, which
      converts to no value. */
  lemma {:induction false} EmptyOverrideAccepted(hostname: string)
    ensures ValidateValue(DefaultSettings(hostname), "tew9_full_pictures_path_override", Some(""))
    ensures ConvertValue(DefaultSettings(hostname), "tew9_full_pictures_path_override", Some("")) == Ok(NoValue)
  {
    var s := DefaultSettings(hostname);
    DefaultKeysDistinct(hostname);
    GetSettingFindsEach(s, 15);
    var d := Declaration(hostname, 15);
    assert s[15] == d;
    assert d.valueType == "path" && !d.required;
  }

  /** A required path setting rejects both the empty path and no value. */
  lemma {:induction false} EmptyCorePathRejected(hostname: string)
    ensures !ValidateValue(DefaultSettings(hostname), "tew9_core_path", Some(""))
    ensures !ValidateValue(DefaultSettings(hostname), "tew9_core_path", None)
  {
    var s := DefaultSettings(hostname);
    DefaultKeysDistinct(hostname);
    GetSettingFindsEach(s, 11);
    var d := Declaration(hostname, 11);
    assert s[11] == d;
    assert d.valueType == "path" && d.required;
  }
}

=== FILE: text.dfy ===
/** Character and string helpers used throughout the model: decimal digits
    and integer rendering/parsing (Python's `str(int)` and `int(str)`),
    ASCII case mapping (`str.lower`, `str.title`), prefix/suffix/substring
    tests and the split used on alter record names.

    Strings are `seq<char>`; case mapping is restricted to ASCII letters.
 */
module Text {
  import opened Wrappers

  predicate IsDigit(c: char) {
    '0' <= c <= '9'
  }

  predicate AllDigits(s: string) {
    forall i :: 0 <= i < |s| ==> IsDigit(s[i])
  }

  function DigitChar(d: nat): (c: char)
    requires d < 10
    ensures IsDigit(c)
  {
    ['0', '1', '2', '3', '4', '5', '6', '7', '8', '9'][d]
  }

  function DigitValue(c: char): (d: nat)
    requires IsDigit(c)
    ensures d < 10
  {
    c as int - '0' as int
  }

  lemma {:induction false} DigitCharValue(d: nat)
    requires d < 10
    ensures DigitValue(DigitChar(d)) == d
  {
  }

  /** The value of a string of decimal digits, read most significant first. */
  function DigitsValue(s: string): nat
    requires AllDigits(s)
  {
    if |s| == 0 then 0 else DigitsValue(s[..|s| - 1]) * 10 + DigitValue(s[|s| - 1])
  }

  /** Python's `str(n)` for a non-negative integer: decimal digits without
      leading zeros, whose value is `n`. */
  function NatToDigits(n: nat): (r: string)
    ensures |r| > 0 && AllDigits(r)
    ensures DigitsValue(r) == n
    ensures r[0] == '0' ==> r == "0"
    decreases n
  {
    if n < 10 then
      DigitCharValue(n);
      [DigitChar(n)]
    else
      var prefix := NatToDigits(n / 10);
      var r := prefix + [DigitChar(n % 10)];
      assert r[..|r| - 1] == prefix;
      DigitCharValue(n % 10);
      r
  }

  /** Python's `str(i)` for any integer: a minus sign before the digits of a
      negative number. */
  function IntToString(i: int): (r: string)
    ensures |r| > 0
    ensures forall k :: 0 <= k < |r| ==> IsDigit(r[k]) || r[k] == '-'
  {
    if i < 0 then "-" + NatToDigits(-i) else NatToDigits(i)
  }

  /** Python's `int(s)`, restricted to an optional sign followed by at least
      one decimal digit (no surrounding whitespace, no underscores). */
  function ParseInt(s: string): (r: Option<int>)
    ensures r.Some? ==> |s| > 0
  {
    if |s| == 0 then None
    else if s[0] == '-' || s[0] == '+' then
      var body := s[1..];
      if |body| > 0 && AllDigits(body) then
        var magnitude: int := DigitsValue(body);
        Some(if s[0] == '-' then -magnitude else magnitude)
      else None
    else if AllDigits(s) then Some(DigitsValue(s))
    else None
  }

  /** Rendering an integer and parsing it back is the identity. */
  lemma {:induction false} ParseIntToString(i: int)
    ensures ParseInt(IntToString(i)) == Some(i)
  {
    var r := IntToString(i);
    if i < 0 {
      assert r[1..] == NatToDigits(-i);
    } else {
      assert r[0] != '-' && r[0] != '+';
    }
  }

  function LowerChar(c: char): char {
    if 'A' <= c <= 'Z' then (c as int - 'A' as int + 'a' as int) as char else c
  }

  function UpperChar(c: char): char {
    if 'a' <= c <= 'z' then (c as int - 'a' as int + 'A' as int) as char else c
  }

  predicate IsCased(c: char) {
    'a' <= c <= 'z' || 'A' <= c <= 'Z'
  }

  /** Python's `str.lower()` on ASCII text. */
  function Lower(s: string): (r: string)
    ensures |r| == |s|
    ensures forall i :: 0 <= i < |s| ==> r[i] == LowerChar(s[i])
  {
    seq(|s|, i requires 0 <= i < |s| => LowerChar(s[i]))
  }

  /** Python's `str.title()` on ASCII text: a letter is upper-cased when the
      character before it is not a letter, and lower-cased otherwise. */
  function Title(s: string): (r: string)
    ensures |r| == |s|
    ensures |s| > 0 ==> r[0] == UpperChar(s[0])
    ensures forall i {:trigger r[i]} :: 0 < i < |s| ==>
      r[i] == (if IsCased(s[i - 1]) then LowerChar(s[i]) else UpperChar(s[i]))
  {
    seq(|s|, i requires 0 <= i < |s| =>
      if i > 0 && IsCased(s[i - 1]) then LowerChar(s[i]) else UpperChar(s[i]))
  }

  /** Every occurrence of `a` replaced by `b` (Python's `str.replace` for
      single characters). */
  function ReplaceChar(s: string, a: char, b: char): (r: string)
    ensures |r| == |s|
    ensures forall i :: 0 <= i < |s| ==> r[i] == (if s[i] == a then b else s[i])
  {
    seq(|s|, i requires 0 <= i < |s| => if s[i] == a then b else s[i])
  }

  predicate StartsWith(s: string, prefix: string) {
    |prefix| <= |s| && s[..|prefix|] == prefix
  }

  predicate EndsWith(s: string, suffix: string) {
    |suffix| <= |s| && s[|s| - |suffix|..] == suffix
  }

  /** Python's `sub in s`. */
  predicate Contains(s: string, sub: string)
    decreases |s|
  {
    StartsWith(s, sub) || (|s| > 0 && Contains(s[1..], sub))
  }

  /** `sub` occurs in `s` starting at offset `i`. */
  ghost predicate OccursAt(s: string, sub: string, i: int) {
    0 <= i <= |s| - |sub| && s[i..i + |sub|] == sub
  }

  /** `Contains` finds exactly the substrings that occur at some offset. */
  lemma {:induction false} ContainsAt(s: string, sub: string)
    ensures Contains(s, sub) <==> exists i :: OccursAt(s, sub, i)
    decreases |s|
  {
    if StartsWith(s, sub) {
      assert OccursAt(s, sub, 0);
    } else if |s| == 0 {
    } else {
      ContainsAt(s[1..], sub);
      if exists i :: OccursAt(s, sub, i) {
        var i :| OccursAt(s, sub, i);
        assert i != 0;
        assert s[1..][i - 1..i - 1 + |sub|] == sub;
        assert OccursAt(s[1..], sub, i - 1);
      }
      if Contains(s[1..], sub) {
        var j :| OccursAt(s[1..], sub, j);
        assert s[j + 1..j + 1 + |sub|] == sub;
        assert OccursAt(s, sub, j + 1);
      }
    }
  }

  /** The index of the first occurrence of `c` in `s`, if any. */
  function IndexOf(s: string, c: char): (r: Option<nat>)
    ensures r.Some? ==> r.value < |s| && s[r.value] == c
                        && forall k :: 0 <= k < r.value ==> s[k] != c
    ensures r.None? ==> forall k :: 0 <= k < |s| ==> s[k] != c
  {
    if |s| == 0 then None
    else if s[0] == c then Some(0)
    else match IndexOf(s[1..], c)
      case None => None
      case Some(k) => Some(k + 1)
  }

  /** The parts of `s` separated by `sep` (Python's `s.split(sep)` for a
      one-character separator), joined back by `Join`. */
  function Split(s: string, sep: char): (r: seq<string>)
    ensures |r| > 0
    ensures forall k :: 0 <= k < |r| ==> sep !in r[k]
    decreases |s|
  {
    match IndexOf(s, sep)
    case None => [s]
    case Some(i) => [s[..i]] + Split(s[i + 1..], sep)
  }

  function Join(parts: seq<string>, sep: string): string {
    if |parts| == 0 then ""
    else if |parts| == 1 then parts[0]
    else parts[0] + sep + Join(parts[1..], sep)
  }

  /** Splitting and joining with the same separator restores the text. */
  lemma {:induction false} JoinSplit(s: string, sep: char)
    ensures Join(Split(s, sep), [sep]) == s
    decreases |s|
  {
    match IndexOf(s, sep)
    case None =>
    case Some(i) =>
      JoinSplit(s[i + 1..], sep);
      assert s == s[..i] + [sep] + s[i + 1..];
  }
}

=== FILE: text_order.dfy ===
/** The order SQLite's BINARY collation puts TEXT values in, used by the
    `ORDER BY timestamp DESC` that picks the newest cache-log row: strings
    are compared character by character, and a proper prefix sorts first.
 */
module TextOrder {

  predicate LexLess(a: string, b: string)
    decreases |a|
  {
    |b| > 0 && (|a| == 0 || a[0] < b[0] || (a[0] == b[0] && LexLess(a[1..], b[1..])))
  }

  lemma {:induction false} LexIrreflexive(a: string)
    ensures !LexLess(a, a)
    decreases |a|
  {
    if |a| > 0 {
      LexIrreflexive(a[1..]);
    }
  }

  lemma {:induction false} LexTransitive(a: string, b: string, c: string)
    requires LexLess(a, b) && LexLess(b, c)
    ensures LexLess(a, c)
    decreases |a|
  {
    if |a| > 0 && a[0] == b[0] && b[0] == c[0] {
      LexTransitive(a[1..], b[1..], c[1..]);
    }
  }

  /** Any two strings are equal or ordered one way round. */
  lemma {:induction false} LexTotal(a: string, b: string)
    ensures a == b || LexLess(a, b) || LexLess(b, a)
    decreases |a|
  {
    if |a| > 0 && |b| > 0 && a[0] == b[0] {
      LexTotal(a[1..], b[1..]);
      if a[1..] == b[1..] {
        assert a == [a[0]] + a[1..] && b == [b[0]] + b[1..];
      }
    }
  }

  lemma {:induction false} LexAsymmetric(a: string, b: string)
    ensures !(LexLess(a, b) && LexLess(b, a))
  {
    if LexLess(a, b) && LexLess(b, a) {
      LexTransitive(a, b, a);
      LexIrreflexive(a);
    }
  }

  /** Comparing two concatenations whose first blocks have equal length:
      the first blocks decide, and only on a tie do the second blocks. */
  lemma {:induction false} LexBlocks(x1: string, y1: string, x2: string, y2: string)
    requires |x1| == |x2|
    ensures LexLess(x1 + y1, x2 + y2) <==> LexLess(x1, x2) || (x1 == x2 && LexLess(y1, y2))
    decreases |x1|
  {
    if |x1| > 0 {
      assert (x1 + y1)[1..] == x1[1..] + y1;
      assert (x2 + y2)[1..] == x2[1..] + y2;
      LexBlocks(x1[1..], y1, x2[1..], y2);
      if x1[0] == x2[0] && x1[1..] == x2[1..] {
        assert x1 == [x1[0]] + x1[1..] && x2 == [x2[0]] + x2[1..];
      }
    } else {
      assert x1 + y1 == y1 && x2 + y2 == y2;
    }
  }
}

=== FILE: timestamps.dfy ===
/** Cache-log timestamps.

    Every engine writes `datetime.now().strftime("%Y-%m-%d %H:%M:%S")` into
    a TEXT column, the worker engine picks the newest row with a TEXT
    `ORDER BY timestamp DESC`, and reads it back with `strptime` in the
    same format. This module gives the calendar value, its fixed-width
    rendering and parsing, and proves that ordering the rendered text is
    ordering the instants.
 */
module Timestamps {
  import opened Wrappers
  import opened Text
  import opened TextOrder

  /** A calendar reading with one-second resolution, as `datetime` holds it. */
  datatype DateTime = DateTime(year: int, month: int, day: int, hour: int, minute: int, second: int)

  predicate IsLeap(y: int) {
    y % 4 == 0 && (y % 100 != 0 || y % 400 == 0)
  }

  function DaysInMonth(y: int, m: int): int
    requires 1 <= m <= 12
  {
    if m == 2 then (if IsLeap(y) then 29 else 28)
    else if m == 4 || m == 6 || m == 9 || m == 11 then 30
    else 31
  }

  function DaysInYear(y: int): int {
    if IsLeap(y) then 366 else 365
  }

  /** A real calendar instant whose year renders in exactly four digits. */
  predicate Valid(t: DateTime) {
    && 1000 <= t.year <= 9999
    && 1 <= t.month <= 12
    && 1 <= t.day <= DaysInMonth(t.year, t.month)
    && 0 <= t.hour < 24
    && 0 <= t.minute < 60
    && 0 <= t.second < 60
  }

  function Pow10(w: nat): nat {
    if w == 0 then 1 else 10 * Pow10(w - 1)
  }

  /** `n` in exactly `w` decimal digits, zero-padded on the left. */
  function Pad(n: nat, w: nat): (r: string)
    ensures |r| == w && AllDigits(r)
  {
    if w == 0 then "" else Pad(n / 10, w - 1) + [DigitChar(n % 10)]
  }

  /** `strftime("%Y-%m-%d %H:%M:%S")`. */
  function Format(t: DateTime): (r: string)
    requires Valid(t)
    ensures |r| == 19
  {
    Pad(t.year, 4) + ("-" + (Pad(t.month, 2) + ("-" + (Pad(t.day, 2) + (" " +
    (Pad(t.hour, 2) + (":" + (Pad(t.minute, 2) + (":" + Pad(t.second, 2))))))))))
  }

  /** `datetime.strptime(s, "%Y-%m-%d %H:%M:%S")` on the zero-padded form:
      `None` stands for the ValueError raised on malformed text or an
      impossible date. */
  function Parse(s: string): (r: Option<DateTime>)
    ensures r.Some? ==> Valid(r.value)
  {
    if |s| != 19 || s[4] != '-' || s[7] != '-' || s[10] != ' ' || s[13] != ':' || s[16] != ':'
    then None
    else if !(AllDigits(s[0..4]) && AllDigits(s[5..7]) && AllDigits(s[8..10])
              && AllDigits(s[11..13]) && AllDigits(s[14..16]) && AllDigits(s[17..19]))
    then None
    else
      var t := DateTime(DigitsValue(s[0..4]), DigitsValue(s[5..7]), DigitsValue(s[8..10]),
                        DigitsValue(s[11..13]), DigitsValue(s[14..16]), DigitsValue(s[17..19]));
      if Valid(t) then Some(t) else None
  }

  lemma {:induction false} PadValue(n: nat, w: nat)
    requires n < Pow10(w)
    ensures DigitsValue(Pad(n, w)) == n
  {
    if w > 0 {
      PadValue(n / 10, w - 1);
      var r := Pad(n, w);
      assert r[..|r| - 1] == Pad(n / 10, w - 1);
      DigitCharValue(n % 10);
    }
  }

  /** Reading back a rendered timestamp gives the same instant. */
  lemma {:induction false} ParseFormat(t: DateTime)
    requires Valid(t)
    ensures Parse(Format(t)) == Some(t)
  {
    var s := Format(t);
    assert Pow10(2) == 100 && Pow10(4) == 10000;
    assert s[4] == '-' && s[7] == '-' && s[10] == ' ' && s[13] == ':' && s[16] == ':';
    assert s[0..4] == Pad(t.year, 4);
    assert s[5..7] == Pad(t.month, 2);
    assert s[8..10] == Pad(t.day, 2);
    assert s[11..13] == Pad(t.hour, 2);
    assert s[14..16] == Pad(t.minute, 2);
    assert s[17..19] == Pad(t.second, 2);
    PadValue(t.year, 4);
    PadValue(t.month, 2);
    PadValue(t.day, 2);
    PadValue(t.hour, 2);
    PadValue(t.minute, 2);
    PadValue(t.second, 2);
  }

  /** Calendar order: year, then month, day, hour, minute, second. */
  predicate Before(a: DateTime, b: DateTime) {
    || a.year < b.year
    || (a.year == b.year && (
      || a.month < b.month
      || (a.month == b.month && (
        || a.day < b.day
        || (a.day == b.day && (
          || a.hour < b.hour
          || (a.hour == b.hour && (
            || a.minute < b.minute
            || (a.minute == b.minute && a.second < b.second)))))))))
  }

  lemma {:induction false} DigitCharOrder(i: nat, j: nat)
    requires i < 10 && j < 10
    ensures DigitChar(i) < DigitChar(j) <==> i < j
  {
  }

  /** Zero-padded fields of equal width sort as their values do. */
  lemma {:induction false} PadOrder(n: nat, m: nat, w: nat)
    requires n < Pow10(w) && m < Pow10(w)
    ensures LexLess(Pad(n, w), Pad(m, w)) <==> n < m
  {
    if w == 0 {
    } else {
      PadOrder(n / 10, m / 10, w - 1);
      LexBlocks(Pad(n / 10, w - 1), [DigitChar(n % 10)], Pad(m / 10, w - 1), [DigitChar(m % 10)]);
      PadValue(n / 10, w - 1);
      PadValue(m / 10, w - 1);
      DigitCharOrder(n % 10, m % 10);
    }
  }

  /** A zero-padded field followed by a separator and more text. */
  lemma {:induction false} FieldOrder(n: nat, m: nat, w: nat, sep: string, r1: string, r2: string)
    requires n < Pow10(w) && m < Pow10(w)
    ensures LexLess(Pad(n, w) + (sep + r1), Pad(m, w) + (sep + r2))
        <==> n < m || (n == m && LexLess(r1, r2))
  {
    LexBlocks(Pad(n, w), sep + r1, Pad(m, w), sep + r2);
    LexBlocks(sep, r1, sep, r2);
    LexIrreflexive(sep);
    PadOrder(n, m, w);
    PadValue(n, w);
    PadValue(m, w);
  }

  /** The fixed-width format makes text order calendar order. */
  lemma {:induction false} FormatOrder(a: DateTime, b: DateTime)
    requires Valid(a) && Valid(b)
    ensures LexLess(Format(a), Format(b)) <==> Before(a, b)
  {
    FieldOrder(a.year, b.year, 4, "-",
      Pad(a.month, 2) + ("-" + (Pad(a.day, 2) + (" " + (Pad(a.hour, 2) + (":" + (Pad(a.minute, 2) + (":" + Pad(a.second, 2)))))))),
      Pad(b.month, 2) + ("-" + (Pad(b.day, 2) + (" " + (Pad(b.hour, 2) + (":" + (Pad(b.minute, 2) + (":" + Pad(b.second, 2)))))))));
    FieldOrder(a.month, b.month, 2, "-",
      Pad(a.day, 2) + (" " + (Pad(a.hour, 2) + (":" + (Pad(a.minute, 2) + (":" + Pad(a.second, 2)))))),
      Pad(b.day, 2) + (" " + (Pad(b.hour, 2) + (":" + (Pad(b.minute, 2) + (":" + Pad(b.second, 2)))))));
    FieldOrder(a.day, b.day, 2, " ",
      Pad(a.hour, 2) + (":" + (Pad(a.minute, 2) + (":" + Pad(a.second, 2)))),
      Pad(b.hour, 2) + (":" + (Pad(b.minute, 2) + (":" + Pad(b.second, 2)))));
    FieldOrder(a.hour, b.hour, 2, ":",
      Pad(a.minute, 2) + (":" + Pad(a.second, 2)),
      Pad(b.minute, 2) + (":" + Pad(b.second, 2)));
    FieldOrder(a.minute, b.minute, 2, ":", Pad(a.second, 2), Pad(b.second, 2));
    PadOrder(a.second, b.second, 2);
  }

  /** Days from 1 January of year 1 to 1 January of year `y`. */
  function DaysBeforeYear(y: int): int
    decreases y
  {
    if y <= 1 then 0 else DaysBeforeYear(y - 1) + DaysInYear(y - 1)
  }

  function DaysBeforeMonth(y: int, m: int): int
    requires 1 <= m <= 12
  {
    [0, 31, 59, 90, 120, 151, 181, 212, 243, 273, 304, 334][m - 1]
    + (if m > 2 && IsLeap(y) then 1 else 0)
  }

  /** Seconds since 0001-01-01 00:00:00, the measure `datetime` arithmetic
      and comparison work on. */
  function ToSeconds(t: DateTime): int
    requires Valid(t)
  {
    var days := DaysBeforeYear(t.year) + DaysBeforeMonth(t.year, t.month) + (t.day - 1);
    days * 86400 + t.hour * 3600 + t.minute * 60 + t.second
  }

  function DayNumber(t: DateTime): int
    requires Valid(t)
  {
    DaysBeforeYear(t.year) + DaysBeforeMonth(t.year, t.month) + (t.day - 1)
  }

  const MicrosPerSecond: int := 1000000

  /** `datetime.max`, 9999-12-31 23:59:59.999999, in microseconds since
      0001-01-01 00:00:00. */
  const MaxMicros: int := 315537897599999999

  /** The Gregorian count of days before a year. */
  lemma {:induction false} DaysBeforeYearClosedForm(y: int)
    requires y >= 1
    ensures DaysBeforeYear(y) == 365 * (y - 1) + (y - 1) / 4 - (y - 1) / 100 + (y - 1) / 400
    decreases y
  {
    if y > 1 {
      DaysBeforeYearClosedForm(y - 1);
      LeapStep(y - 1);
    }
  }

  /** Stepping a year on adds one leap day exactly when the year is leap. */
  lemma {:induction false} LeapStep(x: int)
    requires x >= 1
    ensures DaysInYear(x) - 365
            == (x / 4 - (x - 1) / 4) - (x / 100 - (x - 1) / 100) + (x / 400 - (x - 1) / 400)
  {
    Step4(x);
    Step100(x);
    Step400(x);
    DivisorChain(x);
  }

  /** A multiple of 400 is a multiple of 100, and that of 4. */
  lemma {:induction false} DivisorChain(x: int)
    ensures x % 400 == 0 ==> x % 100 == 0
    ensures x % 100 == 0 ==> x % 4 == 0
  {
    if x % 400 == 0 {
      MultipleOf(x, 100, 4);
    }
    if x % 100 == 0 {
      MultipleOf(x, 4, 25);
    }
  }

  /** A multiple of `d * e` is a multiple of `d`. */
  lemma {:induction false} MultipleOf(x: int, d: int, e: int)
    requires d > 0 && e > 0 && x % (d * e) == 0
    ensures x % d == 0
  {
    var k := x / (d * e);
    assert x == (d * e) * k;
    assert x == d * (e * k);
  }


  /** How `x / 4` steps from `x - 1` to `x`. */
  lemma {:induction false} Step4(x: int)
    ensures x / 4 - (x - 1) / 4 == if x % 4 == 0 then 1 else 0
  {
  }

  /** How `x / 100` steps from `x - 1` to `x`. */
  lemma {:induction false} Step100(x: int)
    ensures x / 100 - (x - 1) / 100 == if x % 100 == 0 then 1 else 0
  {
  }

  /** How `x / 400` steps from `x - 1` to `x`. */
  lemma {:induction false} Step400(x: int)
    ensures x / 400 - (x - 1) / 400 == if x % 400 == 0 then 1 else 0
  {
  }

  /** Every renderable instant, with any microseconds, lies within
      `datetime`'s range. */
  lemma {:induction false} LatestInstant(t: DateTime, micro: int)
    requires Valid(t) && 0 <= micro < MicrosPerSecond
    ensures 0 <= ToSeconds(t) * MicrosPerSecond + micro <= MaxMicros
  {
    DaysBeforeYearClosedForm(10000);
    MonthsFitYear(t.year, t.month);
    if t.year < 10000 {
      DaysBeforeYearGrows(t.year, 10000);
    }
    DaysBeforeYearClosedForm(t.year);
    assert 0 <= DayNumber(t) && DayNumber(t) + 1 <= 3652059;
    assert 0 <= ToSeconds(t) < (DayNumber(t) + 1) * 86400;
    assert ToSeconds(t) <= 315537897599;
  }

  lemma {:induction false} DaysBeforeYearGrows(y1: int, y2: int)
    requires 1 <= y1 < y2
    ensures DaysBeforeYear(y1) + DaysInYear(y1) <= DaysBeforeYear(y2)
    decreases y2
  {
    if y1 + 1 < y2 {
      DaysBeforeYearGrows(y1, y2 - 1);
    }
  }

  lemma {:induction false} MonthsFitYear(y: int, m: int)
    requires 1 <= m <= 12
    ensures DaysBeforeMonth(y, m) + DaysInMonth(y, m) <= DaysInYear(y)
    ensures m < 12 ==> DaysBeforeMonth(y, m) + DaysInMonth(y, m) == DaysBeforeMonth(y, m + 1)
  {
  }

  lemma {:induction false} DaysBeforeMonthGrows(y: int, m1: int, m2: int)
    requires 1 <= m1 < m2 <= 12
    ensures DaysBeforeMonth(y, m1) + DaysInMonth(y, m1) <= DaysBeforeMonth(y, m2)
    decreases m2
  {
    MonthsFitYear(y, m1);
    if m1 + 1 < m2 {
      DaysBeforeMonthGrows(y, m1, m2 - 1);
      MonthsFitYear(y, m2 - 1);
    }
  }

  lemma {:induction false} DayNumberOrder(a: DateTime, b: DateTime)
    requires Valid(a) && Valid(b)
    requires a.year < b.year || (a.year == b.year && (a.month < b.month || (a.month == b.month && a.day < b.day)))
    ensures DayNumber(a) < DayNumber(b)
  {
    if a.year < b.year {
      MonthsFitYear(a.year, a.month);
      DaysBeforeYearGrows(a.year, b.year);
    } else if a.month < b.month {
      DaysBeforeMonthGrows(a.year, a.month, b.month);
    }
  }

  /** Calendar order is the order of elapsed seconds. */
  lemma {:induction false} ChronologicalOrder(a: DateTime, b: DateTime)
    requires Valid(a) && Valid(b)
    ensures Before(a, b) <==> ToSeconds(a) < ToSeconds(b)
  {
    if a.year < b.year || (a.year == b.year && (a.month < b.month || (a.month == b.month && a.day < b.day))) {
      DayNumberOrder(a, b);
      assert ToSeconds(a) < (DayNumber(a) + 1) * 86400;
      assert (DayNumber(a) + 1) * 86400 <= DayNumber(b) * 86400;
    } else if b.year < a.year || (a.year == b.year && (b.month < a.month || (a.month == b.month && b.day < a.day))) {
      DayNumberOrder(b, a);
      assert ToSeconds(b) < (DayNumber(b) + 1) * 86400;
      assert (DayNumber(b) + 1) * 86400 <= DayNumber(a) * 86400;
    } else {
      assert DayNumber(a) == DayNumber(b);
    }
  }

  /** Text order of rendered timestamps is chronological order. */
  lemma {:induction false} TextOrderIsChronological(a: DateTime, b: DateTime)
    requires Valid(a) && Valid(b)
    ensures LexLess(Format(a), Format(b)) <==> ToSeconds(a) < ToSeconds(b)
  {
    FormatOrder(a, b);
    ChronologicalOrder(a, b);
  }
}

=== FILE: uid_regex.dfy ===
/** The two regular expressions the engines use to pull a uid back out of a
    display label:

      * `re.search(r"\[(\d+)\]$", s)` — a bracketed run of digits at the end
        of the text (Python's `$` also matches just before a final newline);
      * `re.search(r"\[(\d+)\]", s)` — the leftmost bracketed run of digits.

    Both are specified through one span predicate, `IsMatch`, and the
    searches are proved sound, complete and leftmost against it. Digits are
    the ASCII digits.
 */
module UidRegex {
  import opened Wrappers
  import opened Text

  /** `s[start..end]` is `[`, one or more digits, `]`. */
  predicate IsMatch(s: string, start: int, end: int) {
    0 <= start && start + 3 <= end <= |s|
    && s[start] == '[' && s[end - 1] == ']'
    && AllDigits(s[start + 1..end - 1])
  }

  /** Where Python's `$` (without MULTILINE) can match. */
  predicate AtEnd(s: string, end: int) {
    end == |s| || (0 <= end == |s| - 1 && s[end] == '\n')
  }

  datatype Span = Span(start: nat, end: nat)

  /** A match is fixed by where it starts: the digits run up to the first
      non-digit, which must be the closing bracket. */
  lemma {:induction false} MatchUnique(s: string, p: int, q1: int, q2: int)
    requires IsMatch(s, p, q1) && IsMatch(s, p, q2)
    ensures q1 == q2
  {
  }

  /** The start of the maximal run of digits that ends at `j`. */
  function DigitRunStart(s: string, j: nat): (k: nat)
    requires j <= |s|
    ensures k <= j && AllDigits(s[k..j])
    ensures k == 0 || !IsDigit(s[k - 1])
    decreases j
  {
    if j > 0 && IsDigit(s[j - 1]) then
      var k := DigitRunStart(s, j - 1);
      assert s[k..j] == s[k..j - 1] + [s[j - 1]];
      k
    else j
  }

  /** The end of the maximal run of digits that starts at `j`. */
  function DigitRunEnd(s: string, j: nat): (k: nat)
    requires j <= |s|
    ensures j <= k <= |s| && AllDigits(s[j..k])
    ensures k == |s| || !IsDigit(s[k])
    decreases |s| - j
  {
    if j < |s| && IsDigit(s[j]) then
      var k := DigitRunEnd(s, j + 1);
      assert s[j..k] == [s[j]] + s[j + 1..k];
      k
    else j
  }

  lemma {:induction false} DigitsBefore(s: string, a: int, b: int, k: int)
    requires 0 <= a <= k < b <= |s| && AllDigits(s[a..b])
    ensures IsDigit(s[k])
  {
    assert s[a..b][k - a] == s[k];
  }

  /** `re.search(r"\[(\d+)\]$", s)`: the only span that can end where `$`
      matches. */
  function AnchoredSearch(s: string): (r: Option<Span>)
    ensures r.Some? ==> IsMatch(s, r.value.start, r.value.end) && AtEnd(s, r.value.end)
    ensures r.Some? ==> forall p, q :: IsMatch(s, p, q) && AtEnd(s, q) ==>
                          p == r.value.start && q == r.value.end
    ensures r.None? ==> forall p, q :: !(IsMatch(s, p, q) && AtEnd(s, q))
  {
    var e := if |s| > 0 && s[|s| - 1] == '\n' then |s| - 1 else |s|;
    if e < 3 || s[e - 1] != ']' then
      NoAnchoredMatch(s, e);
      None
    else
      var k := DigitRunStart(s, e - 1);
      if k == 0 || k == e - 1 || s[k - 1] != '[' then
        NoAnchoredMatch(s, e);
        None
      else
        assert IsMatch(s, k - 1, e);
        AnchoredOnly(s, e, k - 1);
        Some(Span(k - 1, e))
  }

  /** Every anchored match ends at `e` and starts one before the digit run. */
  lemma {:induction false} AnchoredShape(s: string, e: int, p: int, q: int)
    requires e == (if |s| > 0 && s[|s| - 1] == '\n' then |s| - 1 else |s|)
    requires IsMatch(s, p, q) && AtEnd(s, q)
    ensures q == e && p + 1 == DigitRunStart(s, e - 1)
  {
    var k := DigitRunStart(s, e - 1);
    if k > p + 1 {
      DigitsBefore(s, p + 1, q - 1, k - 1);
    } else if k < p + 1 {
      DigitsBefore(s, k, e - 1, p);
    }
  }

  lemma {:induction false} NoAnchoredMatch(s: string, e: int)
    requires e == (if |s| > 0 && s[|s| - 1] == '\n' then |s| - 1 else |s|)
    requires e < 3 || s[e - 1] != ']' || DigitRunStart(s, e - 1) == 0
          || DigitRunStart(s, e - 1) == e - 1 || s[DigitRunStart(s, e - 1) - 1] != '['
    ensures forall p, q :: !(IsMatch(s, p, q) && AtEnd(s, q))
  {
    forall p, q | IsMatch(s, p, q) && AtEnd(s, q)
      ensures false
    {
      AnchoredShape(s, e, p, q);
    }
  }

  lemma {:induction false} AnchoredOnly(s: string, e: int, p0: int)
    requires e == (if |s| > 0 && s[|s| - 1] == '\n' then |s| - 1 else |s|)
    requires e >= 1 && p0 + 1 == DigitRunStart(s, e - 1)
    ensures forall p, q :: IsMatch(s, p, q) && AtEnd(s, q) ==> p == p0 && q == e
  {
    forall p, q | IsMatch(s, p, q) && AtEnd(s, q)
      ensures p == p0 && q == e
    {
      AnchoredShape(s, e, p, q);
    }
  }

  /** The match starting at `p`, if there is one. */
  function MatchFrom(s: string, p: nat): (r: Option<nat>)
    requires p <= |s|
    ensures r.Some? ==> IsMatch(s, p, r.value)
    ensures r.None? ==> forall q :: !IsMatch(s, p, q)
  {
    if p < |s| && s[p] == '[' then
      var k := DigitRunEnd(s, p + 1);
      if k > p + 1 && k < |s| && s[k] == ']' then
        Some(k + 1)
      else
        assert forall q :: IsMatch(s, p, q) ==> q == k + 1 by {
          forall q | IsMatch(s, p, q) ensures q == k + 1 {
            if q - 1 < k {
              DigitsBefore(s, p + 1, k, q - 1);
            } else if q - 1 > k {
              DigitsBefore(s, p + 1, q - 1, k);
            }
          }
        }
        None
    else None
  }

  /** The leftmost match starting at `i` or later. */
  function SearchFrom(s: string, i: nat): (r: Option<Span>)
    requires i <= |s|
    ensures r.Some? ==> i <= r.value.start && IsMatch(s, r.value.start, r.value.end)
    ensures r.Some? ==> forall p, q :: i <= p && IsMatch(s, p, q) ==> r.value.start <= p
    ensures r.None? ==> forall p, q :: i <= p ==> !IsMatch(s, p, q)
    decreases |s| - i
  {
    if i == |s| then None
    else match MatchFrom(s, i)
      case Some(q) => Some(Span(i, q))
      case None => SearchFrom(s, i + 1)
  }

  /** `re.search(r"\[(\d+)\]", s)`: the leftmost match. */
  function FirstSearch(s: string): (r: Option<Span>)
    ensures r.Some? ==> IsMatch(s, r.value.start, r.value.end)
    ensures r.Some? ==> forall p, q :: IsMatch(s, p, q) ==> r.value.start <= p
    ensures r.None? ==> forall p, q :: !IsMatch(s, p, q)
  {
    SearchFrom(s, 0)
  }

  /** `int(m.group(1))` for a match span. */
  function GroupValue(s: string, m: Span): nat
    requires IsMatch(s, m.start, m.end)
  {
    DigitsValue(s[m.start + 1..m.end - 1])
  }

  /** The uid the anchored search yields, or `None` on a miss. */
  function AnchoredUid(s: string): (r: Option<nat>)
    ensures r.Some? <==> exists p, q :: IsMatch(s, p, q) && AtEnd(s, q)
  {
    match AnchoredSearch(s)
    case None => None
    case Some(m) => Some(GroupValue(s, m))
  }

  /** The uid the first-match search yields, or `None` on a miss. */
  function FirstUid(s: string): (r: Option<nat>)
    ensures r.Some? <==> exists p, q :: IsMatch(s, p, q)
  {
    match FirstSearch(s)
    case None => None
    case Some(m) => Some(GroupValue(s, m))
  }

  /** A predicate for "no `[digits]` anywhere in `s`". */
  predicate NoMatch(s: string) {
    FirstSearch(s).None?
  }

  /** The bracketed decimal rendering of a uid, as the labels end with. */
  function UidTag(uid: nat): (r: string)
    ensures IsMatch(r, 0, |r|) && GroupValue(r, Span(0, |r|)) == uid
  {
    var d := NatToDigits(uid);
    var r := "[" + d + "]";
    assert r[1..|r| - 1] == d;
    r
  }

  lemma {:induction false} ShiftMatch(x: string, y: string, p: int, q: int)
    requires 0 <= p
    ensures IsMatch(x + y, |x| + p, |x| + q) <==> IsMatch(y, p, q)
  {
    if 0 <= p && p + 3 <= q <= |y| {
      assert (x + y)[|x| + p + 1..|x| + q - 1] == y[p + 1..q - 1];
    }
  }

  /** A label ending in a uid tag yields that uid under the anchored search,
      whatever comes before the tag. */
  lemma {:induction false} AnchoredTag(x: string, uid: nat)
    ensures AnchoredUid(x + UidTag(uid)) == Some(uid)
  {
    var t := UidTag(uid);
    TagSpan(x, t);
    GroupShift(x, t);
  }

  /** A whole match keeps its group value behind any prefix. */
  lemma {:induction false} GroupShift(x: string, t: string)
    requires IsMatch(t, 0, |t|)
    ensures IsMatch(x + t, |x|, |x + t|)
    ensures GroupValue(x + t, Span(|x|, |x + t|)) == GroupValue(t, Span(0, |t|))
  {
    var s := x + t;
    ShiftMatch(x, t, 0, |t|);
    assert s[|x| + 1..|s| - 1] == t[1..|t| - 1];
  }

  /** The anchored search of a text ending in a whole match finds that
      match. */
  lemma {:induction false} TagSpan(x: string, t: string)
    requires IsMatch(t, 0, |t|)
    ensures AnchoredSearch(x + t) == Some(Span(|x|, |x + t|))
  {
    var s := x + t;
    ShiftMatch(x, t, 0, |t|);
    assert IsMatch(s, |x|, |s|) && AtEnd(s, |s|);
  }

  /** A match that starts before the end of `x` ends inside `x` when the
      character after `x` can neither extend the digits nor close them. */
  lemma {:induction false} MatchInPrefix(x: string, y: string, p: int, q: int)
    requires |y| > 0 && !IsDigit(y[0]) && y[0] != ']'
    requires IsMatch(x + y, p, q) && p < |x|
    ensures q <= |x| && IsMatch(x, p, q)
  {
    var s := x + y;
    if q > |x| {
      if |x| < q - 1 {
        DigitsBefore(s, p + 1, q - 1, |x|);
      }
    }
    assert s[p + 1..q - 1] == x[p + 1..q - 1];
  }

  /** Text without a match in front of a tag-like suffix does not change what
      the first-match search finds in the suffix. */
  lemma {:induction false} FirstSkipsPrefix(x: string, y: string)
    requires NoMatch(x)
    requires |y| > 0 && !IsDigit(y[0]) && y[0] != ']'
    ensures FirstUid(x + y) == FirstUid(y)
  {
    forall p, q | IsMatch(x + y, p, q)
      ensures |x| <= p
    {
      if p < |x| {
        MatchInPrefix(x, y, p, q);
      }
    }
    FirstShifted(x, y);
  }

  /** When no match of `x + y` starts inside `x`, the first match is the
      first match of `y`, moved along by `|x|`. */
  lemma {:induction false} FirstShifted(x: string, y: string)
    requires forall p, q :: IsMatch(x + y, p, q) ==> |x| <= p
    ensures FirstUid(x + y) == FirstUid(y)
  {
    var s := x + y;
    match FirstSearch(y)
    case None =>
      forall p, q | IsMatch(s, p, q) ensures false {
        ShiftMatch(x, y, p - |x|, q - |x|);
      }
    case Some(m) =>
      ShiftMatch(x, y, m.start, m.end);
      var n := FirstSearch(s).value;
      ShiftMatch(x, y, n.start - |x|, n.end - |x|);
      assert n.start == |x| + m.start;
      MatchUnique(s, n.start, n.end, |x| + m.end);
      assert s[n.start + 1..n.end - 1] == y[m.start + 1..m.end - 1];
  }

  /** A uid tag at the front is what the first-match search finds, whatever
      follows it. */
  lemma {:induction false} FirstTag(uid: nat, rest: string)
    ensures FirstUid(UidTag(uid) + rest) == Some(uid)
  {
    var t := UidTag(uid);
    var s := t + rest;
    assert s[..|t|] == t;
    assert IsMatch(s, 0, |t|) by {
      assert s[1..|t| - 1] == t[1..|t| - 1];
    }
    var m := FirstSearch(s).value;
    assert m.start == 0;
    MatchUnique(s, 0, m.end, |t|);
    assert s[1..|t| - 1] == t[1..|t| - 1];
  }
}

=== FILE: worker_engine.dfy ===
/** The worker photo engine: a cache of the picture files found in the
    worker folder and of the game's worker records, with a time-based
    freshness test.

    Unlike the three record engines, every step of its reset swallows its
    errors: a reset always leaves a freshly created log with one `created`
    row, and fills the two tables only when both the folder scan and the
    game's worker list are non-empty. The cache is ready when the newest log
    row is at most `photo_cache_max_age` hours old.
 */
module WorkerEngine {
  import opened Wrappers
  import opened Text
  import opened TextOrder
  import opened Timestamps
  import opened Records
  import opened Sequences
  import opened Filer
  import opened PhotoCache
  import opened PhotoNames
  import opened CacheStore

  // ---------------------------------------------------------------------
  // Folder scan
  // ---------------------------------------------------------------------

  const GifSuffix: string := ".gif"
  const PngSuffix: string := ".png"

  /** The include patterns of the worker folder scan. */
  const WorkerPatterns: seq<string> := ["*" + GifSuffix, "*" + PngSuffix]

  const WorkerFilters: FileFilters := FileFilters(WorkerPatterns, [], [], [])

  /** A picture the worker folder scan keeps: a `.gif` or `.png` file, in
      any letter case. */
  predicate IsWorkerPicture(name: string) {
    EndsWith(Lower(name), GifSuffix) || EndsWith(Lower(name), PngSuffix)
  }

  lemma {:induction false} LowerOfLowercase(s: string)
    requires forall k :: 0 <= k < |s| ==> !('A' <= s[k] <= 'Z')
    ensures Lower(s) == s
  {
  }

  /** The filter pipeline with the worker patterns keeps exactly the
      worker pictures. */
  lemma {:induction false} WorkerFilterMeaning(name: string)
    ensures Survives(name, WorkerFilters) <==> IsWorkerPicture(name)
  {
    WorkerPatternsMatch(name);
  }

  /** One of the two worker patterns matches exactly the worker pictures. */
  lemma {:induction false} WorkerPatternsMatch(name: string)
    ensures IncludedByPattern(name, WorkerPatterns) <==> IsWorkerPicture(name)
  {
    var low := Lower(name);
    var gif := "*" + GifSuffix;
    var png := "*" + PngSuffix;
    LowerOfLowercase(gif);
    LowerOfLowercase(png);
    assert '*' !in GifSuffix && '*' !in PngSuffix;
    GlobStarSuffix(GifSuffix, low);
    GlobStarSuffix(PngSuffix, low);
    assert WorkerPatterns[0] == gif && WorkerPatterns[1] == png;
    if IsWorkerPicture(name) {
      if EndsWith(low, GifSuffix) {
        assert GlobMatch(Lower(WorkerPatterns[0]), low);
      } else {
        assert GlobMatch(Lower(WorkerPatterns[1]), low);
      }
    }
  }


  /** `fetch_worker_photos_from_dir` over the names in the worker folder
      (`None` when the folder does not exist): the worker pictures, in
      listing order. */
  function ScanWorkerPhotos(listing: Option<seq<string>>): (r: Result<seq<string>>)
    ensures listing.None? <==> r == Err(FolderMissing)
    ensures r.Ok? ==> IsSubsequence(r.value, listing.value)
    ensures r.Ok? ==> forall k :: 0 <= k < |listing.value| ==>
                        (listing.value[k] in r.value <==> IsWorkerPicture(listing.value[k]))
  {
    var r := FetchFiles(listing, WorkerFilters);
    assert r.Ok? ==> forall k :: 0 <= k < |listing.value| ==>
                       (listing.value[k] in r.value <==> IsWorkerPicture(listing.value[k])) by {
      if r.Ok? {
        forall k | 0 <= k < |listing.value|
          ensures listing.value[k] in r.value <==> IsWorkerPicture(listing.value[k])
        {
          WorkerFilterMeaning(listing.value[k]);
        }
      }
    }
    r
  }

  /** `_fetch_worker_photo_lists`: the folder scan and the game's worker
      records, each of which must be non-empty; the folder is read first. */
  function FetchPhotoLists(listing: Option<seq<string>>, records: Result<seq<Row>>)
    : (r: Result<(seq<string>, seq<Row>)>)
    ensures r.Ok? <==> && ScanWorkerPhotos(listing).Ok? && |ScanWorkerPhotos(listing).value| > 0
                       && records.Ok? && |records.value| > 0
    ensures r.Ok? ==> r.value == (ScanWorkerPhotos(listing).value, records.value)
    ensures ScanWorkerPhotos(listing).Err? ==> r == Err(ScanWorkerPhotos(listing).fault)
    ensures ScanWorkerPhotos(listing) == Ok([]) ==> r == Err(EmptyList)
  {
    var files :- ScanWorkerPhotos(listing);
    if !PhotoListCheck(Some(files)) then Err(EmptyList)
    else
      var rows :- records;
      if !PhotoListCheck(Some(rows)) then Err(EmptyList)
      else Ok((files, rows))
  }

  // ---------------------------------------------------------------------
  // The cache tables
  // ---------------------------------------------------------------------

  /** Nothing outside the worker engine's three tables differs. */
  predicate OnlyWorkerTablesChange(s: Store, r: Store) {
    r.(workerLog := s.workerLog, localWorkers := s.localWorkers, gameWorkers := s.gameWorkers) == s
  }

  /** A new log on a store that differs from `s` only in the worker
      tables still differs only there. */
  lemma {:induction false} LogOnlyChanges(s: Store, t: Store, log: Option<seq<LogRow>>)
    requires OnlyWorkerTablesChange(s, t)
    ensures OnlyWorkerTablesChange(s, t.(workerLog := log))
  {
  }

  /** `_rebuild_worker_photo_cache`: the three tables dropped and created
      again, the log with one `created` row stamped `now`. */
  function Rebuild(s: Store, now: DateTime): (r: Store)
    requires Valid(now)
    ensures OnlyWorkerTablesChange(s, r)
    ensures r.workerLog == Some([Stamp(now, Created)])
    ensures r.localWorkers == Some([]) && r.gameWorkers == Some([])
  {
    s.(workerLog := Some([Stamp(now, Created)]), localWorkers := Some([]), gameWorkers := Some([]))
  }

  /** The local cache rows for a list of file names, each marked `new`. */
  function LocalRows(files: seq<string>): (r: seq<LocalWorkerRow>)
    ensures |r| == |files|
    ensures forall i :: 0 <= i < |files| ==> r[i].file == files[i] && r[i].status == NewStatus
  {
    seq(|files|, i requires 0 <= i < |files| => LocalWorkerRow(files[i], NewStatus))
  }

  /** `build_local_worker_photo_cache`: one `new` row per file name, in
      order, after the rows already there. With no file names nothing is
      inserted, so a missing table goes unnoticed. */
  function BuildLocal(s: Store, files: seq<string>): (r: Outcome<()>)
    ensures r.result.Ok? <==> |files| == 0 || s.localWorkers.Some?
    ensures r.result.Err? ==> r.result.fault == NoSuchTable && r.store == s
    ensures r.result.Ok? ==> r.store == s.(localWorkers := r.store.localWorkers)
    ensures r.result.Ok? && s.localWorkers.Some? ==>
              r.store.localWorkers == Some(s.localWorkers.value + LocalRows(files))
    ensures |files| == 0 ==> r.store == s
  {
    if |files| == 0 then
      assert s.localWorkers.Some? ==> s.localWorkers.value + LocalRows(files) == s.localWorkers.value;
      Outcome(s, Ok(()))
    else match s.localWorkers
      case None => Outcome(s, Err(NoSuchTable))
      case Some(rows) => Outcome(s.(localWorkers := Some(rows + LocalRows(files))), Ok(()))
  }

  /** One game cache row from a worker record of the game: its `uid`,
      `Name` and `Picture`, marked `new`. A record lacking one of them
      raises `KeyError`. */
  function GameRow(record: Row): (r: Result<GameWorkerRow>)
    ensures r.Ok? <==> "uid" in record && "Name" in record && "Picture" in record
    ensures r.Ok? ==> r.value == GameWorkerRow(record["uid"], record["Name"], record["Picture"], NewStatus)
    ensures r.Err? ==> r.fault == KeyNotFound
  {
    var uid :- Field(record, "uid");
    var name :- Field(record, "Name");
    var file :- Field(record, "Picture");
    Ok(GameWorkerRow(uid, name, file, NewStatus))
  }

  /** The loop of `_build_game_worker_photo_cache`: each record is
      converted and inserted under its uid, each insert committed on its
      own. The first record that lacks a field, or whose uid SQLite refuses,
      stops the loop with its fault; the rows inserted before it stay. */
  function InsertWorkers(rows: GameWorkerTable, records: seq<Row>): (r: (GameWorkerTable, Option<Fault>))
    ensures |rows| <= |r.0| <= |rows| + |records|
    ensures r.1.None? <==> |r.0| == |rows| + |records|
    ensures r.1.Some? ==> r.1.value == KeyNotFound || r.1.value == ConstraintFailed
    decreases |records|
  {
    if |records| == 0 then (rows, None)
    else
      match GameRow(records[0])
      case Err(f) => (rows, Some(f))
      case Ok(row) =>
        match InsertByRowid(rows, row)
        case Err(f) => (rows, Some(f))
        case Ok(more) =>
          assert |more| == |rows| + 1;
          InsertWorkers(more, records[1..])
  }

  /** `_build_game_worker_photo_cache`: the records inserted one by one
      under their uids, after the rows already there. A missing table makes
      the first insert raise, once the record's fields have been read. */
  function BuildGame(s: Store, records: seq<Row>): (r: Outcome<()>)
    ensures r.store == s.(gameWorkers := r.store.gameWorkers)
    ensures s.gameWorkers.None? ==> r.store == s && (r.result.Ok? <==> |records| == 0)
    ensures s.gameWorkers.Some? ==>
              && r.store.gameWorkers == Some(InsertWorkers(s.gameWorkers.value, records).0)
              && (r.result.Ok? <==> InsertWorkers(s.gameWorkers.value, records).1.None?)
  {
    match s.gameWorkers
    case None =>
      if |records| == 0 then Outcome(s, Ok(()))
      else Outcome(s, Err(match GameRow(records[0]) case Err(f) => f case Ok(_) => NoSuchTable))
    case Some(rows) =>
      var (table, fault) := InsertWorkers(rows, records);
      Outcome(s.(gameWorkers := Some(table)), if fault.None? then Ok(()) else Err(fault.value))
  }

  /** Every record has an integer uid. */
  predicate IntUids(records: seq<Row>) {
    forall i :: 0 <= i < |records| ==> "uid" in records[i] && records[i]["uid"].IntCell?
  }

  /** The records' uids are integers, no two alike. */
  predicate DistinctUids(records: seq<Row>) {
    && IntUids(records)
    && forall i, j :: 0 <= i < j < |records| ==> records[i]["uid"] != records[j]["uid"]
  }

  /** The records' uids are integers in strictly ascending order. */
  predicate AscendingUids(records: seq<Row>) {
    && IntUids(records)
    && forall i, j :: 0 <= i < j < |records| ==> records[i]["uid"].n < records[j]["uid"].n
  }

  /** Every record converts to a game cache row. */
  predicate Convertible(records: seq<Row>) {
    forall i :: 0 <= i < |records| ==> GameRow(records[i]).Ok?
  }

  /** A row whose uid is above every stored uid goes last. */
  lemma {:induction false} PlaceAfter(rows: GameWorkerTable, row: GameWorkerRow)
    requires row.uid.IntCell?
    requires forall i :: 0 <= i < |rows| ==> rows[i].uid.n < row.uid.n
    ensures forall i :: 0 <= i < |rows| ==> rows[i].uid != row.uid
    ensures Place(rows, row) == rows + [row]
  {
    assert Slot(rows, row.uid.n) == |rows|;
    assert rows[..|rows|] == rows;
  }


  /** Records whose uids ascend past every stored uid are appended in
      read order. */
  lemma {:induction false} InsertAscending(rows: GameWorkerTable, records: seq<Row>)
    requires Convertible(records) && AscendingUids(records)
    requires forall k, i :: 0 <= k < |rows| && 0 <= i < |records| ==> rows[k].uid.n < records[i]["uid"].n
    ensures InsertWorkers(rows, records) == (rows + FillRows(records, GameRow).0, None)
    decreases |records|
  {
    if |records| == 0 {
      assert rows + [] == rows;
    } else {
      var row := GameRow(records[0]).value;
      PlaceAfter(rows, row);
      var more: GameWorkerTable := rows + [row];
      assert InsertByRowid(rows, row) == Ok(more);
      var tail := records[1..];
      assert forall i :: 0 <= i < |tail| ==> tail[i] == records[i + 1];
      InsertAscending(more, tail);
      assert FillRows(records, GameRow).0 == [row] + FillRows(tail, GameRow).0;
      Reassoc(rows, [row], FillRows(tail, GameRow).0);
    }
  }

  lemma {:induction false} Reassoc<T>(a: seq<T>, b: seq<T>, c: seq<T>)
    ensures (a + b) + c == a + (b + c)
  {
  }

  /** No stored row has the uid. */
  predicate UidAbsent(rows: seq<GameWorkerRow>, uid: Cell) {
    forall k :: 0 <= k < |rows| ==> rows[k].uid != uid
  }

  /** Inserting a row under a new integer uid adds exactly that row, and
      leaves every other uid as absent as it was. */
  lemma {:induction false} InsertNew(rows: GameWorkerTable, row: GameWorkerRow)
    requires row.uid.IntCell? && UidAbsent(rows, row.uid)
    ensures InsertByRowid(rows, row).Ok?
    ensures multiset(InsertByRowid(rows, row).value) == multiset(rows) + multiset{row}
    ensures forall u :: UidAbsent(rows, u) && u != row.uid ==> UidAbsent(InsertByRowid(rows, row).value, u)
  {
    var more := InsertByRowid(rows, row).value;
    var p :| 0 <= p <= |rows| && more == rows[..p] + [row] + rows[p..];
    Splice(rows, row, p);
  }

  /** After the first record's row is stored, the remaining records still
      convert, still have distinct uids, and none of those is stored yet. */
  lemma {:induction false} DistinctTail(rows: seq<GameWorkerRow>, more: seq<GameWorkerRow>, records: seq<Row>)
    requires |records| > 0 && Convertible(records) && DistinctUids(records)
    requires forall i :: 0 <= i < |records| ==> UidAbsent(rows, records[i]["uid"])
    requires forall u :: UidAbsent(rows, u) && u != records[0]["uid"] ==> UidAbsent(more, u)
    ensures Convertible(records[1..]) && DistinctUids(records[1..])
    ensures forall i :: 0 <= i < |records| - 1 ==> UidAbsent(more, records[1..][i]["uid"])
  {
    var tail := records[1..];
    assert forall i :: 0 <= i < |tail| ==> tail[i] == records[i + 1];
  }

  /** Records with distinct integer uids, none of them stored yet, are all
      inserted: the table then holds the stored rows and one row per record,
      each exactly once. */
  lemma {:induction false} InsertDistinct(rows: GameWorkerTable, records: seq<Row>)
    requires Convertible(records) && DistinctUids(records)
    requires forall i :: 0 <= i < |records| ==> UidAbsent(rows, records[i]["uid"])
    ensures InsertWorkers(rows, records).1.None?
    ensures multiset(InsertWorkers(rows, records).0) == multiset(rows) + multiset(FillRows(records, GameRow).0)
    decreases |records|
  {
    if |records| > 0 {
      var row := GameRow(records[0]).value;
      InsertNew(rows, row);
      var more := InsertByRowid(rows, row).value;
      var tail := records[1..];
      assert InsertWorkers(rows, records) == InsertWorkers(more, tail);
      DistinctTail(rows, more, records);
      InsertDistinct(more, tail);
      assert FillRows(records, GameRow).0 == [row] + FillRows(tail, GameRow).0;
    }
  }

  /** A uid read twice stops the build at the second record: only the
      first is kept, and the insert's `IntegrityError` is raised. */
  lemma {:induction false} DuplicateUidStops(a: Row, b: Row)
    requires GameRow(a).Ok? && GameRow(b).Ok?
    requires a["uid"] == b["uid"] && a["uid"].IntCell?
    ensures InsertWorkers([], [a, b]) == ([GameRow(a).value], Some(ConstraintFailed))
  {
    var row := GameRow(a).value;
    var empty: GameWorkerTable := [];
    assert Place(empty, row) == [row];
    assert InsertByRowid([], row) == Ok([row]);
    assert [a, b][1..] == [b];
    var one: GameWorkerTable := [row];
    assert InsertByRowid(one, GameRow(b).value) == Err(ConstraintFailed) by {
      assert one[0].uid == GameRow(b).value.uid;
    }
    assert [b][1..] == [];
  }

  /** The two builds on freshly rebuilt, empty tables: the local table
      gets every file name, the game table the records inserted by uid up
      to the first that raises. */
  function Populate(built: Store, files: seq<string>, rows: seq<Row>): (r: Store)
    requires built.localWorkers == Some([]) && built.gameWorkers == Some([])
    ensures r == built.(localWorkers := Some(LocalRows(files)), gameWorkers := Some(InsertWorkers([], rows).0))
  {
    var local := BuildLocal(built, files);
    assert [] + LocalRows(files) == LocalRows(files);
    assert local.store == built.(localWorkers := Some(LocalRows(files)));
    var game := BuildGame(local.store, rows);
    game.store
  }

  /** `_reset_worker_photo_cache`: rebuild, then fill both tables from the
      folder scan and the game's worker records. Every error is swallowed:
      empty lists leave the rebuilt tables empty, and a worker record that
      lacks a field or repeats a uid stops the game cache at the records
      before it. */
  function Reset(s: Store, listing: Option<seq<string>>, records: Result<seq<Row>>, now: DateTime): (r: Store)
    requires Valid(now)
    ensures OnlyWorkerTablesChange(s, r)
    ensures r.workerLog == Some([Stamp(now, Created)])
    ensures FetchPhotoLists(listing, records).Err? ==> r.localWorkers == Some([]) && r.gameWorkers == Some([])
    ensures FetchPhotoLists(listing, records).Ok? ==>
              && r.localWorkers == Some(LocalRows(FetchPhotoLists(listing, records).value.0))
              && r.gameWorkers == Some(InsertWorkers([], FetchPhotoLists(listing, records).value.1).0)
  {
    var built := Rebuild(s, now);
    var lists := FetchPhotoLists(listing, records);
    if lists.Err? then built else Populate(built, lists.value.0, lists.value.1)
  }

  // ---------------------------------------------------------------------
  // Freshness
  // ---------------------------------------------------------------------

  /** The timestamp `ORDER BY timestamp DESC LIMIT 1` returns: the greatest
      log timestamp in TEXT order. */
  function Newest(log: seq<LogRow>): (r: string)
    requires |log| > 0
    ensures exists i :: 0 <= i < |log| && log[i].timestamp == r
    ensures forall i :: 0 <= i < |log| ==> !LexLess(r, log[i].timestamp)
    decreases |log|
  {
    if |log| == 1 then
      LexIrreflexive(log[0].timestamp);
      log[0].timestamp
    else
      var m := Newest(log[1..]);
      var head := log[0].timestamp;
      assert forall i :: 1 <= i < |log| ==> log[1..][i - 1] == log[i];
      if LexLess(head, m) then
        LexAsymmetric(head, m);
        m
      else
        assert forall i :: 0 <= i < |log| ==> !LexLess(head, log[i].timestamp) by {
          LexIrreflexive(head);
          LexTotal(head, m);
          forall i | 1 <= i < |log| ensures !LexLess(head, log[i].timestamp) {
            if LexLess(head, log[i].timestamp) && LexLess(m, head) {
              LexTransitive(m, head, log[i].timestamp);
            }
          }
        }
        head
  }

  /** `now - timedelta(hours=hours)` in microseconds since 0001-01-01, or
      `None` for the `OverflowError` raised when it leaves `datetime`'s
      range. */
  function Threshold(now: DateTime, micro: int, hours: int): (r: Option<int>)
    requires Valid(now) && 0 <= micro < MicrosPerSecond
    ensures r.Some? ==> r.value == (ToSeconds(now) - hours * 3600) * MicrosPerSecond + micro
    ensures hours >= 0 ==> (r.Some? <==> hours * 3600 <= ToSeconds(now))
  {
    LatestInstant(now, micro);
    var v := (ToSeconds(now) - hours * 3600) * MicrosPerSecond + micro;
    if 0 <= v <= MaxMicros then Some(v) else None
  }

  /** `_verify_worker_photo_cache_is_ready` at the instant `now` plus
      `micro` microseconds. Any failure reads as not ready: a missing or
      empty log, a missing or non-integer `photo_cache_max_age`, an
      unparseable newest timestamp, or a threshold outside `datetime`'s
      range. Otherwise the newest row must not be older than the
      threshold. */
  function IsFresh(log: Option<seq<LogRow>>, maxAge: Option<string>, now: DateTime, micro: int): (r: bool)
    requires Valid(now) && 0 <= micro < MicrosPerSecond
    ensures log.None? || log == Some([]) ==> !r
    ensures maxAge.None? || ParseInt(maxAge.value).None? ==> !r
    ensures r ==> Parse(Newest(log.value)).Some?
  {
    match log
    case None => false
    case Some(rows) =>
      if |rows| == 0 then false
      else match maxAge
        case None => false
        case Some(text) =>
          match ParseInt(text)
          case None => false
          case Some(hours) =>
            match Parse(Newest(rows))
            case None => false
            case Some(last) =>
              match Threshold(now, micro, hours)
              case None => false
              case Some(t) => !(ToSeconds(last) * MicrosPerSecond < t)
  }

  /** In whole seconds: the cache is fresh when its newest row is at most
      `max_age` hours old, the boundary included only while the clock sits
      exactly on a second. */
  lemma {:induction false} FreshByAge(rows: seq<LogRow>, maxAge: string, now: DateTime, micro: int, hours: int, last: DateTime)
    requires Valid(now) && 0 <= micro < MicrosPerSecond
    requires |rows| > 0 && ParseInt(maxAge) == Some(hours) && Parse(Newest(rows)) == Some(last)
    requires 0 <= hours && hours * 3600 <= ToSeconds(now)
    ensures micro == 0 ==>
              (IsFresh(Some(rows), Some(maxAge), now, micro) <==> ToSeconds(now) - ToSeconds(last) <= hours * 3600)
    ensures micro > 0 ==>
              (IsFresh(Some(rows), Some(maxAge), now, micro) <==> ToSeconds(now) - ToSeconds(last) < hours * 3600)
  {
    var t := Threshold(now, micro, hours);
    assert IsFresh(Some(rows), Some(maxAge), now, micro) == !(ToSeconds(last) * MicrosPerSecond < t.value);
    ScaledCompare(ToSeconds(last) - ToSeconds(now) + hours * 3600, micro);
  }

  /** A whole number of seconds, scaled to microseconds, reaches a
      sub-second offset exactly when it is positive, or zero for a zero
      offset. */
  lemma {:induction false} ScaledCompare(d: int, micro: int)
    requires 0 <= micro < MicrosPerSecond
    ensures d * MicrosPerSecond >= micro <==> d >= (if micro == 0 then 0 else 1)
  {
    if d >= 1 {
      assert d * MicrosPerSecond >= MicrosPerSecond;
    } else if d <= -1 {
      assert d * MicrosPerSecond <= -MicrosPerSecond;
    }
  }

  /** A newest row stamped at or after `now` keeps the cache fresh. */
  lemma {:induction false} FutureStampIsFresh(rows: seq<LogRow>, maxAge: string, now: DateTime, micro: int, hours: int, last: DateTime)
    requires Valid(now) && 0 <= micro < MicrosPerSecond
    requires |rows| > 0 && ParseInt(maxAge) == Some(hours) && Parse(Newest(rows)) == Some(last)
    requires 1 <= hours && hours * 3600 <= ToSeconds(now)
    requires ToSeconds(now) <= ToSeconds(last)
    ensures IsFresh(Some(rows), Some(maxAge), now, micro)
  {
    FreshByAge(rows, maxAge, now, micro, hours, last);
  }

  /** When every log row holds a rendered timestamp, the row picked by the
      TEXT ordering carries the latest of the instants. */
  lemma {:induction false} NewestIsLatest(rows: seq<LogRow>, stamps: seq<DateTime>)
    requires |rows| > 0 && |stamps| == |rows|
    requires forall i :: 0 <= i < |rows| ==> Valid(stamps[i]) && rows[i].timestamp == Format(stamps[i])
    ensures Parse(Newest(rows)).Some?
    ensures exists i :: 0 <= i < |rows| && Parse(Newest(rows)) == Some(stamps[i])
    ensures forall i :: 0 <= i < |rows| ==> ToSeconds(stamps[i]) <= ToSeconds(Parse(Newest(rows)).value)
  {
    var n := Newest(rows);
    var j :| 0 <= j < |rows| && rows[j].timestamp == n;
    assert Parse(n) == Some(stamps[j]) by {
      ParseFormat(stamps[j]);
    }
    forall i | 0 <= i < |rows| ensures ToSeconds(stamps[i]) <= ToSeconds(stamps[j]) {
      assert !LexLess(Format(stamps[j]), Format(stamps[i]));
      TextOrderIsChronological(stamps[j], stamps[i]);
    }
  }

  /** A log whose only rows are stamped `now` is fresh at `now` for any
      positive whole number of hours the clock can go back. */
  lemma {:induction false} StampedNowIsFresh(rows: seq<LogRow>, maxAge: string, now: DateTime, micro: int, hours: int)
    requires Valid(now) && 0 <= micro < MicrosPerSecond
    requires |rows| > 0 && forall i :: 0 <= i < |rows| ==> rows[i].timestamp == Format(now)
    requires ParseInt(maxAge) == Some(hours) && 1 <= hours && hours * 3600 <= ToSeconds(now)
    ensures IsFresh(Some(rows), Some(maxAge), now, micro)
  {
    NewestIsLatest(rows, seq(|rows|, i => now));
    ParseFormat(now);
    FreshByAge(rows, maxAge, now, micro, hours, now);
  }

  // ---------------------------------------------------------------------
  // Check, init, refresh
  // ---------------------------------------------------------------------

  /** `_worker_photo_cache_check`: ready unless the check is skipped or the
      cache is not fresh. */
  function Check(skip: bool, s: Store, maxAge: Option<string>, now: DateTime, micro: int): (r: bool)
    requires Valid(now) && 0 <= micro < MicrosPerSecond
    ensures r ==> !skip && s.workerLog.Some? && |s.workerLog.value| > 0
    ensures r <==> !skip && IsFresh(s.workerLog, maxAge, now, micro)
  {
    !skip && IsFresh(s.workerLog, maxAge, now, micro)
  }

  /** `worker_photo_cache_init`: reset exactly when the check fails; it
      always answers `True`. */
  function Init(s: Store, skip: bool, maxAge: Option<string>, now: DateTime, micro: int,
                listing: Option<seq<string>>, records: Result<seq<Row>>): (r: (Store, bool))
    requires Valid(now) && 0 <= micro < MicrosPerSecond
    ensures r.1
    ensures Check(skip, s, maxAge, now, micro) ==> r.0 == s
    ensures !Check(skip, s, maxAge, now, micro) ==> r.0 == Reset(s, listing, records, now)
  {
    if Check(skip, s, maxAge, now, micro) then (s, true) else (Reset(s, listing, records, now), true)
  }

  /** After `Init` the cache passes an unskipped check at the same instant,
      whatever state it was in, for any positive max age the clock can go
      back. */
  lemma {:induction false} InitMakesReady(s: Store, skip: bool, maxAge: string, now: DateTime, micro: int,
                       listing: Option<seq<string>>, records: Result<seq<Row>>, hours: int)
    requires Valid(now) && 0 <= micro < MicrosPerSecond
    requires ParseInt(maxAge) == Some(hours) && 1 <= hours && hours * 3600 <= ToSeconds(now)
    ensures Check(false, Init(s, skip, Some(maxAge), now, micro, listing, records).0, Some(maxAge), now, micro)
  {
    if !Check(skip, s, Some(maxAge), now, micro) {
      var r := Reset(s, listing, records, now);
      StampedNowIsFresh(r.workerLog.value, maxAge, now, micro, hours);
    }
  }

  /** `refresh_worker_photo_cache`: the folder is scanned first, and a
      missing folder or an empty scan raises before the cache is touched.
      Otherwise the reset cannot raise, so its fallback is never taken, and
      a `refreshed` row follows the `created` one. */
  function Refresh(s: Store, listing: Option<seq<string>>, records: Result<seq<Row>>, now: DateTime): (r: Outcome<()>)
    requires Valid(now)
    ensures r.result.Ok? <==> ScanWorkerPhotos(listing).Ok? && |ScanWorkerPhotos(listing).value| > 0
    ensures r.result.Err? ==> r.store == s
    ensures ScanWorkerPhotos(listing) == Ok([]) ==> r.result == Err(EmptyList)
    ensures r.result.Ok? ==> OnlyWorkerTablesChange(s, r.store)
    ensures r.result.Ok? ==> r.store.workerLog == Some([Stamp(now, Created), Stamp(now, Refreshed)])
    ensures r.result.Ok? ==> && r.store.localWorkers == Reset(s, listing, records, now).localWorkers
                             && r.store.gameWorkers == Reset(s, listing, records, now).gameWorkers
  {
    match ScanWorkerPhotos(listing)
    case Err(f) => Outcome(s, Err(f))
    case Ok(files) =>
      if |files| == 0 then Outcome(s, Err(EmptyList))
      else
        var reset := Reset(s, listing, records, now);
        var created := reset.workerLog;
        assert created == Some([Stamp(now, Created)]);
        var log := Append(created, Stamp(now, Refreshed));
        assert log.value == [Stamp(now, Created), Stamp(now, Refreshed)];
        LogOnlyChanges(s, reset, log);
        Outcome(reset.(workerLog := log), Ok(()))
  }

  /** The log a refresh writes is fresh at the instant it was written. */
  lemma {:induction false} RefreshedLogIsFresh(st: Store, now: DateTime, micro: int, maxAge: string, hours: int)
    requires Valid(now) && 0 <= micro < MicrosPerSecond
    requires st.workerLog == Some([Stamp(now, Created), Stamp(now, Refreshed)])
    requires ParseInt(maxAge) == Some(hours) && 1 <= hours && hours * 3600 <= ToSeconds(now)
    ensures Check(false, st, Some(maxAge), now, micro)
  {
    var log := st.workerLog.value;
    assert forall i :: 0 <= i < |log| ==> log[i].timestamp == Format(now);
    StampedNowIsFresh(log, maxAge, now, micro, hours);
  }

  /** A refresh never logs a partial refresh, and leaves the cache fresh
      at the same instant. */
  lemma {:induction false} RefreshNeverPartial(s: Store, listing: Option<seq<string>>, records: Result<seq<Row>>,
                            now: DateTime, micro: int, maxAge: string, hours: int)
    requires Valid(now) && 0 <= micro < MicrosPerSecond
    requires Refresh(s, listing, records, now).result.Ok?
    requires ParseInt(maxAge) == Some(hours) && 1 <= hours && hours * 3600 <= ToSeconds(now)
    ensures var log := Refresh(s, listing, records, now).store.workerLog.value;
            forall i :: 0 <= i < |log| ==> log[i].status != PartialRefresh
    ensures Check(false, Refresh(s, listing, records, now).store, Some(maxAge), now, micro)
  {
    RefreshedLogIsFresh(Refresh(s, listing, records, now).store, now, micro, maxAge, hours);
  }

  // ---------------------------------------------------------------------
  // Reading and updating the cache
  // ---------------------------------------------------------------------

  /** `fetch_worker_photo_cache_lists`: the game cache rows, then the local
      ones; a missing or empty table raises, the game table first. */
  function FetchCacheLists(s: Store): (r: Result<(seq<GameWorkerRow>, seq<LocalWorkerRow>)>)
    ensures r.Ok? <==> ReadAll(s.gameWorkers).Ok? && ReadAll(s.localWorkers).Ok?
    ensures r.Ok? ==> r.value == (s.gameWorkers.value, s.localWorkers.value)
    ensures ReadAll(s.gameWorkers).Err? ==> r == Err(ReadAll(s.gameWorkers).fault)
    ensures ReadAll(s.gameWorkers).Ok? && ReadAll(s.localWorkers).Err? ==> r == Err(ReadAll(s.localWorkers).fault)
  {
    var game :- ReadAll(s.gameWorkers);
    var local :- ReadAll(s.localWorkers);
    Ok((game, local))
  }

  /** A successful refresh leaves the game cache as the records inserted
      into an empty table, and the local cache one `new` row per picture. */
  lemma {:induction false} RefreshTables(s: Store, listing: Option<seq<string>>, records: Result<seq<Row>>, now: DateTime)
    requires Valid(now)
    requires Refresh(s, listing, records, now).result.Ok?
    requires records.Ok? && |records.value| > 0
    ensures var st := Refresh(s, listing, records, now).store;
            && st.gameWorkers == Some(InsertWorkers([], records.value).0)
            && st.localWorkers == Some(LocalRows(ScanWorkerPhotos(listing).value))
  {
    assert FetchPhotoLists(listing, records).Ok?;
  }

  /** After a successful refresh the local list is the worker pictures of
      the folder, one `new` row each, in order. When the worker records all
      convert and their uids are distinct integers, the game list holds one
      row per record, each exactly once; when the uids also ascend, it is
      the records' rows in the order they were read. */
  lemma {:induction false} RefreshThenLists(s: Store, listing: Option<seq<string>>, records: Result<seq<Row>>, now: DateTime)
    requires Valid(now)
    requires Refresh(s, listing, records, now).result.Ok?
    requires records.Ok? && |records.value| > 0
    requires Convertible(records.value)
    ensures Refresh(s, listing, records, now).store.localWorkers == Some(LocalRows(ScanWorkerPhotos(listing).value))
    ensures DistinctUids(records.value) ==>
              var lists := FetchCacheLists(Refresh(s, listing, records, now).store);
              && lists.Ok?
              && |lists.value.0| == |records.value|
              && multiset(lists.value.0) == multiset(FillRows(records.value, GameRow).0)
              && lists.value.1 == LocalRows(ScanWorkerPhotos(listing).value)
    ensures AscendingUids(records.value) ==>
              var lists := FetchCacheLists(Refresh(s, listing, records, now).store);
              && lists.Ok?
              && |lists.value.0| == |records.value|
              && (forall i :: 0 <= i < |records.value| ==> Ok(lists.value.0[i]) == GameRow(records.value[i]))
  {
    RefreshTables(s, listing, records, now);
    var st := Refresh(s, listing, records, now).store;
    if DistinctUids(records.value) {
      DistinctLists(st, records.value);
    }
    if AscendingUids(records.value) {
      AscendingLists(st, records.value);
    }
  }

  /** The cache lists of a store whose game table is records with distinct
      integer uids inserted into an empty table. */
  lemma {:induction false} DistinctLists(st: Store, rs: seq<Row>)
    requires Convertible(rs) && DistinctUids(rs) && |rs| > 0
    requires st.gameWorkers == Some(InsertWorkers([], rs).0)
    requires st.localWorkers.Some? && |st.localWorkers.value| > 0
    ensures var lists := FetchCacheLists(st);
            && lists.Ok?
            && |lists.value.0| == |rs|
            && multiset(lists.value.0) == multiset(FillRows(rs, GameRow).0)
            && lists.value.1 == st.localWorkers.value
  {
    var fill := FillRows(rs, GameRow);
    assert |fill.0| == |rs|;
    var empty: GameWorkerTable := [];
    InsertDistinct(empty, rs);
    assert |multiset(InsertWorkers(empty, rs).0)| == |fill.0|;
  }

  /** The cache lists of a store whose game table is records with ascending
      integer uids inserted into an empty table. */
  lemma {:induction false} AscendingLists(st: Store, rs: seq<Row>)
    requires Convertible(rs) && AscendingUids(rs) && |rs| > 0
    requires st.gameWorkers == Some(InsertWorkers([], rs).0)
    requires st.localWorkers.Some? && |st.localWorkers.value| > 0
    ensures var lists := FetchCacheLists(st);
            && lists.Ok?
            && |lists.value.0| == |rs|
            && (forall i :: 0 <= i < |rs| ==> Ok(lists.value.0[i]) == GameRow(rs[i]))
  {
    var fill := FillRows(rs, GameRow);
    assert |fill.0| == |rs|;
    var empty: GameWorkerTable := [];
    InsertAscending(empty, rs);
    assert InsertWorkers(empty, rs).0 == fill.0;
  }

  /** The rows of the game cache holding a worker name. */
  function NameIs(name: string): GameWorkerRow -> bool {
    (row: GameWorkerRow) => row.name == TextCell(name)
  }

  /** The game cache row with its picture file replaced. */
  function SetFile(file: string): GameWorkerRow -> GameWorkerRow {
    (row: GameWorkerRow) => row.(file := TextCell(file))
  }

  /** Rewriting file names keeps every uid where it was, so the table
      stays in rowid order. */
  lemma {:induction false} RenameKeepsRowids(rows: GameWorkerTable, name: string, file: string)
    ensures RowidOrdered(UpdateWhere(rows, NameIs(name), SetFile(file)))
  {
    var after := UpdateWhere(rows, NameIs(name), SetFile(file));
    assert forall i :: 0 <= i < |rows| ==> after[i].uid == rows[i].uid;
  }

  /** No game cache row holds the worker name. */
  predicate NoRowNamed(rows: seq<GameWorkerRow>, name: string) {
    forall i :: 0 <= i < |rows| ==> rows[i].name != TextCell(name)
  }

  /** `fetch_worker_filename_from_cache`: the picture file of the first
      cache row with the worker's name, or `""` when there is none; a
      missing table raises. */
  function FetchFilename(s: Store, name: string): (r: Result<Cell>)
    ensures s.gameWorkers.None? <==> r == Err(NoSuchTable)
    ensures s.gameWorkers.Some? && NoRowNamed(s.gameWorkers.value, name) ==> r == Ok(TextCell(""))
    ensures r.Ok? && r.value != TextCell("") ==>
              exists i :: 0 <= i < |s.gameWorkers.value| && s.gameWorkers.value[i].name == TextCell(name)
                          && s.gameWorkers.value[i].file == r.value
    ensures s.gameWorkers.Some? && !NoRowNamed(s.gameWorkers.value, name) ==>
              exists i :: && 0 <= i < |s.gameWorkers.value| && s.gameWorkers.value[i].name == TextCell(name)
                          && r == Ok(s.gameWorkers.value[i].file)
                          && NoRowNamed(s.gameWorkers.value[..i], name)
  {
    match s.gameWorkers
    case None => Err(NoSuchTable)
    case Some(rows) =>
      match FirstWhere(rows, NameIs(name))
      case None => Ok(TextCell(""))
      case Some(row) => Ok(row.file)
  }

  /** Two records read with the higher uid first are stored the other way
      round. */
  lemma {:induction false} DescendingPairSwaps(a: Row, b: Row)
    requires GameRow(a).Ok? && GameRow(b).Ok?
    requires a["uid"].IntCell? && b["uid"].IntCell? && b["uid"].n < a["uid"].n
    ensures InsertWorkers([], [a, b]) == ([GameRow(b).value, GameRow(a).value], None)
  {
    var ra, rb := GameRow(a).value, GameRow(b).value;
    var empty: GameWorkerTable := [];
    assert Place(empty, ra) == [ra];
    var one: GameWorkerTable := [ra];
    assert Place(one, rb) == [rb, ra] by {
      assert Slot(one, rb.uid.n) == 0;
      assert one[..0] + [rb] + one[0..] == [rb, ra];
    }
    var two: GameWorkerTable := [rb, ra];
    InsertFirst(empty, [a, b], one);
    InsertFirst(one, [b], two);
    assert [a, b][1..] == [b] && [b][1..] == [];
  }

  /** A first record that is stored leaves the rest of the records to the
      table it gives. */
  lemma {:induction false} InsertFirst(rows: GameWorkerTable, records: seq<Row>, more: GameWorkerTable)
    requires |records| > 0 && GameRow(records[0]).Ok?
    requires InsertByRowid(rows, GameRow(records[0]).value) == Ok(more)
    ensures InsertWorkers(rows, records) == InsertWorkers(more, records[1..])
  {
  }


  /** Two workers with the same name read with the higher uid first: the
      table keeps them in uid order, so reading the name finds the picture
      of the lower uid, not of the record read first. */
  lemma {:induction false} LowerUidAnswersFetch(s: Store, a: Row, b: Row, name: string)
    requires GameRow(a).Ok? && GameRow(b).Ok?
    requires a["uid"].IntCell? && b["uid"].IntCell? && b["uid"].n < a["uid"].n
    requires a["Name"] == TextCell(name) && b["Name"] == TextCell(name)
    requires s.gameWorkers == Some(InsertWorkers([], [a, b]).0)
    ensures FetchFilename(s, name) == Ok(b["Picture"])
  {
    DescendingPairSwaps(a, b);
    assert s.gameWorkers.value[0] == GameRow(b).value;
  }

  /** `update_worker_photo_filename`: the new name is normalised (a
      missing default extension raises before any write), every cache row
      with the worker's name gets it, and then the game's `tblWorker` is
      sent the same name keyed by the worker's `Name`; `game` is that
      write's outcome, which the cache change does not wait for. */
  function Update(s: Store, name: string, newFilename: string, appendGif: bool, default: Option<string>,
                  game: Result<()>): (r: UpdateOutcome)
    ensures UpdateName(newFilename, appendGif, default).Err? ==>
              r == UpdateOutcome(s, None, Err(UpdateName(newFilename, appendGif, default).fault))
    ensures UpdateName(newFilename, appendGif, default).Ok? && s.gameWorkers.None? ==>
              r == UpdateOutcome(s, None, Err(NoSuchTable))
    ensures r.sent.Some? <==> UpdateName(newFilename, appendGif, default).Ok? && s.gameWorkers.Some?
    ensures r.sent.Some? ==> && r.store.gameWorkers.Some?
                             && r.sent.value == GameWrite("tblWorker", TextCell(name), UpdateName(newFilename, appendGif, default).value)
                             && r.result == game
                             && r.store == s.(gameWorkers := r.store.gameWorkers)
    ensures r.sent.Some? ==> var rows := s.gameWorkers.value; var after := r.store.gameWorkers.value;
              && |after| == |rows|
              && forall i :: 0 <= i < |rows| ==>
                   after[i] == if rows[i].name == TextCell(name) then rows[i].(file := TextCell(r.sent.value.file)) else rows[i]
  {
    match UpdateName(newFilename, appendGif, default)
    case Err(f) => UpdateOutcome(s, None, Err(f))
    case Ok(file) =>
      match s.gameWorkers
      case None => UpdateOutcome(s, None, Err(NoSuchTable))
      case Some(rows) =>
        RenameKeepsRowids(rows, name, file);
        UpdateOutcome(s.(gameWorkers := Some(UpdateWhere(rows, NameIs(name), SetFile(file)))),
                      Some(GameWrite("tblWorker", TextCell(name), file)), game)
  }

  /** Reading a worker's file after updating it gives the stored name, or
      `""` when no cache row has that worker. */
  lemma {:induction false} UpdateThenFetch(s: Store, name: string, newFilename: string, appendGif: bool,
                        default: Option<string>, game: Result<()>)
    requires Update(s, name, newFilename, appendGif, default, game).sent.Some?
    ensures var r := Update(s, name, newFilename, appendGif, default, game);
            FetchFilename(r.store, name)
            == if NoRowNamed(s.gameWorkers.value, name) then Ok(TextCell(""))
               else Ok(TextCell(r.sent.value.file))
  {
    var file := UpdateName(newFilename, appendGif, default).value;
    FirstAfterUpdate(s.gameWorkers.value, NameIs(name), SetFile(file));
  }

  /** Updating one worker leaves what every other worker name reads. */
  lemma {:induction false} UpdateKeepsOthers(s: Store, name: string, other: string, newFilename: string, appendGif: bool,
                          default: Option<string>, game: Result<()>)
    requires other != name
    ensures FetchFilename(Update(s, name, newFilename, appendGif, default, game).store, other)
            == FetchFilename(s, other)
  {
    var r := Update(s, name, newFilename, appendGif, default, game);
    if r.sent.Some? {
      var file := UpdateName(newFilename, appendGif, default).value;
      FirstUnaffected(s.gameWorkers.value, NameIs(name), SetFile(file), NameIs(other));
    }
  }

  /** `_verify_local_worker_photo_cache_status`: the local table exists and
      holds a row. */
  function LocalCacheReady(s: Store): (r: bool)
    ensures r <==> ReadAll(s.localWorkers).Ok?
    ensures r ==> FetchCacheLists(s).Ok? || ReadAll(s.gameWorkers).Err?
  {
    match s.localWorkers
    case None => false
    case Some(rows) => |rows| > 0
  }
}

=== FILE: wrappers.dfy ===
/** Failure-carrying datatypes shared by every module of the model.

    The original program reports failure by raising Python exceptions; the
    model turns each raise into an `Err` carrying a `Fault` that names the
    kind of exception, so that callers can tell the error paths apart.
 */
module Wrappers {

  /** The kinds of failure the photo-cache core raises or absorbs. */
  datatype Fault =
    | NoSuchTable              // sqlite3 error: the table does not exist
    | EmptyList                // an engine's own "... list is empty" exception
    | SourceFailure            // the authoritative store or a directory scan raised
    | FolderMissing            // FileNotFoundError from the directory scan
    | InvalidRecordFormat      // a composite label without a recoverable uid
    | MissingDefaultExtension  // no default image extension configured
    | MissingAttribute         // AttributeError: a method the store object lacks
    | KeyNotFound              // KeyError
    | InvalidValue             // ValueError
    | TypeMismatch             // TypeError, e.g. None where a string is needed
    | ConstraintFailed         // sqlite3.IntegrityError: a primary key taken or not an integer

  /** The conventional Some/None datatype, standing for Python's `None`. */
  datatype Option<+T> = None | Some(value: T) {
    function GetOr(default: T): T {
      match this
      case Some(v) => v
      case None => default
    }
  }

  /** A value, or the fault that was raised instead of returning it. */
  datatype Result<+T> = Ok(value: T) | Err(fault: Fault) {
    predicate IsFailure() {
      Err?
    }

    function PropagateFailure<U>(): Result<U>
      requires Err?
    {
      Err(fault)
    }

    function Extract(): T
      requires Ok?
    {
      value
    }
  }
}
